=== FILE: README.md ===
# L'InviThé Gourmand storefront — a Dafny model of its decision logic

L'InviThé Gourmand is a Paris tea room with an online shop. Its server is written in
TypeScript with Express and Prisma. Visitors browse a catalogue, fill a cart held in their
session, apply promotion codes and pay through a Stripe checkout session. On payment the
order is marked paid and the stock is taken out of the shop. Administrators log in behind
a brute-force lockout. They can:
- move orders through their statuses;
- adjust stock, which writes a signed movement into a ledger;
- create products and categories with de-duplicated slugs;
- edit product images;
- moderate reviews;
- manage promotion codes.

This project models those decisions in Dafny and proves what they promise.

How the storefront's pieces are represented:
- **Database** (`Store.Database`, a class): one map per table plus two append-only
  sequences, the stock-movement ledger and the admin audit log.
  - Tables and their keys: products, categories, orders by id; promotion codes by code;
    reviews by id; admin users by email.
  - `State()` snapshots every table as a `DbState` value.
  - Handlers that decide on a value are specified by a function from the old `DbState`
    to the answer and the new `DbState`. The method that writes the tables is proved
    equal to that function.
- **Session** (`Sessions.Session`, a class): the admin identity, the login-attempt
  counter and a reference to the session cart.
- **Cart** (`Sessions.Cart`, a class): its line list and amounts are updated in place.
- **Money** is integer cents. The source computes in euros with
  `Math.round(x * 100) / 100`, which is half-up rounding to the cent (`Money.RoundHalfUp`).
  A promotion's `discountValue` is kept in hundredths: cents for a fixed discount,
  hundredths of a percent for a percentage.
- **Outside services** are parameters:
  - Stripe's session creation, session lookup and webhook signature check;
  - bcrypt's password comparison;
  - the clock (integer milliseconds);
  - new record ids and order numbers;
  - the rate limiter's verdict;
  - the e-mail and date checks of the validation schemas.
- **JavaScript built-ins** the code relies on are written out in `JsText`:
  - `toLowerCase` on the ASCII letters, and `toUpperCase` on ASCII and Latin-1, including ß → "SS", ÿ → Ÿ and µ → Μ;
  - `trim`;
  - `split`;
  - `parseInt` (leading whitespace, sign, `0x` prefix, leading digits).
- **JavaScript truthiness** is followed where the code depends on it:
  - A Prisma `Decimal` is an object, so a non-null `promoPrice` or `minOrderAmount` counts
    as present even when it is 0.
  - An `Int` `maxUses` of 0 is falsy, so it means "no limit".

The quirks of the code are kept, and proved as properties rather than fixed:
- `CartController.ZeroLimitsNeverReject`: limits of 0 never reject.
- `Checkout.TotalNotFloored`: the order total can be negative, while the cart total is
  floored at 0.
- `Checkout.ChargeIgnoresDiscount`: the payment session never carries the discount.
- `Checkout.RepeatConfirmationSellsTwice`: a second confirmation takes the stock out again.
- `Admin.RepeatedOrderDuplicates`: a repeated path in `imageOrder` duplicates an image.

## Model

| member | source | states |
|---|---|---|
| Sessions.Cart.Empty | src/controllers/cartController.ts:15-22 | a new cart has no lines, all amounts 0 and no promotion code |
| Sessions.LinesTotalConcat | src/controllers/cartController.ts:31-34 | the sum of price × quantity over two line lists put together is the sum of their sums |
| Money.RoundHalfUp | src/controllers/cartController.ts:35-36 | the result is the integer nearest n/d, a tie going up, as `Math.round` does |
| Money.RoundHalfUpUnique | src/controllers/cartController.ts:35-36 | exactly one integer meets that bound, so the rounding is determined |
| Money.RoundHalfUpExact | src/controllers/cartController.ts:35 | rounding an exact multiple gives it back, so re-rounding an amount already in cents changes nothing |
| Store.AppendAudit | src/controllers/adminController.ts:468-474 | one audit entry with the admin's e-mail and the action is appended and no table changes |
| JsText.LowerCase | src/utils/slugify.ts:12 | same length; each character is lowered, A–Z to a–z, and every other character is kept |
| JsText.UpperCase | src/controllers/adminController.ts:696 | on word characters and dashes: same length, no lower-case letter left, each letter raised by 32 and every other character kept |
| JsText.Trim | src/utils/slugify.ts:13 | the result is the input with the whitespace runs at both ends removed, and it neither starts nor ends with whitespace |
| JsText.Split | src/controllers/adminController.ts:285 | at least one part, and no part contains the separator |
| JsText.SplitJoin | src/controllers/adminController.ts:285 | joining the parts with the separator gives back the input |
| JsText.ParseInt | src/middlewares/validation.ts:49 | no number exactly when no digit follows the optional whitespace and sign; a non-negative value when there is no minus |
| JsText.ParseIntNatToString | src/middlewares/validation.ts:72-75 | `parseInt` reads back every decimal numeral and its negation |
| Helpers.CalculateShipping | src/utils/helpers.ts:143-147 | shipping is 0 or 590 cents, and 0 exactly for pickup or a subtotal of at least 50 € |
| Helpers.ShippingAntitone | src/utils/helpers.ts:143-147 | a larger subtotal never costs more shipping |
| Helpers.GetStockStatus | src/utils/helpers.ts:87-91 | out exactly when stock ≤ 0, low exactly when 0 < stock ≤ threshold, in otherwise |
| Helpers.StockStatusMonotone | src/utils/helpers.ts:87-91 | more stock never gives a worse status |
| Helpers.OrderStatusLabel | src/utils/helpers.ts:96-107 | each of the seven statuses maps to its label; any other string that is not an `Object.prototype` member name comes back unchanged |
| Helpers.OrderStatusColor | src/utils/helpers.ts:112-123 | each of the seven statuses maps to its badge class; any other string that is not an `Object.prototype` member name gets the gray class |
| Helpers.OrderStatusLabelsDistinct | src/utils/helpers.ts:96-107 | different statuses have different labels, and no label is itself a status |
| Helpers.MenuSectionLabel | src/utils/helpers.ts:128-138 | the six known sections map to their labels; other keys that are not `Object.prototype` member names come back unchanged |
| Helpers.StripSizeSuffix | src/utils/helpers.ts:58 | the result is a prefix of the input, shorter only when a `-thumbnail`, `-medium`, `-large` or `-original` suffix was removed |
| Helpers.StripSized | src/utils/helpers.ts:58 | a base with a size suffix appended comes back to the base |
| Helpers.GetSingleImage | src/utils/helpers.ts:49-63 | an empty path gives the placeholder; a path outside `/uploads/` is unchanged; an upload path without a dot becomes `-size` followed by the path |
| Helpers.UploadShape | src/utils/helpers.ts:52-60 | an upload path with a dot becomes its stem, with any size suffix stripped, then `-size`, then its extension from the last dot |
| Helpers.ResizeReplacesSuffix | src/utils/helpers.ts:52-60 | resizing an already resized upload replaces the size instead of stacking a second one |
| Helpers.ParseJsonArray | src/utils/helpers.ts:37-44 | a stored JSON array gives its elements; anything else gives the empty list |
| Helpers.GetProductImage | src/utils/helpers.ts:68-72 | the placeholder when the list is empty, else the first image at the requested size |
| Helpers.DropTrailingWord | src/utils/helpers.ts:31 | removes the last whitespace run and the non-space word after it, and leaves text without whitespace unchanged |
| Helpers.TruncateText | src/utils/helpers.ts:29-32 | text within the limit is unchanged; longer text becomes its first maxLength characters with the trailing partial word and the whitespace before it removed (all of them when they hold no whitespace), followed by "…" |
| Helpers.WordCutUnique | src/utils/helpers.ts:31 | that description of the cut text admits exactly one result |
| Helpers.TruncateDropsPartialWord | src/utils/helpers.ts:29-32 | "ab cd ef" truncated to 5 characters is "ab…" |
| Slugify.StripAccents | src/utils/slugify.ts:10-11 | no combining mark remains, and text made of word characters, spaces and dashes is unchanged |
| Slugify.DashSpaces | src/utils/slugify.ts:14 | no whitespace remains, and text without whitespace is unchanged |
| Slugify.KeepWordChars | src/utils/slugify.ts:15 | only word characters and dashes remain, and such text is unchanged |
| Slugify.CollapseDashes | src/utils/slugify.ts:16 | empty exactly when the input is, same first character, and dash-free text is unchanged |
| Slugify.CollapseNoDoubleDash | src/utils/slugify.ts:16 | after collapsing, no two dashes are adjacent |
| Slugify.CollapseKeepsWord | src/utils/slugify.ts:16 | collapsing keeps a lower-case word-and-dash string lower-case word-and-dash |
| Slugify.Slugify | src/utils/slugify.ts:7-19 | the slug has only a–z, 0–9, `_` and `-`, no dash at either end, and never two dashes in a row |
| Slugify.SlugifyJoinsWords | src/utils/slugify.ts:12-18 | two slug words separated by any whitespace run become the two words joined by one dash |
| Slugify.Candidate | src/utils/slugify.ts:30 | candidate 0 is the slug itself; candidate n > 0 is the slug, a dash and more |
| Slugify.CandidateInjective | src/utils/slugify.ts:30 | different counters give different candidates, so the loop never retries a slug |
| Slugify.FirstFreeSlug | src/utils/slugify.ts:29-32 | the result is not taken, and it is the first candidate, in counter order, that is not taken |
| Slugify.SlugifyUnique | src/utils/slugify.ts:24-35 | never an existing slug; the plain slug when it is free; otherwise slug-n with the least free n |
| Validation.Check | src/middlewares/validation.ts:84-88 | no issue exactly when the rule holds, else exactly the one field |
| Validation.DeliveryTimeOnTheHour | src/middlewares/validation.ts:33 | a delivery time is accepted exactly when it is two digits between 10 and 18 followed by ":00" |
| Validation.CheckoutIssues | src/middlewares/validation.ts:23-35 | the delivery method is flagged exactly when it is not "pickup" or "delivery", the time exactly when it is not on the hour 10–18, and there is no issue exactly when every field rule holds |
| Validation.ParseCheckout | src/middlewares/validation.ts:23-35 | accepted exactly when there is no issue, then the body unchanged with a delivery method of "pickup" or "delivery"; otherwise the issues |
| Validation.ProductPriceIssues | src/middlewares/validation.ts:42-44 | the price is flagged exactly when it is not a non-negative number, the promotional price exactly when it is non-empty and not a non-negative number, the category exactly when it is not a UUID |
| Validation.ProductIssues | src/middlewares/validation.ts:38-55 | price, promotional price and stock are flagged exactly when their rules fail; no issue implies a name of 2–200 characters and a UUID category |
| Validation.ParseProduct | src/middlewares/validation.ts:38-55 | accepted exactly when there is no issue, and then the stock parses to a non-negative integer |
| Validation.StockNumeralRule | src/middlewares/validation.ts:49 | every decimal numeral is a valid stock, and no negative numeral is |
| Validation.ParseCartItem | src/middlewares/validation.ts:58-61 | accepted exactly when the product id is a UUID and the quantity is an integer in 1..99 |
| Validation.ParsePromoCode | src/middlewares/validation.ts:64-66 | accepted exactly when the code has 3..30 characters, and then the value is the upper-cased code |
| Validation.RatingNumerals | src/middlewares/validation.ts:72-75 | the numeral of n is a valid rating exactly when 1 ≤ n ≤ 5 |
| Validation.ParseReview | src/middlewares/validation.ts:69-77 | accepted exactly when name, e-mail, rating and comment meet their rules, and then the body unchanged |
| Validation.FieldNames | src/middlewares/validation.ts:88 | one message per issue, in order |
| Validation.ValidateBody | src/middlewares/validation.ts:84-106 | next is called exactly on success, with the parsed data; a failure is a 400, as JSON exactly for `/api`, XHR or JSON-accepting requests, otherwise a page with the messages joined by ", " |
| StripeService.ItemLine | src/services/stripeService.ts:29-41 | the line has the item's name and quantity, a unit amount equal to the promotional price if set else the price, and an image exactly when the item has one |
| StripeService.ItemLines | src/services/stripeService.ts:29-42 | one line per cart item, in order |
| StripeService.SessionLines | src/services/stripeService.ts:29-56 | the item lines, then one "Frais de livraison" line of quantity 1 exactly when shipping is positive |
| StripeService.ChargedSessionLines | src/services/stripeService.ts:29-56 | the session charges the cart's line total plus any positive shipping |
| StripeService.SessionRequestFor | src/services/stripeService.ts:59-74 | the request has those lines, no discount, the customer e-mail, metadata with order id, number and delivery method, and expires 1800 s after now, rounded down to the second |
| StripeService.CreateCheckoutSession | src/services/stripeService.ts:25-77 | the request is the one above; a failed creation gives no url; a missing url becomes "" |
| CartController.GetCart | src/controllers/cartController.ts:13-25 | returns the session's cart when there is one, else a fresh empty cart now held by the session; the cart's contents and the login state are unchanged |
| CartController.Recalculated | src/controllers/cartController.ts:30-38 | the subtotal is the sum of line prices; the total is subtotal + shipping − discount floored at 0; lines, shipping, discount and promotion code are unchanged |
| CartController.RecalculateCart | src/controllers/cartController.ts:30-38 | the cart in place becomes its recalculated state |
| CartController.Snapshot | src/controllers/cartController.ts:300-312 | the new line copies the product's id and stock, with the requested quantity, and its unit price is the live promotional price if set else the price |
| CartController.AddLine | src/controllers/cartController.ts:290-318 | a refusal is always insufficient stock; a success keeps the discount and promotion code and the totals consistent |
| CartController.AddLineEffect | src/controllers/cartController.ts:290-318 | refused exactly when the cart's quantity plus the new quantity exceeds stock; otherwise product ids stay unique, only that product's quantity grows by the amount, a line is appended only when the product was absent, and the subtotal grows by quantity × the line's unit price |
| CartController.AddToCart | src/controllers/cartController.ts:290-318 | a stock refusal is a 400 with the available stock and an unchanged cart; otherwise a 200 and the cart becomes the cart with the line incremented or appended, totals recomputed |
| CartController.ApiAddToCart | src/controllers/cartController.ts:280-329 | missing or inactive product: 404 and nothing changes; refused add: 400 and the cart is unchanged; otherwise 200 and the cart is the added-to cart |
| CartController.UpdateLine | src/controllers/cartController.ts:338-359 | a refusal is a missing line or insufficient stock of the live product; a success keeps the discount and promotion code and the totals consistent |
| CartController.UpdateLineEffect | src/controllers/cartController.ts:338-359 | 404 exactly when the line is absent; 400 exactly when a positive quantity exceeds the live stock of an existing product; otherwise a quantity ≤ 0 removes the line, a positive one sets it, and no other product's quantity changes |
| CartController.ApiUpdateCart | src/controllers/cartController.ts:334-364 | the reply and the new cart are those of the update, and a refusal leaves the cart unchanged |
| CartController.RemoveLines | src/controllers/cartController.ts:369-376 | no line of the product remains, the discount and promotion code are kept, and removing an absent product changes nothing |
| CartController.RemoveLinesEffect | src/controllers/cartController.ts:369-376 | product ids stay unique and every other product's quantity is unchanged |
| CartController.ApiRemoveFromCart | src/controllers/cartController.ts:369-376 | the session cart becomes the cart without the product's lines |
| CartController.PromoDiscount | src/controllers/cartController.ts:412-417 | a percentage gives subtotal × value rounded half-up to the cent; a fixed discount gives the value as is |
| CartController.PercentageWithinSubtotal | src/controllers/cartController.ts:412-414 | a percentage of at most 100 % never discounts more than the subtotal |
| CartController.PromoDecision | src/controllers/cartController.ts:388-421 | rejection reasons in the code's order (invalid, expired, exhausted only for non-zero maxUses, below minimum), each exactly when the earlier checks pass and its own fails; on success the lines and shipping are kept, the promotion code is the stored code and the discount is that of the promotion |
| CartController.ZeroLimitsNeverReject | src/controllers/cartController.ts:398-406 | a promotion whose maxUses and minOrderAmount are 0 or null is never refused for use count or minimum |
| CartController.Bienvenue10Scenario | src/controllers/cartController.ts:388-421 | the seeded 10 % BIENVENUE10 code takes 2.50 € off a 25 € cart, and is refused for a 19.99 € cart with the 20 € minimum |
| CartController.ApplyPromo | src/controllers/cartController.ts:388-421 | a refusal is a 400 with the reason and an unchanged cart; success is a 200 and the cart becomes the decided cart |
| CartController.ApiApplyPromo | src/controllers/cartController.ts:381-433 | looks the code up upper-cased and answers as the promotion decision on the session cart |
| Checkout.Repriced | src/controllers/cartController.ts:95-107 | one line per cart line, each re-priced from the live product |
| Checkout.RepriceLines | src/controllers/cartController.ts:95-107 | succeeds exactly when every line's product exists, is active and has enough stock, and then gives the re-priced lines |
| Checkout.OrderLines | src/controllers/cartController.ts:132-139 | one order item per line, with the unit price and unit price × quantity |
| Checkout.ItemsTotalOfLines | src/controllers/cartController.ts:110-111 | the sum of the order items' totals is the cart-line total |
| Checkout.NewOrder | src/controllers/cartController.ts:110-145 | a pending order without a payment session; the items from the re-priced lines; subtotal their sum; shipping from the delivery method; total = subtotal + shipping − discount; an address exactly for delivery |
| Checkout.CheckoutUsesLivePrices | src/controllers/cartController.ts:95-107 | each order item has the cart line's product and quantity and the live product's price |
| Checkout.ChargeIgnoresDiscount | src/services/stripeService.ts:64 | the payment session charges the order total plus the discount, that is, without the discount |
| Checkout.TotalNotFloored | src/controllers/cartController.ts:112-115 | a 5 € pickup order with a 10 € discount has a total of −5 € |
| Checkout.CheckoutRedirect | src/controllers/cartController.ts:148-167 | a failed session creation gives the server error redirect; a session url gives that url; an empty url gives the stripe error redirect |
| Checkout.InsertOrder | src/controllers/cartController.ts:120-145 | the one new order is added and nothing else changes |
| Checkout.PlaceOrder | src/controllers/cartController.ts:80-167 | an empty cart or a line that cannot be bought gives its redirect and no order; otherwise exactly one new order, and the redirect of the session made for it |
| Checkout.OpenOrder | src/controllers/cartController.ts:120-167 | exactly the one new order is stored, and the redirect is the one for the payment session made for it |
| Checkout.ProcessCheckout | src/controllers/cartController.ts:77-168 | the same, on the session cart, which is left unchanged |
| Checkout.StockAfterSale | src/controllers/cartController.ts:201-214 | the product table keeps its keys |
| Checkout.SaleMovements | src/controllers/cartController.ts:206-212 | one movement per line, in order, with −quantity, reason "sale" and the order id |
| Checkout.SalePrefix | src/controllers/cartController.ts:201-214 | the lines before the first missing product, which stops the loop |
| Checkout.SalesCompose | src/controllers/cartController.ts:201-214 | selling two lists one after the other is selling their concatenation |
| Checkout.RepeatConfirmationSellsTwice | src/controllers/cartController.ts:191-214 | confirming the same order twice takes its quantities out of stock twice |
| Checkout.SaleKeepsLedgerBalanced | src/controllers/cartController.ts:201-214 | stock minus the recorded movements is the same before and after a sale |
| Checkout.SellLines | src/controllers/cartController.ts:201-214 | the loop sells the lines before the first missing product, records their movements, and reports whether it reached the end |
| Checkout.AfterConfirmation | src/controllers/cartController.ts:191-214 | the order becomes paid with the session id; only orders, products and movements change, and no product is added or removed |
| Checkout.AfterConfirmationEffect | src/controllers/cartController.ts:191-214 | the stock ledger stays balanced, and a complete sale takes every line out of stock with one movement each |
| Checkout.AfterConfirmationWellKeyed | src/controllers/cartController.ts:191-214 | confirmation keeps every row under its own key |
| Checkout.ConfirmOrder | src/controllers/cartController.ts:191-214 | the database becomes its confirmed state, and the sale is complete exactly when every line's product exists |
| Checkout.ConfirmationPage | src/controllers/cartController.ts:173-265 | no session id, or no order id in the session metadata: home and nothing changes; a failed lookup or unknown order: error page and nothing changes; otherwise the confirmed state, and on a complete sale a fresh empty cart |
| ApiRoutes.EventStatus | src/routes/api.ts:23-57 | completed events give "paid", expired events "cancelled", only with an order id; any other event gives nothing |
| ApiRoutes.WebhookOutcome | src/routes/api.ts:13-64 | no signature or a failed check: 400 and nothing changes; an ignored event: 200 and nothing changes; otherwise only that order's status (and for a completed event its session id) changes; stock and movements never change |
| ApiRoutes.WebhookKeepsStock | src/routes/api.ts:24-52 | the webhook keeps the stock ledger balanced |
| ApiRoutes.WebhookIdempotent | src/routes/api.ts:24-52 | delivering the same event twice leaves the state of one delivery |
| ApiRoutes.StripeWebhook | src/routes/api.ts:13-64 | the status and the new database are the webhook outcome |
| ApiRoutes.AdminOrderStatusRoute | src/routes/api.ts:74 | without an admin session: redirect to login and nothing changes; with one: the order-status update |
| ApiRoutes.AdminStockRoute | src/routes/api.ts:75 | without an admin session: redirect to login and nothing changes; with one: the stock adjustment |
| Admin.OrderStatusUpdate | src/controllers/adminController.ts:451-481 | 400 exactly for a status outside the seven; a server error exactly for an unknown order; otherwise that order takes the status whatever it was, one ORDER_STATUS_UPDATE entry is appended and nothing else changes |
| Admin.ApiUpdateOrderStatus | src/controllers/adminController.ts:451-481 | answers as the update, with the status label on success |
| Admin.StockReason | src/controllers/adminController.ts:512 | the given reason, or "adjustment" when it is empty |
| Admin.StockAdjustment | src/controllers/adminController.ts:486-530 | 400 exactly for a stock that does not parse to a non-negative integer; 404 exactly for a valid stock of an unknown product; no change on either |
| Admin.StockAdjustmentEffect | src/controllers/adminController.ts:503-523 | on success the stock becomes the new value, one movement is appended whose change takes the old stock to the new, with the reason or "adjustment", and one STOCK_UPDATE entry |
| Admin.StockAdjustmentWellKeyed | src/controllers/adminController.ts:486-530 | the adjustment keeps every row under its own key |
| Admin.StockAdjustmentBalancesLedger | src/controllers/adminController.ts:503-514 | stock minus the recorded movements is the same before and after the adjustment |
| Admin.ApiUpdateStock | src/controllers/adminController.ts:486-530 | the reply and the new database are the stock adjustment |
| Admin.CategorySlugs | src/controllers/adminController.ts:565 | exactly the slugs of the stored categories |
| Admin.ProductSlugs | src/controllers/adminController.ts:200 | exactly the slugs of the stored products |
| Admin.FreeCategorySlug | src/controllers/adminController.ts:565-571 | a slug no category has, the first free slug, counter suffix in order, for the name |
| Admin.FreeProductSlug | src/controllers/adminController.ts:200-206 | a slug no product has, the first free slug, counter suffix in order, for the name |
| Admin.FirstFreeIsPlainWhenFree | src/controllers/adminController.ts:201-203 | when the plain slug is free, it is the slug chosen |
| Admin.CategoryAddedKeepsDistinct | src/controllers/adminController.ts:565-580 | adding a category with a free slug keeps category slugs distinct |
| Admin.ProductAddedKeepsDistinct | src/controllers/adminController.ts:200-229 | adding a product with a free slug keeps product slugs distinct |
| Admin.CategoryCreationKeeps | src/controllers/adminController.ts:561-590 | the new category is the only row added, rows stay under their keys, and slugs stay distinct |
| Admin.InsertCategory | src/controllers/adminController.ts:573-588 | the database becomes the category-creation state |
| Admin.CreateCategory | src/controllers/adminController.ts:561-590 | creates the category under its id with the first free slug, appends CATEGORY_CREATE, and redirects with success |
| Admin.IntOr | src/controllers/adminController.ts:221-222 | the parsed integer, or the fallback when it does not parse or is 0 |
| Admin.IntOrNumeral | src/controllers/adminController.ts:221-222 | a decimal numeral or its negation reads as its value, except that 0 gives the fallback |
| Admin.ZeroThresholdBecomesDefault | src/controllers/adminController.ts:222 | an illustration of `Admin.IntOrNumeral`: an alert threshold typed as 0 is stored as 5 |
| Admin.NewProduct | src/controllers/adminController.ts:208-228 | the stored product has the form's fields, the uploads as images, the stock as parsed when it parses to a non-zero integer and 0 otherwise, the threshold as parsed when it parses to a non-zero integer and 5 otherwise, and is active exactly when the box was "on" |
| Admin.ProductCreationKeeps | src/controllers/adminController.ts:187-245 | rows stay under their keys, categories stay referenced, slugs stay distinct, and a product is added exactly when its category exists |
| Admin.InsertProduct | src/controllers/adminController.ts:208-240 | the database becomes the product-creation state with the success redirect |
| Admin.CreateProduct | src/controllers/adminController.ts:187-245 | creation with the first free slug for the name |
| Admin.DropPaths | src/controllers/adminController.ts:287 | keeps exactly the paths not listed for deletion |
| Admin.DropPathsConcat | src/controllers/adminController.ts:287 | the filter of a concatenation is the concatenation of the filters, so the kept paths stay in their order |
| Admin.DropPathsSingle | src/controllers/adminController.ts:287 | one path is kept exactly when it is not listed for deletion |
| Admin.DropPathsNone | src/controllers/adminController.ts:287 | with no listed path present, the list is unchanged |
| Admin.PathsIn | src/controllers/adminController.ts:303 | keeps exactly the ordered paths that are current images |
| Admin.NonBlank | src/controllers/adminController.ts:301 | keeps exactly the parts that are not blank once trimmed |
| Admin.Reorder | src/controllers/adminController.ts:300-307 | the same set of images: the requested ones first, in the requested order, then the others in their previous order |
| Admin.EditImagesEffect | src/controllers/adminController.ts:265-307 | an image is kept exactly when it was stored or uploaded and not deleted; no deleted path remains; without an order the surviving stored images come first and the surviving uploads follow, each in their order; with an order the requested images lead and the other survivors follow in that order |
| Admin.Surviving | src/controllers/adminController.ts:285-288 | the images left by the deletion field, all of them when it is empty |
| Admin.RepeatedOrderDuplicates | src/controllers/adminController.ts:300-307 | an order naming one image twice stores it twice |
| Admin.CategoryDeletion | src/controllers/adminController.ts:632-659 | error=hasproducts exactly while a product references the category, error=delete for an unknown category, no change on either; otherwise only the category goes and CATEGORY_DELETE is appended, keeping every product's category present |
| Admin.DeleteCategory | src/controllers/adminController.ts:632-659 | the redirect and the new database are the deletion's |
| Admin.ReviewModeration | src/controllers/adminController.ts:893-921 | only "approved" or "rejected" are accepted, an unknown review fails, no change on either; otherwise only that review's status changes and REVIEW_MODERATION is appended |
| Admin.UpdateReviewStatus | src/controllers/adminController.ts:893-921 | the redirect and the new database are the moderation's |
| Admin.NormalizeCode | src/controllers/adminController.ts:696 | the stored code has no whitespace at either end, and a code of word characters and dashes is stored upper-cased |
| Admin.StoredCodeMatchesAnyCase | src/controllers/adminController.ts:696 | a customer typing the code in lower case or as created finds the stored code |
| Admin.UpperOfLower | src/controllers/adminController.ts:696 | upper-casing the lower-cased code is upper-casing the code |
| Admin.PromoRecord | src/controllers/adminController.ts:694-703 | the record has the normalised code and the form's discount, limits and expiry |
| Admin.PromoCreation | src/controllers/adminController.ts:690-723 | error=duplicate exactly when the normalised code exists, with no change; otherwise one active record with no uses and PROMO_CREATE |
| Admin.PromoCreationWellKeyed | src/controllers/adminController.ts:690-723 | creation keeps every code under its own key and promotion ids distinct |
| Admin.CreatePromoCode | src/controllers/adminController.ts:690-723 | the redirect and the new database are the creation's |
| Admin.PromoUpdate | src/controllers/adminController.ts:728-759 | a code colliding with another promotion fails with no change; otherwise the record moves to its normalised code, keeps its id and uses, is active only for "on"/"true", other codes are untouched and PROMO_UPDATE is appended |
| Admin.PromoUpdateWellKeyed | src/controllers/adminController.ts:728-759 | the update keeps every code under its own key and promotion ids distinct |
| Admin.UpdatePromoCode | src/controllers/adminController.ts:728-759 | an unknown id fails with no change; otherwise the update of the promotion with that id |
| Admin.StockAlerts | src/controllers/adminController.ts:42-43 | only stored products, and every active product that is out of stock is among them |
| Admin.AlertsAreLowOrOut | src/controllers/adminController.ts:42-43 | for a non-negative threshold, an alert exactly for an active product whose stock status is low or out |
| Admin.CountedOrders | src/controllers/adminController.ts:26-28 | at most the number of orders |
| Admin.CountedOrdersCounts | src/controllers/adminController.ts:26-28 | the count is the number of orders whose status is not cancelled |
| Admin.AverageCart | src/controllers/adminController.ts:45-49 | 0 with no non-cancelled order; otherwise revenue ÷ count rounded half-up to the cent |
| Admin.AverageOfEqualTotals | src/controllers/adminController.ts:45-49 | orders of equal totals average to that total |
| Auth.RequireAdmin | src/middlewares/auth.ts:12-20 | next exactly when both adminId and adminEmail are set |
| Auth.CeilDiv | src/middlewares/auth.ts:32 | the least integer at least n ÷ d |
| Auth.BruteForceCheck | src/middlewares/auth.ts:25-49 | locked (429) exactly with ≥ 5 attempts inside 15 minutes, changing nothing and reporting the minutes left rounded up; past the window the counter resets to 0; under 5 attempts it proceeds and changes nothing |
| Auth.LockoutMinutesInRange | src/middlewares/auth.ts:32 | while locked, the reported minutes lie in 1..15 |
| Auth.CheckBruteForce | src/middlewares/auth.ts:25-49 | the gate and new session state are the check's, and the cart is untouched |
| Auth.AfterFailure | src/middlewares/auth.ts:54-57 | one more attempt, stamped with now, and the identity kept |
| Auth.RecordFailedLogin | src/middlewares/auth.ts:54-57 | the session takes the state after a failure |
| Auth.ResetLoginAttempts | src/middlewares/auth.ts:62-65 | attempts 0 and no last attempt, nothing else changed |
| Auth.FailuresCount | src/middlewares/auth.ts:54-57 | n failures add n attempts and stamp the last time |
| Auth.FifthFailureLocks | src/middlewares/auth.ts:31 | five failures from a clean state lock the account for 15 minutes after the fifth, and none of the first five attempts was locked out |
| Auth.LoginPage | src/controllers/authController.ts:11-25 | a session with an admin id is sent to the dashboard |
| Auth.ProcessLogin | src/controllers/authController.ts:30-94 | an unknown e-mail records a failure and writes no audit entry; a wrong password records a failure and LOGIN_FAILED; a right one resets attempts, sets the identity and appends LOGIN_SUCCESS |
| Auth.FailedLoginKeepsAccess | src/middlewares/auth.ts:54-57 | a failed attempt leaves the session's access to the admin routes as it was |
| Auth.LoginAuthenticates | src/controllers/authController.ts:69-72 | after a successful login the session passes requireAdmin |
| Auth.Logout | src/controllers/authController.ts:99-113 | the session is emptied, LOGOUT is appended only when an admin e-mail was present, and the redirect is the login page |
| Shop.PageNumber | src/controllers/shopController.ts:149 | the parsed page, or 1 when it does not parse or is 0; a negative page is kept |
| Shop.PageCount | src/controllers/shopController.ts:190 | the number of 12-product pages needed, rounded up |
| Shop.Paginate | src/controllers/shopController.ts:149-150 | skip = (page − 1) × 12, take = 12, and the page count |
| Shop.NegativePageNegativeSkip | src/controllers/shopController.ts:149-150 | `?page=-k` gives page −k and the negative skip −(k + 1) × 12, which the store refuses |
| Shop.PagesCoverCatalogue | src/controllers/shopController.ts:183-190 | every page from 1 to the count starts inside the catalogue, and the last one reaches its end |
| Shop.SortOrder | src/controllers/shopController.ts:170-176 | prix_asc, prix_desc and nom select their orders; anything else is newest first |
| Shop.Sections | src/controllers/shopController.ts:115-121 | one non-empty group per section that occurs, holding that section's items in input order |
| Shop.ItemsInMembers | src/controllers/shopController.ts:115-121 | a group holds only input items of its own section |
| Shop.EachItemOnce | src/controllers/shopController.ts:115-121 | every item appears under its own section as often as in the input, and under no other section |
| Shop.GroupBySection | src/controllers/shopController.ts:115-121 | the loop builds exactly those groups |
| Shop.OfferFor | src/controllers/shopController.ts:287-291 | the offer price is the promotional price if set else the price; in stock exactly when stock > 0 |
| Shop.OfferMatchesCart | src/controllers/shopController.ts:287-291 | the offer price is what the cart would charge, and in stock means the stock status is not out |
| Shop.ProductPage | src/controllers/shopController.ts:224-239 | not found exactly when no active product has the slug; otherwise that product, its offer and its large image |
| Shop.StaticEntries | src/controllers/shopController.ts:337-346 | four static pages |
| Shop.SitemapEntries | src/controllers/shopController.ts:337-356 | the four static entries, then one per category, then one per active product, in order |
| Shop.SitemapEntriesWellFormed | src/controllers/shopController.ts:344-356 | every entry has a change frequency and priority from the sitemap protocol, and exactly the product entries carry a lastmod |
| Shop.SitemapFraming | src/controllers/shopController.ts:333-358 | the document starts with the XML declaration and the urlset opening tag and ends with the closing tag |
| Shop.SitemapInThreeParts | src/controllers/shopController.ts:333-358 | the document is the header, the static, category and product entries in turn, and the closing tag |
| Shop.AppendEntries | src/controllers/shopController.ts:344-356 | the `+=` loop appends each entry's text in order |
| Shop.SitemapXml | src/controllers/shopController.ts:322-366 | the text built is the sitemap document |
| PublicRoutes.Guard | src/routes/public.ts:47 | a limited request gets 429; otherwise the handler is reached exactly when the body validates, and a refusal is the validator's 400 |
| PublicRoutes.CheckoutGuarded | src/routes/public.ts:47 | the checkout handler is reached exactly when the limiter lets it through and the checkout schema has no issue, and then with a delivery method of "pickup" or "delivery" |
| PublicRoutes.FormOf | src/controllers/cartController.ts:85-92 | absent fields are read as "" |
| PublicRoutes.PostCheckout | src/routes/public.ts:47 | 429, the validator's 400 or the checkout redirect; nothing is stored unless the handler runs, and then the new order is the checkout's |
| PublicRoutes.ProductWithSlug | src/routes/public.ts:65 | finds a product exactly when one has the slug, and then that product |
| PublicRoutes.AcceptedReviewIsValidated | src/middlewares/validation.ts:69-77 | every body the review schema accepts has all fields and a rating in 1..5 |
| PublicRoutes.PendingReview | src/routes/public.ts:71-80 | the review is pending, for the product, with the parsed rating in 1..5 |
| PublicRoutes.ReviewIntake | src/routes/public.ts:54-82 | a filled honeypot redirects as submitted with no change; an unknown slug redirects with error=product with no change; otherwise one pending review for that product |
| PublicRoutes.ReviewIntakeOnlyAddsReview | src/routes/public.ts:54-82 | only the review table changes, by at most the one new pending review of an existing product |
| PublicRoutes.HoneypotStoresNothing | src/routes/public.ts:60-63 | a bot filling the hidden field is told success and nothing is stored |
| PublicRoutes.SubmitReview | src/routes/public.ts:54-82 | the redirect and the new database are the intake's |

## Left out

- E-mail, PDF invoices and image resizing (`src/services/emailService.ts`, `src/services/pdfService.ts`, `src/services/imageService.ts`) are not part of this model. Uploads arrive as the list of stored paths they produce; sending mail has no effect on the modelled state.
- Stripe, bcrypt, the clock, new ids and order numbers are parameters. `constructWebhookEvent` and `getCheckoutSession` (src/services/stripeService.ts:82-94) are the `constructEvent` and `retrieve` functions; `generateOrderNumber` is the `orderNumber` argument.
- The rate limiters are the `limited` argument; their windows and counters are not modelled.
- Validation error messages are reduced to the name of the failing field, one per failing field: where zod reports two issues for one field, as for a cart-item quantity that is both fractional and outside 1..99 (src/middlewares/validation.ts:60), the model reports the field once; the e-mail format check and `Date.parse` are the `isEmail` and `dateParses` arguments. Length bounds count UTF-16 code units in the source and characters here.
- Floating point: every amount is integer cents, so the float noise of `Math.round(x * 100) / 100` on sums is not modelled, and `parseFloat` prices are kept as cents already parsed. The validators' sign test on `parseFloat` does not read an exponent, so a price such as `-1e-400`, which underflows to -0 and passes `>= 0` in the source, is refused here. `formatPrice` (locale formatting) and `calculateDiscount` (a float percentage for display) are left out as display code.
- Integers are unbounded; the 32-bit `Int` columns of the database are not bounded here.
- Unicode NFD normalisation in `slugify` is modelled for Latin-1 letters only; other decomposable characters are kept as they are.
- Case mapping is modelled for `toLowerCase` on the ASCII letters and for `toUpperCase` on ASCII and Latin-1 only; promotion codes or slugs holding other letters are not case-mapped as JavaScript would map them.
- Concurrency: each handler is one sequential step over the store. Races between the webhook and the confirmation page, or between two checkouts, are not modelled.
- Database errors and the `catch` branches that answer them are modelled only where the code reaches them by a missing or colliding row: an unknown order in the status update and in the Stripe webhook (400), an unknown order on the confirmation page (the error page), a missing product during confirmation (the loop stops there, as the thrown error does), a product whose category does not exist (`error=create`), an unknown category on deletion (`error=delete`), an unknown review on moderation (`error=moderation`), a duplicate promotion code on creation (`error=duplicate`), and an unknown promotion id or a colliding code on update (`error=update`). The review handler's `catch` (src/routes/public.ts:83-87), the `catch` of category creation, every other failure of the database, and an `orderNumber` collision are not modelled.
- `labels[key] || key` in `getOrderStatusLabel`, `getOrderStatusColor` and `getMenuSectionLabel` (src/utils/helpers.ts:106, 122, 137) also finds members inherited from `Object.prototype`: a status or section named `constructor`, `toString` or `__proto__` gives back a function or an object there. The model treats such names as any other unknown key; no status or section the store holds has one of them.
- The database's unique index on product slugs is an assumption of the slug lookups (`Shop.SlugsUnique`) rather than enforced by the model's writes.
- Admin.AlertsAreLowOrOut: stated for non-negative alert thresholds only; with a negative threshold an out-of-stock product need not be an alert, exactly as the filter at src/controllers/adminController.ts:43 gives.
- Admin.StockAlerts: states the alert set's inclusion only for active out-of-stock products; the full characterisation is `Admin.AlertsAreLowOrOut`.
- The dashboard's revenue per day, today's and this month's revenue, the top products and the recent orders (src/controllers/adminController.ts:45-47, 51-130) depend on dates and aggregate queries and are not modelled; only the stock alerts and the average cart are.
- `updateProduct` is modelled for its image editing only; its other fields, its `isNaN` price check and its store write are not modelled.
- `deleteProduct`, `updateCategory`, `deletePromoCode`, `deleteReview`, `exportOrdersCSV` and the admin listing pages are outside the modelled core. `deleteOrder` and `downloadInvoice`, referenced by the routes, are not defined in the controllers shown and are not modelled.
- The catalogue's category and text search filters (src/controllers/shopController.ts:156-167) are database queries and are left out; pagination and sort selection are modelled.
- `homePage`, `menuPage`'s rendering, `contactPage`, `robotsTxt`, `cartPage`, `checkoutPage` and `apiGetCart` only render or return the state and are not modelled; the cache in front of the store is treated as a direct read.
- The contact form route (src/routes/public.ts:91-125) only sends mail and is not modelled.
- The cart API routes apply no body schema. Only integer quantities are modelled, of any sign and size; a JSON `quantity` that is not an integer (a fraction, a string such as "2", which `+` concatenates to an existing quantity, or `null`) reaches the stock test and the stored cart in the source, and is left out here. The cart-item schema is modelled on its own (`Validation.ParseCartItem`).

=== FILE: Admin.dfy ===
/**
 * The back-office decisions: order-status changes, manual stock adjustments and their
 * signed ledger entries, product and category creation with de-duplicated slugs,
 * image-list editing, the category-delete guard, review moderation, promotion-code
 * normalisation and the dashboard's stock alerts and average basket. Every handler logs
 * under the session's admin email (empty when there is none).
 */
module Admin {
  import opened Wrappers
  import opened Money
  import opened JsText
  import opened Helpers
  import opened Slugify
  import opened Store
  import opened Sessions

  /* ---------------------------------------------------------------------------------
   * Order status
   * --------------------------------------------------------------------------------- */

  /**
   * `apiUpdateOrderStatus`: a status outside the seven known ones is refused with 400;
   * an unknown order makes the update throw (500); otherwise the order takes the new
   * status whatever its current one and one ORDER_STATUS_UPDATE entry is logged.
   */
  function OrderStatusUpdate(t: DbState, adminEmail: string, id: string, status: string): (r: (int, DbState))
    ensures r.0 == 400 <==> status !in OrderStatuses
    ensures r.0 == 500 <==> status in OrderStatuses && id !in t.orders
    ensures r.0 != 200 ==> r.1 == t
    ensures r.0 == 200 ==>
      id in t.orders && r.1.orders.Keys == t.orders.Keys &&
      r.1.orders[id] == t.orders[id].(status := status) &&
      (forall o :: o in t.orders && o != id ==> r.1.orders[o] == t.orders[o]) &&
      r.1.audit == t.audit + [AuditEntry(adminEmail, "ORDER_STATUS_UPDATE")] &&
      r.1 == t.(orders := r.1.orders, audit := r.1.audit)
    ensures WellKeyed(t) ==> WellKeyed(r.1)
  {
    if status !in OrderStatuses then (400, t)
    else if id !in t.orders then (500, t)
    else (200, t.(orders := t.orders[id := t.orders[id].(status := status)],
                  audit := t.audit + [AuditEntry(adminEmail, "ORDER_STATUS_UPDATE")]))
  }

  method ApiUpdateOrderStatus(s: Session, db: Database, id: string, status: string)
    returns (code: int, statusLabel: Option<string>)
    modifies db
    ensures (code, db.State()) == OrderStatusUpdate(old(db.State()), s.adminEmail, id, status)
    ensures statusLabel == (if code == 200 then Some(OrderStatusLabel(status)) else None)
  {
    if status !in OrderStatuses {
      return 400, None;
    }
    if id !in db.orders {
      return 500, None;
    }
    db.orders := db.orders[id := db.orders[id].(status := status)];
    AppendAudit(db, s.adminEmail, "ORDER_STATUS_UPDATE");
    code, statusLabel := 200, Some(OrderStatusLabel(status));
  }

  /* ---------------------------------------------------------------------------------
   * Stock adjustment
   * --------------------------------------------------------------------------------- */

  const DefaultStockReason := "adjustment"

  /** `reason || 'adjustment'`. */
  function StockReason(reason: string): (r: string)
    ensures r != ""
    ensures reason != "" ==> r == reason
  {
    if reason == "" then DefaultStockReason else reason
  }

  /** The requested stock is readable by `parseInt` and not negative. */
  predicate ValidStock(stock: string)
  {
    ParseInt(stock).Some? && ParseInt(stock).value >= 0
  }

  /**
   * `apiUpdateStock`: 400 for a stock that is not a number or is negative, 404 for an
   * unknown product, both without change; otherwise the product's stock becomes the new
   * value, one movement records the signed difference (no order attached), and one
   * STOCK_UPDATE entry is logged.
   */
  function StockAdjustment(t: DbState, adminEmail: string, id: string, stock: string, reason: string): (r: (int, DbState))
    ensures r.0 == 400 <==> !ValidStock(stock)
    ensures r.0 == 404 <==> ValidStock(stock) && id !in t.products
    ensures r.0 in {200, 400, 404}
    ensures r.0 != 200 ==> r.1 == t
  {
    if !ValidStock(stock) then (400, t)
    else if id !in t.products then (404, t)
    else
      var product := t.products[id];
      var newStock := ParseInt(stock).value;
      var movement := StockMovement(id, newStock - product.stock, StockReason(reason), None);
      (200, t.(products := t.products[id := product.(stock := newStock)],
               movements := t.movements + [movement],
               audit := t.audit + [AuditEntry(adminEmail, "STOCK_UPDATE")]))
  }

  /**
   * An accepted adjustment sets the product's stock to the parsed value, appends one
   * movement holding the signed difference, the reason (or its default) and no order,
   * logs STOCK_UPDATE, and changes no other table.
   */
  lemma StockAdjustmentEffect(t: DbState, adminEmail: string, id: string, stock: string, reason: string)
    requires StockAdjustment(t, adminEmail, id, stock, reason).0 == 200
    ensures var r := StockAdjustment(t, adminEmail, id, stock, reason);
      var newStock := ParseInt(stock).value;
      id in t.products && newStock >= 0 &&
      r.1.products == t.products[id := t.products[id].(stock := newStock)] &&
      |r.1.movements| == |t.movements| + 1 && r.1.movements[..|t.movements|] == t.movements &&
      r.1.movements[|t.movements|].productId == id &&
      t.products[id].stock + r.1.movements[|t.movements|].quantityChange == newStock &&
      r.1.movements[|t.movements|].reason == StockReason(reason) &&
      r.1.movements[|t.movements|].orderId.None? &&
      r.1.audit == t.audit + [AuditEntry(adminEmail, "STOCK_UPDATE")] &&
      r.1 == t.(products := r.1.products, movements := r.1.movements, audit := r.1.audit)
  {
    var m := StockAdjustment(t, adminEmail, id, stock, reason).1.movements;
    assert m == t.movements + [m[|t.movements|]];
  }

  /** An adjustment keeps every row under its own key. */
  lemma StockAdjustmentWellKeyed(t: DbState, adminEmail: string, id: string, stock: string, reason: string)
    requires WellKeyed(t)
    ensures WellKeyed(StockAdjustment(t, adminEmail, id, stock, reason).1)
  {
    var r := StockAdjustment(t, adminEmail, id, stock, reason);
    if r.0 == 200 {
      var p := t.products[id];
      assert r.1 == t.(products := t.products[id := p.(stock := ParseInt(stock).value)],
                       movements := r.1.movements, audit := r.1.audit);
    }
  }

  /**
   * A manual adjustment goes through the ledger: every product's stock less its
   * recorded movements is the same before and after.
   */
  lemma StockAdjustmentBalancesLedger(t: DbState, adminEmail: string, id: string, stock: string, reason: string)
    ensures var after := StockAdjustment(t, adminEmail, id, stock, reason).1;
      StockBaseline(after.products, after.movements) == StockBaseline(t.products, t.movements)
  {
    var r := StockAdjustment(t, adminEmail, id, stock, reason);
    if r.0 == 200 {
      StockAdjustmentEffect(t, adminEmail, id, stock, reason);
      var m := r.1.movements[|t.movements|];
      assert r.1.movements == t.movements + [m];
      RecordedChangeBalances(t.products, t.movements, m, ParseInt(stock).value);
    }
  }

  /** Setting one product's stock while recording the difference as a movement leaves the baseline alone. */
  lemma RecordedChangeBalances(products: map<string, Product>, movements: seq<StockMovement>,
                               m: StockMovement, newStock: int)
    requires m.productId in products && products[m.productId].stock + m.quantityChange == newStock
    ensures StockBaseline(products[m.productId := products[m.productId].(stock := newStock)], movements + [m])
         == StockBaseline(products, movements)
  {
    var after := products[m.productId := products[m.productId].(stock := newStock)];
    forall p | p in products
      ensures after[p].stock - LedgerSum(movements + [m], p) == products[p].stock - LedgerSum(movements, p)
    {
      assert (movements + [m])[..|movements|] == movements;
    }
  }

  method ApiUpdateStock(s: Session, db: Database, id: string, stock: string, reason: string) returns (code: int)
    modifies db
    ensures (code, db.State()) == StockAdjustment(old(db.State()), s.adminEmail, id, stock, reason)
  {
    var newStock := ParseInt(stock);
    if newStock.None? || newStock.value < 0 {
      return 400;
    }
    if id !in db.products {
      return 404;
    }
    var product := db.products[id];
    var quantityChange := newStock.value - product.stock;
    db.products := db.products[id := product.(stock := newStock.value)];
    db.movements := db.movements + [StockMovement(id, quantityChange, StockReason(reason), None)];
    AppendAudit(db, s.adminEmail, "STOCK_UPDATE");
    code := 200;
  }

  /* ---------------------------------------------------------------------------------
   * Creation with unique slugs
   * --------------------------------------------------------------------------------- */

  /** The slugs in use in the category table. */
  function CategorySlugs(categories: map<string, Category>): (r: set<string>)
    ensures forall id :: id in categories ==> categories[id].slug in r
    ensures forall slug :: slug in r ==> exists id :: id in categories && categories[id].slug == slug
  {
    set id | id in categories :: categories[id].slug
  }

  /** The same set for the product table, whose rows are of another type. */
  function ProductSlugs(products: map<string, Product>): (r: set<string>)
    ensures forall id :: id in products ==> products[id].slug in r
    ensures forall slug :: slug in r ==> exists id :: id in products && products[id].slug == slug
  {
    set id | id in products :: products[id].slug
  }

  /** No two categories share a slug. */
  predicate CategorySlugsDistinct(categories: map<string, Category>)
  {
    forall a, b :: a in categories && b in categories && a != b ==> categories[a].slug != categories[b].slug
  }

  /** No two products share a slug. */
  predicate ProductSlugsDistinct(products: map<string, Product>)
  {
    forall a, b :: a in products && b in products && a != b ==> products[a].slug != products[b].slug
  }

  /** A category whose slug is not taken keeps the slugs distinct. */
  lemma CategoryAddedKeepsDistinct(categories: map<string, Category>, c: Category)
    requires c.id !in categories && c.slug !in CategorySlugs(categories) && CategorySlugsDistinct(categories)
    ensures CategorySlugsDistinct(categories[c.id := c])
  {
  }

  /** A product whose slug is not taken keeps the slugs distinct. */
  lemma ProductAddedKeepsDistinct(products: map<string, Product>, p: Product)
    requires p.id !in products && p.slug !in ProductSlugs(products) && ProductSlugsDistinct(products)
    ensures ProductSlugsDistinct(products[p.id := p])
  {
  }

  /** `slug` is the first candidate for `name`'s slug that is not in `taken`. */
  ghost predicate FirstFreeFor(slug: string, name: string, taken: set<string>)
  {
    slug !in taken &&
    exists n: nat :: slug == Candidate(Slugify.Slugify(name), n) &&
                     forall m: nat :: m < n ==> Candidate(Slugify.Slugify(name), m) in taken
  }

  /** A slug that is the first free one is free, and it is the plain slug whenever that is. */
  lemma FirstFreeIsPlainWhenFree(slug: string, name: string, taken: set<string>)
    requires FirstFreeFor(slug, name, taken) && Slugify.Slugify(name) !in taken
    ensures slug == Slugify.Slugify(name)
  {
    var n: nat :| slug == Candidate(Slugify.Slugify(name), n) &&
                  forall m: nat :: m < n ==> Candidate(Slugify.Slugify(name), m) in taken;
    assert Candidate(Slugify.Slugify(name), 0) !in taken;
    assert n == 0;
  }

  /** The tables after `createCategory` has picked `slug`: the new category, and one CATEGORY_CREATE entry. */
  function CategoryCreation(t: DbState, adminEmail: string, name: string, slug: string, newId: string): DbState
  {
    t.(categories := t.categories[newId := Category(newId, name, slug)],
       audit := t.audit + [AuditEntry(adminEmail, "CATEGORY_CREATE")])
  }

  /** Adding a category under a free slug keeps every row under its own key and the slugs distinct. */
  lemma CategoryCreationKeeps(t: DbState, adminEmail: string, name: string, slug: string, newId: string)
    requires WellKeyed(t) && newId !in t.categories && slug !in CategorySlugs(t.categories)
    ensures var t' := CategoryCreation(t, adminEmail, name, slug, newId);
      WellKeyed(t') && t'.categories.Keys == t.categories.Keys + {newId} &&
      (CategorySlugsDistinct(t.categories) ==> CategorySlugsDistinct(t'.categories))
  {
    if CategorySlugsDistinct(t.categories) {
      CategoryAddedKeepsDistinct(t.categories, Category(newId, name, slug));
    }
  }

  /** `createCategory`'s slug loop: the first free candidate among the categories' slugs. */
  method FreeCategorySlug(categories: map<string, Category>, name: string) returns (slug: string)
    ensures slug !in CategorySlugs(categories) && FirstFreeFor(slug, name, CategorySlugs(categories))
  {
    slug := FirstFreeSlug(Slugify.Slugify(name), CategorySlugs(categories));
  }

  /** The insert and the audit entry of `createCategory`, once the slug is chosen. */
  method InsertCategory(db: Database, c: Category, adminEmail: string)
    requires db.Valid() && c.id !in db.categories && c.slug !in CategorySlugs(db.categories)
    modifies db
    ensures db.Valid()
    ensures db.State() == CategoryCreation(old(db.State()), adminEmail, c.name, c.slug, c.id)
  {
    CategoryCreationKeeps(db.State(), adminEmail, c.name, c.slug, c.id);
    db.categories := db.categories[c.id := c];
    AppendAudit(db, adminEmail, "CATEGORY_CREATE");
  }

  /**
   * `createCategory`: the category gets the first free slug among the existing
   * categories' slugs, and one CATEGORY_CREATE entry is logged.
   */
  method CreateCategory(s: Session, db: Database, name: string, newId: string) returns (redirect: string)
    requires db.Valid() && newId !in db.categories
    modifies db
    ensures redirect == "/admin/categories?success=created"
    ensures db.Valid()
    ensures newId in db.categories && FirstFreeFor(db.categories[newId].slug, name, CategorySlugs(old(db.categories)))
    ensures db.State() == CategoryCreation(old(db.State()), s.adminEmail, name, db.categories[newId].slug, newId)
  {
    var catSlug := FreeCategorySlug(db.categories, name);
    ghost var before := db.State();
    InsertCategory(db, Category(newId, name, catSlug), s.adminEmail);
    assert db.categories[newId].slug == catSlug by {
      assert db.categories == before.categories[newId := Category(newId, name, catSlug)];
    }
    assert db.State() == CategoryCreation(before, s.adminEmail, name, catSlug, newId);
    redirect := "/admin/categories?success=created";
  }

  /** The form fields of a new product that the model keeps; prices arrive already in cents. */
  datatype ProductForm = ProductForm(
    name: string,
    price: Cents,
    promoPrice: Option<Cents>,
    categoryId: string,
    stock: string,
    stockAlertThreshold: string,
    isActive: string)

  /** `parseInt(s) || fallback`: NaN and 0 both fall back. */
  function IntOr(s: string, fallback: int): (r: int)
    ensures ParseInt(s).Some? && ParseInt(s).value != 0 ==> r == ParseInt(s).value
    ensures ParseInt(s).None? || ParseInt(s).value == 0 ==> r == fallback
  {
    match ParseInt(s)
    case Some(v) => if v != 0 then v else fallback
    case None => fallback
  }

  /** On a decimal numeral, `parseInt(s) || d` is the number it writes, except that 0 gives `d`. */
  lemma IntOrNumeral(n: nat, fallback: int)
    ensures IntOr(NatToString(n), fallback) == if n == 0 then fallback else n
    ensures IntOr("-" + NatToString(n), fallback) == if n == 0 then fallback else -(n as int)
  {
    ParseIntNatToString(n);
  }

  const DefaultAlertThreshold := 5

  /** An illustration of `IntOrNumeral`: a threshold typed as 0 is stored as 5, since 0 is falsy. */
  lemma ZeroThresholdBecomesDefault()
    ensures IntOr("0", DefaultAlertThreshold) == 5
  {
    ParseIntNatToString(0);
    assert NatToString(0) == "0";
  }

  /** Every product belongs to an existing category. */
  predicate CategoriesReferenced(t: DbState)
  {
    forall p :: p in t.products ==> t.products[p].categoryId in t.categories
  }

  /** The product `createProduct` builds once it has picked `slug`. */
  function NewProduct(form: ProductForm, uploads: seq<string>, slug: string, newId: string): (p: Product)
    ensures p.id == newId && p.name == form.name && p.slug == slug && p.categoryId == form.categoryId
    ensures p.price == form.price && p.promoPrice == form.promoPrice && p.images == ArrayOf(uploads)
    ensures ParseInt(form.stock).Some? && ParseInt(form.stock).value != 0 ==> p.stock == ParseInt(form.stock).value
    ensures ParseInt(form.stock).None? || ParseInt(form.stock).value == 0 ==> p.stock == 0
    ensures ParseInt(form.stockAlertThreshold).Some? && ParseInt(form.stockAlertThreshold).value != 0 ==>
      p.stockAlertThreshold == ParseInt(form.stockAlertThreshold).value
    ensures ParseInt(form.stockAlertThreshold).None? || ParseInt(form.stockAlertThreshold).value == 0 ==>
      p.stockAlertThreshold == DefaultAlertThreshold
    ensures p.isActive <==> form.isActive == "on"
  {
    Product(newId, form.name, slug, form.price, form.promoPrice,
            IntOr(form.stock, 0), IntOr(form.stockAlertThreshold, DefaultAlertThreshold),
            form.isActive == "on", form.categoryId, ArrayOf(uploads))
  }

  /**
   * The redirect and the tables after `createProduct` has picked `slug`: a category that
   * does not exist makes the insert fail (error=create, nothing written); otherwise the
   * new product and one PRODUCT_CREATE entry.
   */
  function ProductCreation(t: DbState, adminEmail: string, form: ProductForm, uploads: seq<string>, slug: string,
                           newId: string): (string, DbState)
  {
    if form.categoryId !in t.categories then ("/admin/produits?error=create", t)
    else ("/admin/produits?success=created",
          t.(products := t.products[newId := NewProduct(form, uploads, slug, newId)],
             audit := t.audit + [AuditEntry(adminEmail, "PRODUCT_CREATE")]))
  }

  /** Creating a product keeps keys, category references and distinct slugs, and adds at most the new id. */
  lemma ProductCreationKeeps(t: DbState, adminEmail: string, form: ProductForm, uploads: seq<string>, slug: string,
                             newId: string)
    requires WellKeyed(t) && newId !in t.products && slug !in ProductSlugs(t.products)
    ensures var t' := ProductCreation(t, adminEmail, form, uploads, slug, newId).1;
      WellKeyed(t') &&
      (CategoriesReferenced(t) ==> CategoriesReferenced(t')) &&
      (ProductSlugsDistinct(t.products) ==> ProductSlugsDistinct(t'.products)) &&
      (form.categoryId in t.categories <==> t'.products.Keys == t.products.Keys + {newId})
  {
    if form.categoryId in t.categories {
      var p := NewProduct(form, uploads, slug, newId);
      ProductAddedKeeps(t, p, t.audit + [AuditEntry(adminEmail, "PRODUCT_CREATE")]);
    }
  }

  lemma ProductAddedKeeps(t: DbState, p: Product, audit: seq<AuditEntry>)
    requires WellKeyed(t) && p.id !in t.products && p.slug !in ProductSlugs(t.products)
    requires p.categoryId in t.categories
    ensures var t' := t.(products := t.products[p.id := p], audit := audit);
      WellKeyed(t') && (CategoriesReferenced(t) ==> CategoriesReferenced(t')) &&
      (ProductSlugsDistinct(t.products) ==> ProductSlugsDistinct(t'.products)) &&
      t'.products.Keys == t.products.Keys + {p.id}
  {
    if ProductSlugsDistinct(t.products) {
      ProductAddedKeepsDistinct(t.products, p);
    }
  }

  /** `createProduct`'s slug loop: the first free candidate among the products' slugs. */
  method FreeProductSlug(products: map<string, Product>, name: string) returns (slug: string)
    ensures slug !in ProductSlugs(products) && FirstFreeFor(slug, name, ProductSlugs(products))
  {
    slug := FirstFreeSlug(Slugify.Slugify(name), ProductSlugs(products));
  }

  /** The insert and the audit entry of `createProduct`, once the slug is chosen and the category exists. */
  method InsertProduct(db: Database, form: ProductForm, uploads: seq<string>, slug: string, newId: string,
                       adminEmail: string)
    requires db.Valid() && newId !in db.products && slug !in ProductSlugs(db.products)
    requires form.categoryId in db.categories
    modifies db
    ensures db.Valid()
    ensures ("/admin/produits?success=created", db.State()) ==
      ProductCreation(old(db.State()), adminEmail, form, uploads, slug, newId)
  {
    ProductCreationKeeps(db.State(), adminEmail, form, uploads, slug, newId);
    db.products := db.products[newId := NewProduct(form, uploads, slug, newId)];
    AppendAudit(db, adminEmail, "PRODUCT_CREATE");
  }

  /**
   * `createProduct`: the product gets the first free slug among the products' slugs,
   * whether or not its category exists.
   */
  method CreateProduct(s: Session, db: Database, form: ProductForm, uploads: seq<string>, newId: string)
    returns (redirect: string)
    requires db.Valid() && newId !in db.products
    modifies db
    ensures db.Valid()
    ensures exists slug ::
      FirstFreeFor(slug, form.name, ProductSlugs(old(db.products))) &&
      (redirect, db.State()) == ProductCreation(old(db.State()), s.adminEmail, form, uploads, slug, newId)
  {
    var productSlug := FreeProductSlug(db.products, form.name);
    if form.categoryId !in db.categories {
      redirect := "/admin/produits?error=create";
      assert (redirect, db.State()) == ProductCreation(old(db.State()), s.adminEmail, form, uploads, productSlug, newId);
      return;
    }
    InsertProduct(db, form, uploads, productSlug, newId, s.adminEmail);
    redirect := "/admin/produits?success=created";
  }

  /* ---------------------------------------------------------------------------------
   * Image list editing
   * --------------------------------------------------------------------------------- */

  /** `xs.filter(x => !drop.includes(x))`. */
  function DropPaths(xs: seq<string>, drop: seq<string>): (r: seq<string>)
    ensures forall x :: x in r <==> x in xs && x !in drop
    ensures |r| <= |xs|
  {
    if xs == [] then []
    else (if xs[0] in drop then [] else [xs[0]]) + DropPaths(xs[1..], drop)
  }

  /**
   * The filter keeps order: filtering a concatenation filters each part in turn. With
   * `DropPathsSingle` this determines the result.
   */
  lemma {:induction false} DropPathsConcat(a: seq<string>, b: seq<string>, drop: seq<string>)
    ensures DropPaths(a + b, drop) == DropPaths(a, drop) + DropPaths(b, drop)
  {
    if a == [] {
      assert a + b == b;
    } else {
      assert (a + b)[0] == a[0];
      assert (a + b)[1..] == a[1..] + b;
      DropPathsConcat(a[1..], b, drop);
    }
  }

  /** A single path is kept exactly when it is not named for removal. */
  lemma DropPathsSingle(x: string, drop: seq<string>)
    ensures DropPaths([x], drop) == if x in drop then [] else [x]
  {
    assert [x][1..] == [];
  }

  /** Nothing named for removal: the list is kept as it was. */
  lemma {:induction false} DropPathsNone(xs: seq<string>, drop: seq<string>)
    requires forall x :: x in xs ==> x !in drop
    ensures DropPaths(xs, drop) == xs
  {
    if xs != [] {
      DropPathsNone(xs[1..], drop);
      assert [xs[0]] + xs[1..] == xs;
    }
  }

  /** `xs.filter(x => pool.includes(x))`. */
  function PathsIn(xs: seq<string>, pool: seq<string>): (r: seq<string>)
    ensures forall x :: x in r <==> x in xs && x in pool
    ensures |r| <= |xs|
  {
    if xs == [] then []
    else (if xs[0] in pool then [xs[0]] else []) + PathsIn(xs[1..], pool)
  }

  /** `parts.filter(p => p.trim())`. */
  function NonBlank(parts: seq<string>): (r: seq<string>)
    ensures forall p :: p in r <==> p in parts && Trim(p) != ""
  {
    if parts == [] then []
    else (if Trim(parts[0]) != "" then [parts[0]] else []) + NonBlank(parts[1..])
  }

  /** The paths of a comma-separated `imageOrder` that name images of the list, in the given order. */
  function OrderedPaths(images: seq<string>, imageOrder: string): seq<string>
  {
    PathsIn(NonBlank(Split(imageOrder, ',')), images)
  }

  /**
   * The drag-and-drop reordering: the listed paths that are present come first, in the
   * order given, and the other images follow in their previous order.
   */
  function Reorder(images: seq<string>, imageOrder: string): (r: seq<string>)
    ensures forall x :: x in r <==> x in images
    ensures |r| >= |OrderedPaths(images, imageOrder)|
    ensures r[..|OrderedPaths(images, imageOrder)|] == OrderedPaths(images, imageOrder)
    ensures r[|OrderedPaths(images, imageOrder)|..] == DropPaths(images, OrderedPaths(images, imageOrder))
  {
    var reordered := OrderedPaths(images, imageOrder);
    reordered + DropPaths(images, reordered)
  }

  /**
   * The image list `updateProduct` stores: the existing list (empty when unreadable),
   * the uploads appended, then the comma-separated `deletedImages` removed, then the
   * comma-separated `imageOrder` applied. An empty field is skipped.
   */
  function EditImages(existing: JsonText, uploads: seq<string>, deletedImages: string, imageOrder: string): seq<string>
  {
    var images := ParseJsonArray(existing) + uploads;
    var kept := if deletedImages != "" then DropPaths(images, Split(deletedImages, ',')) else images;
    if imageOrder != "" then Reorder(kept, imageOrder) else kept
  }

  /** The images left by the deletion field: all of them when it is empty. */
  function Surviving(images: seq<string>, deletedImages: string): (r: seq<string>)
    ensures deletedImages == "" ==> r == images
    ensures forall x :: x in r <==> x in images && (deletedImages == "" || x !in Split(deletedImages, ','))
  {
    if deletedImages != "" then DropPaths(images, Split(deletedImages, ',')) else images
  }

  /**
   * The stored list holds exactly the existing and uploaded images not named for
   * deletion: reordering neither adds nor loses a path, every deleted path is gone.
   * Without an order the surviving existing images come first, in their order, and the
   * surviving uploads follow in theirs; with an order the listed images lead and the
   * other survivors follow in that same order.
   */
  lemma EditImagesEffect(existing: JsonText, uploads: seq<string>, deletedImages: string, imageOrder: string)
    ensures var r := EditImages(existing, uploads, deletedImages, imageOrder);
      forall x :: x in r <==>
        (x in ParseJsonArray(existing) || x in uploads) && (deletedImages == "" || x !in Split(deletedImages, ','))
    ensures deletedImages != "" ==>
      forall p :: p in Split(deletedImages, ',') ==> p !in EditImages(existing, uploads, deletedImages, imageOrder)
    ensures imageOrder == "" ==>
      EditImages(existing, uploads, deletedImages, imageOrder) ==
        Surviving(ParseJsonArray(existing), deletedImages) + Surviving(uploads, deletedImages)
    ensures imageOrder != "" ==>
      var kept := Surviving(ParseJsonArray(existing), deletedImages) + Surviving(uploads, deletedImages);
      var ordered := OrderedPaths(kept, imageOrder);
      EditImages(existing, uploads, deletedImages, imageOrder) == ordered + DropPaths(kept, ordered)
  {
    if deletedImages != "" {
      DropPathsConcat(ParseJsonArray(existing), uploads, Split(deletedImages, ','));
    }
  }

  /** Naming one image twice in `imageOrder` stores it twice: only the set of paths is kept, not their count. */
  lemma RepeatedOrderDuplicates()
    ensures EditImages(ArrayOf(["a"]), [], "", "a,a") == ["a", "a"]
  {
    var parts := Split("a,a", ',');
    SplitRepeated();
    assert NonBlank(parts) == ["a", "a"] by { NonBlankWords(); }
    var ordered := PathsIn(["a", "a"], ["a"]);
    assert ordered == ["a", "a"] by {
      assert ["a", "a"][1..] == ["a"];
      assert ["a"][1..] == [];
    }
    assert OrderedPaths(["a"], "a,a") == ["a", "a"];
    assert DropPaths(["a"], ["a", "a"]) == [];
    assert ["a"] + [] == ["a"];
  }

  lemma SplitRepeated()
    ensures Split("a,a", ',') == ["a", "a"]
  {
    assert Split("", ',') == [""];
    assert "a"[1..] == [];
    assert Split("a", ',') == ["a"] by {
      var rest := Split("", ',');
      assert Split("a", ',') == [['a'] + rest[0]] + rest[1..];
      assert ['a'] + rest[0] == "a";
    }
    assert ",a"[1..] == "a";
    assert Split(",a", ',') == ["", "a"];
    assert "a,a"[1..] == ",a";
    var rest := Split(",a", ',');
    assert Split("a,a", ',') == [['a'] + rest[0]] + rest[1..];
  }

  lemma NonBlankWords()
    ensures NonBlank(["a", "a"]) == ["a", "a"]
  {
    TrimWord();
    NonBlankPair("a");
  }

  lemma NonBlankPair(x: string)
    requires Trim(x) != ""
    ensures NonBlank([x, x]) == [x, x]
  {
    assert [x, x][1..] == [x];
    assert [x][1..] == [];
    assert NonBlank([x]) == [x];
  }

  lemma TrimWord()
    ensures Trim("a") == "a"
  {
    TrimNoSpace("a");
  }

  /* ---------------------------------------------------------------------------------
   * Category deletion and review moderation
   * --------------------------------------------------------------------------------- */

  predicate HasProducts(t: DbState, categoryId: string)
  {
    exists p :: p in t.products && t.products[p].categoryId == categoryId
  }

  /**
   * `deleteCategory`: refused with error=hasproducts while any product belongs to the
   * category; deleting an unknown category throws (error=delete); otherwise the
   * category goes and one CATEGORY_DELETE entry is logged.
   */
  function CategoryDeletion(t: DbState, adminEmail: string, id: string): (r: (string, DbState))
    ensures r.0 == "/admin/categories?error=hasproducts" <==> HasProducts(t, id)
    ensures r.0 == "/admin/categories?error=delete" <==> !HasProducts(t, id) && id !in t.categories
    ensures r.0 != "/admin/categories?success=deleted" ==> r.1 == t
    ensures r.0 == "/admin/categories?success=deleted" ==>
      id in t.categories && r.1.categories == t.categories - {id} &&
      r.1 == t.(categories := r.1.categories, audit := t.audit + [AuditEntry(adminEmail, "CATEGORY_DELETE")])
    ensures WellKeyed(t) ==> WellKeyed(r.1)
    ensures CategoriesReferenced(t) ==> CategoriesReferenced(r.1)
  {
    if HasProducts(t, id) then ("/admin/categories?error=hasproducts", t)
    else if id !in t.categories then ("/admin/categories?error=delete", t)
    else ("/admin/categories?success=deleted",
          t.(categories := t.categories - {id}, audit := t.audit + [AuditEntry(adminEmail, "CATEGORY_DELETE")]))
  }

  method DeleteCategory(s: Session, db: Database, id: string) returns (redirect: string)
    modifies db
    ensures (redirect, db.State()) == CategoryDeletion(old(db.State()), s.adminEmail, id)
  {
    var productsCount := exists p :: p in db.products && db.products[p].categoryId == id;
    if productsCount {
      return "/admin/categories?error=hasproducts";
    }
    if id !in db.categories {
      return "/admin/categories?error=delete";
    }
    db.categories := db.categories - {id};
    AppendAudit(db, s.adminEmail, "CATEGORY_DELETE");
    redirect := "/admin/categories?success=deleted";
  }

  /**
   * `updateReviewStatus`: only "approved" and "rejected" are accepted; an unknown
   * review makes the update throw (error=moderation); otherwise only that review's
   * status changes and one REVIEW_MODERATION entry is logged.
   */
  datatype Moderation = InvalidStatus | ModerationFailed | Moderated

  /** Where the moderation form redirects to. */
  function ModerationRedirect(m: Moderation, status: string): string
  {
    match m
    case InvalidStatus => "/admin/avis?error=invalid"
    case ModerationFailed => "/admin/avis?error=moderation"
    case Moderated => "/admin/avis?success=" + status
  }

  function ReviewModeration(t: DbState, adminEmail: string, id: string, status: string): (r: (Moderation, DbState))
    ensures r.0 == InvalidStatus <==> status != "approved" && status != "rejected"
    ensures r.0 == ModerationFailed <==> (status == "approved" || status == "rejected") && id !in t.reviews
    ensures !r.0.Moderated? ==> r.1 == t
    ensures r.0.Moderated? ==>
      id in t.reviews && r.1.reviews == t.reviews[id := t.reviews[id].(status := status)] &&
      r.1 == t.(reviews := r.1.reviews, audit := t.audit + [AuditEntry(adminEmail, "REVIEW_MODERATION")])
    ensures WellKeyed(t) ==> WellKeyed(r.1)
  {
    if status != "approved" && status != "rejected" then (InvalidStatus, t)
    else if id !in t.reviews then (ModerationFailed, t)
    else (Moderated,
          t.(reviews := t.reviews[id := t.reviews[id].(status := status)],
             audit := t.audit + [AuditEntry(adminEmail, "REVIEW_MODERATION")]))
  }

  method UpdateReviewStatus(s: Session, db: Database, id: string, status: string) returns (redirect: string)
    modifies db
    ensures var (outcome, after) := ReviewModeration(old(db.State()), s.adminEmail, id, status);
      redirect == ModerationRedirect(outcome, status) && db.State() == after
  {
    if status != "approved" && status != "rejected" {
      return ModerationRedirect(InvalidStatus, status);
    }
    if id !in db.reviews {
      return ModerationRedirect(ModerationFailed, status);
    }
    db.reviews := db.reviews[id := db.reviews[id].(status := status)];
    AppendAudit(db, s.adminEmail, "REVIEW_MODERATION");
    redirect := ModerationRedirect(Moderated, status);
  }

  /* ---------------------------------------------------------------------------------
   * Promotion codes
   * --------------------------------------------------------------------------------- */

  /**
   * `code.toUpperCase().trim()`. The result never starts or ends with white space, and
   * a code made of letters, digits, `_` and `-` is simply upper-cased.
   */
  function NormalizeCode(code: string): (r: string)
    ensures r == [] || (!IsSpace(r[0]) && !IsSpace(r[|r| - 1]))
    ensures (forall i :: 0 <= i < |code| ==> IsWordChar(code[i]) || code[i] == '-') ==> r == UpperCase(code)
  {
    var upper := UpperCase(code);
    if forall i :: 0 <= i < |code| ==> IsWordChar(code[i]) || code[i] == '-' then
      assert NoSpace(upper) by {
        forall i | 0 <= i < |upper|
          ensures !IsSpace(upper[i])
        {
          if IsLower(code[i]) {
            assert IsUpper(upper[i]);
          }
        }
      }
      TrimNoSpace(upper);
      Trim(upper)
    else
      Trim(upper)
  }

  /**
   * A code created in the back office is found by the cart whatever case the customer
   * types it in: the cart looks codes up by their upper-cased form.
   */
  lemma StoredCodeMatchesAnyCase(code: string, typed: string)
    requires forall i :: 0 <= i < |code| ==> IsWordChar(code[i]) || code[i] == '-'
    requires typed == LowerCase(code) || typed == code
    ensures UpperCase(typed) == NormalizeCode(code)
  {
    UpperOfLower(code);
  }

  lemma {:induction false} UpperOfLower(s: string)
    requires forall i :: 0 <= i < |s| ==> IsWordChar(s[i]) || s[i] == '-'
    ensures UpperCase(LowerCase(s)) == UpperCase(s)
  {
    if s != [] {
      var l := LowerCase(s);
      assert l == [LowerChar(s[0])] + LowerCase(s[1..]);
      assert l[0] == LowerChar(s[0]) && l[1..] == LowerCase(s[1..]);
      UpperOfLowerChar(s[0]);
      UpperOfLower(s[1..]);
    }
  }

  lemma UpperOfLowerChar(c: char)
    requires IsWordChar(c) || c == '-'
    ensures UpperChar(LowerChar(c)) == UpperChar(c)
  {
  }

  /** The promotion fields of the back-office form, already parsed; an empty form field is `None`. */
  datatype PromoForm = PromoForm(
    code: string,
    discountType: string,
    discountValue: int,
    minOrderAmount: Option<Cents>,
    maxUses: Option<int>,
    expiresAt: Option<int>,
    isActive: string)

  /** The stored promotion for `form` under `id`, with `currentUses` uses and the given active flag. */
  function PromoRecord(id: string, form: PromoForm, currentUses: int, isActive: bool): (r: PromoCode)
    ensures r.code == NormalizeCode(form.code) && r.id == id
    ensures r.currentUses == currentUses && r.isActive == isActive
    ensures r.discountType == form.discountType && r.discountValue == form.discountValue
    ensures r.minOrderAmount == form.minOrderAmount && r.maxUses == form.maxUses && r.expiresAt == form.expiresAt
  {
    PromoCode(id, NormalizeCode(form.code), form.discountType, form.discountValue,
              form.minOrderAmount, form.maxUses, currentUses, form.expiresAt, isActive)
  }

  /**
   * `createPromoCode`: a code whose normalised form already exists violates the unique
   * constraint (error=duplicate, nothing written); otherwise the code is stored
   * normalised, active, with no uses, and one PROMO_CREATE entry is logged.
   */
  function PromoCreation(t: DbState, adminEmail: string, form: PromoForm, newId: string): (r: (string, DbState))
    ensures r.0 == "/admin/promos?error=duplicate" <==> NormalizeCode(form.code) in t.promos
    ensures r.0 == "/admin/promos?error=duplicate" ==> r.1 == t
    ensures r.0 != "/admin/promos?error=duplicate" ==>
      r.0 == "/admin/promos?success=created" &&
      r.1.promos.Keys == t.promos.Keys + {NormalizeCode(form.code)} &&
      r.1.promos[NormalizeCode(form.code)] == PromoRecord(newId, form, 0, true) &&
      r.1 == t.(promos := r.1.promos, audit := t.audit + [AuditEntry(adminEmail, "PROMO_CREATE")])
  {
    var key := NormalizeCode(form.code);
    if key in t.promos then ("/admin/promos?error=duplicate", t)
    else ("/admin/promos?success=created",
          t.(promos := t.promos[key := PromoRecord(newId, form, 0, true)],
             audit := t.audit + [AuditEntry(adminEmail, "PROMO_CREATE")]))
  }

  /** Creating a promotion with a fresh id keeps every code stored under itself and ids distinct. */
  lemma PromoCreationWellKeyed(t: DbState, adminEmail: string, form: PromoForm, newId: string)
    requires WellKeyed(t) && NoPromoWithId(t.promos, newId)
    ensures WellKeyed(PromoCreation(t, adminEmail, form, newId).1)
  {
    var after := PromoCreation(t, adminEmail, form, newId).1;
    if after != t {
      var key := NormalizeCode(form.code);
      assert after.promos == t.promos[key := PromoRecord(newId, form, 0, true)];
    }
  }

  method CreatePromoCode(s: Session, db: Database, form: PromoForm, newId: string) returns (redirect: string)
    modifies db
    ensures (redirect, db.State()) == PromoCreation(old(db.State()), s.adminEmail, form, newId)
  {
    var code := NormalizeCode(form.code);
    if code in db.promos {
      return "/admin/promos?error=duplicate";
    }
    db.promos := db.promos[code := PromoRecord(newId, form, 0, true)];
    AppendAudit(db, s.adminEmail, "PROMO_CREATE");
    redirect := "/admin/promos?success=created";
  }

  /** The checkbox of the edit form: "on" or "true" activates. */
  predicate Checked(isActive: string)
  {
    isActive == "on" || isActive == "true"
  }

  /**
   * `updatePromoCode`: the promotion with id `id` (stored under `key`) takes the
   * normalised code and the form's values, keeps its use count, and one PROMO_UPDATE
   * entry is logged; a new code already used by another promotion violates the unique
   * constraint (error=update, nothing written).
   */
  function PromoUpdate(t: DbState, adminEmail: string, key: string, form: PromoForm): (r: (string, DbState))
    requires key in t.promos
    ensures r.0 == "/admin/promos?error=update" <==> NormalizeCode(form.code) in t.promos && NormalizeCode(form.code) != key
    ensures r.0 == "/admin/promos?error=update" ==> r.1 == t
    ensures r.0 != "/admin/promos?error=update" ==>
      var old_ := t.promos[key];
      r.0 == "/admin/promos?success=updated" &&
      r.1.promos.Keys == t.promos.Keys - {key} + {NormalizeCode(form.code)} &&
      r.1.promos[NormalizeCode(form.code)] == PromoRecord(old_.id, form, old_.currentUses, Checked(form.isActive)) &&
      (forall c :: c in t.promos && c != key ==> r.1.promos[c] == t.promos[c]) &&
      r.1 == t.(promos := r.1.promos, audit := t.audit + [AuditEntry(adminEmail, "PROMO_UPDATE")])
  {
    var code := NormalizeCode(form.code);
    var promo := t.promos[key];
    if code in t.promos && code != key then ("/admin/promos?error=update", t)
    else ("/admin/promos?success=updated",
          t.(promos := (t.promos - {key})[code := PromoRecord(promo.id, form, promo.currentUses, Checked(form.isActive))],
             audit := t.audit + [AuditEntry(adminEmail, "PROMO_UPDATE")]))
  }

  /** Editing a promotion keeps every code stored under itself and ids distinct. */
  lemma PromoUpdateWellKeyed(t: DbState, adminEmail: string, key: string, form: PromoForm)
    requires WellKeyed(t) && key in t.promos
    ensures WellKeyed(PromoUpdate(t, adminEmail, key, form).1)
  {
    var after := PromoUpdate(t, adminEmail, key, form).1;
    if after != t {
      var code := NormalizeCode(form.code);
      var promo := t.promos[key];
      assert after.promos == (t.promos - {key})[code := PromoRecord(promo.id, form, promo.currentUses, Checked(form.isActive))];
    }
  }

  /** No stored promotion has id `id`. */
  predicate NoPromoWithId(promos: map<string, PromoCode>, id: string)
  {
    forall c :: c in promos ==> promos[c].id != id
  }

  /** An unknown id makes the update throw: error=update and nothing written. */
  method UpdatePromoCode(s: Session, db: Database, id: string, form: PromoForm) returns (redirect: string)
    requires db.Valid()
    modifies db
    ensures db.Valid()
    ensures NoPromoWithId(old(db.promos), id) ==>
      redirect == "/admin/promos?error=update" && db.State() == old(db.State())
    ensures forall key :: key in old(db.promos) && old(db.promos)[key].id == id ==>
      (redirect, db.State()) == PromoUpdate(old(db.State()), s.adminEmail, key, form)
  {
    if NoPromoWithIdExec(db.promos, id) {
      return "/admin/promos?error=update";
    }
    var key :| key in db.promos && db.promos[key].id == id;
    PromoUpdateWellKeyed(db.State(), s.adminEmail, key, form);
    var code := NormalizeCode(form.code);
    var promo := db.promos[key];
    if code in db.promos && code != key {
      return "/admin/promos?error=update";
    }
    db.promos := (db.promos - {key})[code := PromoRecord(promo.id, form, promo.currentUses, Checked(form.isActive))];
    AppendAudit(db, s.adminEmail, "PROMO_UPDATE");
    redirect := "/admin/promos?success=updated";
  }

  function NoPromoWithIdExec(promos: map<string, PromoCode>, id: string): (r: bool)
    ensures r <==> NoPromoWithId(promos, id)
  {
    forall c :: c in promos ==> promos[c].id != id
  }

  /* ---------------------------------------------------------------------------------
   * Dashboard
   * --------------------------------------------------------------------------------- */

  /** The dashboard's stock alerts: the active products whose stock is at or below their threshold. */
  function StockAlerts(products: map<string, Product>): (r: set<string>)
    ensures r <= products.Keys
    ensures forall id :: (id in products && products[id].isActive && products[id].stock <= 0 &&
                          products[id].stockAlertThreshold >= 0) ==> id in r
  {
    set id | id in products && products[id].isActive && products[id].stock <= products[id].stockAlertThreshold
  }

  /**
   * With non-negative thresholds the alerts are exactly the active products the
   * catalogue shows as low or out of stock.
   */
  lemma AlertsAreLowOrOut(products: map<string, Product>, id: string)
    requires id in products && products[id].stockAlertThreshold >= 0
    ensures id in StockAlerts(products) <==>
      products[id].isActive && GetStockStatus(products[id].stock, products[id].stockAlertThreshold) != In
  {
  }

  /** The total of the orders that count for revenue (all but cancelled ones). */
  function Revenue(orders: seq<Order>): Cents
  {
    if orders == [] then 0
    else
      var last := orders[|orders| - 1];
      Revenue(orders[..|orders| - 1]) + (if last.status != "cancelled" then last.total else 0)
  }

  /** How many orders count for revenue. */
  function CountedOrders(orders: seq<Order>): (r: nat)
    ensures r <= |orders|
  {
    if orders == [] then 0
    else CountedOrders(orders[..|orders| - 1]) + (if orders[|orders| - 1].status != "cancelled" then 1 else 0)
  }

  /** The positions of the orders that count for revenue: those not cancelled. */
  function NonCancelled(orders: seq<Order>): set<int>
  {
    set i | 0 <= i < |orders| && orders[i].status != "cancelled"
  }

  /** The count is the number of non-cancelled orders. */
  lemma {:induction false} CountedOrdersCounts(orders: seq<Order>)
    ensures CountedOrders(orders) == |NonCancelled(orders)|
    decreases |orders|
  {
    if orders == [] {
      assert NonCancelled(orders) == {};
    } else {
      var n := |orders| - 1;
      var init := orders[..n];
      CountedOrdersCounts(init);
      if orders[n].status != "cancelled" {
        assert NonCancelled(orders) == NonCancelled(init) + {n};
      } else {
        assert NonCancelled(orders) == NonCancelled(init);
      }
    }
  }

  /**
   * The dashboard's average basket: revenue over the number of non-cancelled orders,
   * to the nearest cent (halves up), and 0 when there is none.
   */
  function AverageCart(orders: seq<Order>): (r: Cents)
    ensures CountedOrders(orders) == 0 ==> r == 0
    ensures CountedOrders(orders) > 0 ==>
      var n := CountedOrders(orders);
      2 * n * r - n <= 2 * Revenue(orders) < 2 * n * r + n
  {
    var n := CountedOrders(orders);
    if n > 0 then RoundHalfUp(Revenue(orders), n) else 0
  }

  lemma {:induction false} UniformRevenue(orders: seq<Order>, total: Cents)
    requires forall i :: 0 <= i < |orders| ==> orders[i].total == total
    ensures Revenue(orders) == total * CountedOrders(orders)
    decreases |orders|
  {
    if orders != [] {
      UniformRevenue(orders[..|orders| - 1], total);
    }
  }

  /** When every order has the same total, that total is the average basket. */
  lemma AverageOfEqualTotals(orders: seq<Order>, total: Cents)
    requires forall i :: 0 <= i < |orders| ==> orders[i].total == total
    requires CountedOrders(orders) > 0
    ensures AverageCart(orders) == total
  {
    UniformRevenue(orders, total);
    RoundHalfUpExact(total, CountedOrders(orders));
  }
}

=== FILE: Api.dfy ===
/**
 * The JSON routes: the payment provider's webhook, which moves an order to paid or
 * cancelled and touches nothing else, and the two admin endpoints, which are reached
 * only through the admin guard. Signature checking belongs to the provider's SDK and
 * is the parameter `constructEvent`.
 */
module ApiRoutes {
  import opened Wrappers
  import opened Store
  import opened Sessions
  import Auth
  import Admin

  /** A verified webhook event: its type, the checkout session's id and its `orderId` metadata ("" when absent). */
  datatype WebhookEvent = WebhookEvent(kind: string, sessionId: string, orderId: string)

  const SessionCompleted := "checkout.session.completed"
  const SessionExpired := "checkout.session.expired"

  /** The order status an event sets, if any: only the two session events that name an order set one. */
  function EventStatus(e: WebhookEvent): (r: Option<string>)
    ensures r.Some? <==> e.orderId != "" && (e.kind == SessionCompleted || e.kind == SessionExpired)
    ensures r == Some("paid") <==> e.orderId != "" && e.kind == SessionCompleted
    ensures r == Some("cancelled") <==> e.orderId != "" && e.kind == SessionExpired
  {
    if e.orderId == "" then None
    else if e.kind == SessionCompleted then Some("paid")
    else if e.kind == SessionExpired then Some("cancelled")
    else None
  }

  /**
   * The webhook's reply and the tables after it. No signature, a payload that fails
   * verification, or an update of an unknown order (which throws) give 400 and change
   * nothing. A completed session marks its order paid and records the session id; an
   * expired one cancels its order whatever its status; any other event is acknowledged
   * with 200 and ignored.
   */
  function WebhookOutcome(t: DbState, signature: string, event: Option<WebhookEvent>): (r: (int, DbState))
    ensures r.0 == 400 || r.0 == 200
    ensures signature == "" || event.None? ==> r == (400, t)
    ensures r.0 == 400 ==> r.1 == t
    ensures r.1.products == t.products && r.1.movements == t.movements && r.1.orders.Keys == t.orders.Keys
    ensures signature != "" && event.Some? && EventStatus(event.value).None? ==> r == (200, t)
    ensures signature != "" && event.Some? && EventStatus(event.value).Some? ==>
      var e := event.value;
      if e.orderId !in t.orders then r == (400, t)
      else
        r.0 == 200 && r.1.orders[e.orderId].status == EventStatus(e).value &&
        (forall o :: o in t.orders && o != e.orderId ==> r.1.orders[o] == t.orders[o]) &&
        r.1 == t.(orders := r.1.orders)
    ensures signature != "" && event.Some? && event.value.kind == SessionCompleted &&
            event.value.orderId != "" && event.value.orderId in t.orders ==>
      r.1.orders[event.value.orderId] ==
        t.orders[event.value.orderId].(status := "paid", stripeSessionId := Some(event.value.sessionId))
    ensures signature != "" && event.Some? && event.value.kind == SessionExpired &&
            event.value.orderId != "" && event.value.orderId in t.orders ==>
      r.1.orders[event.value.orderId] == t.orders[event.value.orderId].(status := "cancelled")
  {
    if signature == "" || event.None? then (400, t)
    else
      var e := event.value;
      match EventStatus(e)
      case None => (200, t)
      case Some(status) =>
        if e.orderId !in t.orders then (400, t)
        else
          var order := t.orders[e.orderId];
          var updated := if e.kind == SessionCompleted
                         then order.(status := status, stripeSessionId := Some(e.sessionId))
                         else order.(status := status);
          (200, t.(orders := t.orders[e.orderId := updated]))
  }

  /** The webhook never changes stock, so a payment confirmed both here and on the confirmation page is counted once in stock. */
  lemma WebhookKeepsStock(t: DbState, signature: string, event: Option<WebhookEvent>)
    ensures var after := WebhookOutcome(t, signature, event).1;
      StockBaseline(after.products, after.movements) == StockBaseline(t.products, t.movements)
  {
  }

  /** Delivering the same event twice leaves the tables as one delivery does. */
  lemma WebhookIdempotent(t: DbState, signature: string, event: Option<WebhookEvent>)
    ensures var once := WebhookOutcome(t, signature, event).1;
      WebhookOutcome(once, signature, event) == (WebhookOutcome(t, signature, event).0, once)
  {
    var once := WebhookOutcome(t, signature, event).1;
    if signature != "" && event.Some? && EventStatus(event.value).Some? && event.value.orderId in t.orders {
      var e := event.value;
      var order := once.orders[e.orderId];
      assert once.orders[e.orderId := order] == once.orders;
    }
  }

  method StripeWebhook(db: Database, payload: string, signature: string,
                       constructEvent: (string, string) -> Option<WebhookEvent>)
    returns (status: int)
    requires db.Valid()
    modifies db
    ensures db.Valid()
    ensures (status, db.State()) ==
      WebhookOutcome(old(db.State()), signature, if signature == "" then None else constructEvent(payload, signature))
  {
    if signature == "" {
      return 400;
    }
    var event := constructEvent(payload, signature);
    if event.None? {
      return 400;
    }
    var e := event.value;
    if e.kind == SessionCompleted && e.orderId != "" {
      if e.orderId !in db.orders {
        return 400;
      }
      db.orders := db.orders[e.orderId := db.orders[e.orderId].(status := "paid", stripeSessionId := Some(e.sessionId))];
    } else if e.kind == SessionExpired && e.orderId != "" {
      if e.orderId !in db.orders {
        return 400;
      }
      db.orders := db.orders[e.orderId := db.orders[e.orderId].(status := "cancelled")];
    }
    status := 200;
  }

  /** What a guarded admin endpoint answers: the login redirect, or the handler's status code. */
  datatype AdminReply = RedirectToLogin | Handled(code: int)

  /** `PUT /admin/orders/:id/status`: the guard, then `apiUpdateOrderStatus`. */
  method AdminOrderStatusRoute(s: Session, db: Database, id: string, status: string) returns (reply: AdminReply)
    modifies db
    ensures !Auth.Authenticated(s.Auth()) ==> reply == RedirectToLogin && db.State() == old(db.State())
    ensures Auth.Authenticated(s.Auth()) ==>
      reply.Handled? && (reply.code, db.State()) == Admin.OrderStatusUpdate(old(db.State()), s.adminEmail, id, status)
  {
    var next := Auth.RequireAdmin(s);
    if !next {
      return RedirectToLogin;
    }
    var code, _ := Admin.ApiUpdateOrderStatus(s, db, id, status);
    reply := Handled(code);
  }

  /** `PUT /admin/products/:id/stock`: the guard, then `apiUpdateStock`. */
  method AdminStockRoute(s: Session, db: Database, id: string, stock: string, reason: string) returns (reply: AdminReply)
    modifies db
    ensures !Auth.Authenticated(s.Auth()) ==> reply == RedirectToLogin && db.State() == old(db.State())
    ensures Auth.Authenticated(s.Auth()) ==>
      reply.Handled? && (reply.code, db.State()) == Admin.StockAdjustment(old(db.State()), s.adminEmail, id, stock, reason)
  {
    var next := Auth.RequireAdmin(s);
    if !next {
      return RedirectToLogin;
    }
    var code := Admin.ApiUpdateStock(s, db, id, stock, reason);
    reply := Handled(code);
  }
}

=== FILE: Auth.dfy ===
/**
 * Admin authentication: the route guard, the login lockout (at most 5 failed attempts,
 * then 15 minutes locked), and the login, login-page and logout handlers with their
 * session and audit effects. Time is passed in as milliseconds; password hashing is the
 * parameter `compare`.
 */
module Auth {
  import opened Wrappers
  import opened Store
  import opened Sessions

  const MaxLoginAttempts := 5
  /** Fifteen minutes, in milliseconds. */
  const LockoutDuration := 900000
  const MinuteMs := 60000

  /** Both identity fields are set (an empty string counts as unset). */
  predicate Authenticated(a: AuthState)
  {
    a.adminId != "" && a.adminEmail != ""
  }

  /** `requireAdmin`: whether the request goes on to the handler; otherwise it is sent to the login page. */
  method RequireAdmin(s: Session) returns (next: bool)
    ensures next <==> Authenticated(s.Auth())
  {
    next := s.adminId != "" && s.adminEmail != "";
  }

  /* ---------------------------------------------------------------------------------
   * Lockout
   * --------------------------------------------------------------------------------- */

  /** Time since the last failed attempt; a session without one counts from time 0. */
  function Elapsed(a: AuthState, nowMs: int): int
  {
    nowMs - a.lastLoginAttempt.GetOr(0)
  }

  predicate IsLocked(a: AuthState, nowMs: int)
  {
    a.loginAttempts >= MaxLoginAttempts && Elapsed(a, nowMs) < LockoutDuration
  }

  /** `Math.ceil(n / d)` for a positive `d`. */
  function CeilDiv(n: int, d: int): (r: int)
    requires d > 0
    ensures d * (r - 1) < n <= d * r
  {
    -((-n) / d)
  }

  datatype Gate = Proceed | Locked(remainingMinutes: int)

  /**
   * `checkBruteForce`: locked exactly while 5 or more failures are less than 15 minutes
   * old, reporting the minutes left rounded up and changing nothing; once the window has
   * passed the counter is reset to 0; under 5 failures nothing changes.
   */
  function BruteForceCheck(a: AuthState, nowMs: int): (r: (Gate, AuthState))
    ensures r.0.Locked? <==> IsLocked(a, nowMs)
    ensures r.0.Locked? ==>
      r.1 == a &&
      MinuteMs * (r.0.remainingMinutes - 1) < LockoutDuration - Elapsed(a, nowMs) <= MinuteMs * r.0.remainingMinutes
    ensures r.0.Proceed? && a.loginAttempts >= MaxLoginAttempts ==> r.1 == a.(loginAttempts := 0)
    ensures a.loginAttempts < MaxLoginAttempts ==> r == (Proceed, a)
  {
    if IsLocked(a, nowMs) then (Locked(CeilDiv(LockoutDuration - Elapsed(a, nowMs), MinuteMs)), a)
    else if a.loginAttempts >= MaxLoginAttempts then (Proceed, a.(loginAttempts := 0))
    else (Proceed, a)
  }

  /** With a clock that has not gone backwards, the minutes reported lie in 1..15. */
  lemma LockoutMinutesInRange(a: AuthState, nowMs: int)
    requires IsLocked(a, nowMs) && Elapsed(a, nowMs) >= 0
    ensures 1 <= BruteForceCheck(a, nowMs).0.remainingMinutes <= 15
  {
    var left := LockoutDuration - Elapsed(a, nowMs);
    assert 0 < left <= LockoutDuration;
  }

  method CheckBruteForce(s: Session, nowMs: int) returns (gate: Gate)
    modifies s
    ensures (gate, s.Auth()) == BruteForceCheck(old(s.Auth()), nowMs)
    ensures s.cart == old(s.cart)
  {
    var attempts := s.loginAttempts;
    var lastAttempt := s.lastLoginAttempt.GetOr(0);
    if attempts >= MaxLoginAttempts && nowMs - lastAttempt < LockoutDuration {
      var remainingMinutes := CeilDiv(LockoutDuration - (nowMs - lastAttempt), MinuteMs);
      return Locked(remainingMinutes);
    }
    if attempts >= MaxLoginAttempts && nowMs - lastAttempt >= LockoutDuration {
      s.loginAttempts := 0;
    }
    gate := Proceed;
  }

  /** The session after a failed attempt at `nowMs`. */
  function AfterFailure(a: AuthState, nowMs: int): (r: AuthState)
    ensures r.loginAttempts == a.loginAttempts + 1 && r.lastLoginAttempt == Some(nowMs)
    ensures r.adminId == a.adminId && r.adminEmail == a.adminEmail && r.adminName == a.adminName
  {
    a.(loginAttempts := a.loginAttempts + 1, lastLoginAttempt := Some(nowMs))
  }

  method RecordFailedLogin(s: Session, nowMs: int)
    modifies s
    ensures s.Auth() == AfterFailure(old(s.Auth()), nowMs) && s.cart == old(s.cart)
  {
    s.loginAttempts := s.loginAttempts + 1;
    s.lastLoginAttempt := Some(nowMs);
  }

  method ResetLoginAttempts(s: Session)
    modifies s
    ensures s.Auth() == old(s.Auth()).(loginAttempts := 0, lastLoginAttempt := None) && s.cart == old(s.cart)
  {
    s.loginAttempts := 0;
    s.lastLoginAttempt := None;
  }

  /**
   * Failed attempts, each within 15 minutes of the check that follows, lock the account
   * at the fifth: the gate lets four through and refuses the fifth check after them.
   */
  lemma FifthFailureLocks(a: AuthState, times: seq<int>, nowMs: int)
    requires a.loginAttempts == 0 && |times| == 5
    requires times[4] <= nowMs < times[4] + LockoutDuration
    ensures IsLocked(Failures(a, times), nowMs)
    ensures forall k :: 0 <= k < 5 ==> !IsLocked(Failures(a, times[..k]), times[k])
  {
    forall k | 0 <= k < 5
      ensures !IsLocked(Failures(a, times[..k]), times[k])
    {
      FailuresCount(a, times[..k]);
    }
    FailuresCount(a, times);
  }

  /** The session after a failed attempt at each of `times`, in order. */
  function Failures(a: AuthState, times: seq<int>): AuthState
  {
    if times == [] then a else AfterFailure(Failures(a, times[..|times| - 1]), times[|times| - 1])
  }

  lemma {:induction false} FailuresCount(a: AuthState, times: seq<int>)
    ensures Failures(a, times).loginAttempts == a.loginAttempts + |times|
    ensures times != [] ==> Failures(a, times).lastLoginAttempt == Some(times[|times| - 1])
    decreases |times|
  {
    if times != [] {
      FailuresCount(a, times[..|times| - 1]);
    }
  }

  /* ---------------------------------------------------------------------------------
   * Handlers
   * --------------------------------------------------------------------------------- */

  /** `loginPage`: a session that already has an admin id is sent to the dashboard. */
  method LoginPage(s: Session) returns (redirect: Option<string>)
    ensures redirect == (if s.adminId != "" then Some("/admin/dashboard") else None)
  {
    if s.adminId != "" {
      return Some("/admin/dashboard");
    }
    redirect := None;
  }

  datatype LoginOutcome = BadCredentials | LoggedIn

  /**
   * `processLogin`. An unknown email records a failed attempt and nothing else; a wrong
   * password also appends LOGIN_FAILED under the email typed; a right one resets the
   * counter, stores the admin's identity and appends LOGIN_SUCCESS.
   */
  method ProcessLogin(s: Session, db: Database, email: string, password: string, nowMs: int,
                      compare: (string, string) -> bool)
    returns (outcome: LoginOutcome)
    requires db.Valid()
    modifies s, db
    ensures s.cart == old(s.cart)
    ensures email !in db.admins ==>
      outcome == BadCredentials && s.Auth() == AfterFailure(old(s.Auth()), nowMs) && db.State() == old(db.State())
    ensures email in db.admins && !compare(password, db.admins[email].passwordHash) ==>
      outcome == BadCredentials && s.Auth() == AfterFailure(old(s.Auth()), nowMs) &&
      db.State() == old(db.State()).(audit := old(db.audit) + [AuditEntry(email, "LOGIN_FAILED")])
    ensures email in db.admins && compare(password, db.admins[email].passwordHash) ==>
      var admin := db.admins[email];
      outcome == LoggedIn && s.Auth() == AuthState(admin.id, admin.email, admin.name, 0, None) &&
      db.State() == old(db.State()).(audit := old(db.audit) + [AuditEntry(admin.email, "LOGIN_SUCCESS")])
  {
    if email !in db.admins {
      RecordFailedLogin(s, nowMs);
      return BadCredentials;
    }
    var admin := db.admins[email];
    if !compare(password, admin.passwordHash) {
      RecordFailedLogin(s, nowMs);
      AppendAudit(db, email, "LOGIN_FAILED");
      return BadCredentials;
    }
    ResetLoginAttempts(s);
    s.adminId := admin.id;
    s.adminEmail := admin.email;
    s.adminName := admin.name;
    AppendAudit(db, admin.email, "LOGIN_SUCCESS");
    outcome := LoggedIn;
  }

  /** A successful login opens the admin routes. */
  lemma LoginAuthenticates(admin: AdminUser)
    requires admin.id != "" && admin.email != ""
    ensures Authenticated(AuthState(admin.id, admin.email, admin.name, 0, None))
  {
  }

  /** A failed attempt leaves `Authenticated` as it was: it neither grants nor withdraws access. */
  lemma FailedLoginKeepsAccess(a: AuthState, nowMs: int)
    ensures Authenticated(AfterFailure(a, nowMs)) <==> Authenticated(a)
  {
  }

  /**
   * `logout`: the whole session is destroyed (cart included), then LOGOUT is logged
   * only when an admin email was present.
   */
  method Logout(s: Session, db: Database) returns (redirect: string)
    modifies s, db
    ensures redirect == "/admin/login"
    ensures s.cart == null && s.Auth() == AuthState("", "", "", 0, None)
    ensures old(s.adminEmail) != "" ==>
      db.State() == old(db.State()).(audit := old(db.audit) + [AuditEntry(old(s.adminEmail), "LOGOUT")])
    ensures old(s.adminEmail) == "" ==> db.State() == old(db.State())
  {
    var email := s.adminEmail;
    s.cart, s.adminId, s.adminEmail, s.adminName := null, "", "", "";
    s.loginAttempts, s.lastLoginAttempt := 0, None;
    if email != "" {
      AppendAudit(db, email, "LOGOUT");
    }
    redirect := "/admin/login";
  }
}

=== FILE: CartController.dfy ===
/**
 * The session cart's JSON API: lazy cart creation, recalculation of the totals, adding,
 * updating and removing lines with their stock checks, and applying a promotion code.
 * Each handler is a method over the session's `Cart` object, proved against a function
 * on cart values (`AddLine`, `UpdateLine`, `RemoveLines`, `PromoDecision`) whose
 * properties the lemmas below state.
 */
module CartController {
  import opened Wrappers
  import opened Money
  import opened JsText
  import opened Helpers
  import opened Store
  import opened Sessions

  /* ---------------------------------------------------------------------------------
   * Quantities per product
   * --------------------------------------------------------------------------------- */

  /** The total quantity the lines hold of one product. */
  function QtyOf(items: seq<CartItem>, productId: string): (r: int)
    ensures |items| == 1 ==> r == (if items[0].productId == productId then items[0].quantity else 0)
  {
    if items == [] then 0
    else
      var last := items[|items| - 1];
      QtyOf(items[..|items| - 1], productId) + (if last.productId == productId then last.quantity else 0)
  }

  predicate Absent(items: seq<CartItem>, productId: string)
  {
    forall i :: 0 <= i < |items| ==> items[i].productId != productId
  }

  /** At most one line per product. */
  predicate UniqueIds(items: seq<CartItem>)
  {
    forall i, j :: 0 <= i < j < |items| ==> items[i].productId != items[j].productId
  }

  /** `findIndex`: the first line of the product, or -1. */
  function IndexOf(items: seq<CartItem>, productId: string): (r: int)
    ensures -1 <= r < |items|
    ensures r == -1 <==> Absent(items, productId)
    ensures r >= 0 ==> items[r].productId == productId && Absent(items[..r], productId)
  {
    if items == [] then -1
    else if items[0].productId == productId then 0
    else
      var k := IndexOf(items[1..], productId);
      assert k >= 0 ==> items[..k + 1] == [items[0]] + items[1..][..k];
      if k < 0 then -1 else k + 1
  }

  lemma {:induction false} QtyOfConcat(a: seq<CartItem>, b: seq<CartItem>, productId: string)
    ensures QtyOf(a + b, productId) == QtyOf(a, productId) + QtyOf(b, productId)
    decreases |b|
  {
    if b == [] {
      assert a + b == a;
    } else {
      var n := |b| - 1;
      assert (a + b)[..|a + b| - 1] == a + b[..n];
      QtyOfConcat(a, b[..n], productId);
    }
  }

  lemma {:induction false} QtyOfAbsent(items: seq<CartItem>, productId: string)
    requires Absent(items, productId)
    ensures QtyOf(items, productId) == 0
    decreases |items|
  {
    if items != [] {
      QtyOfAbsent(items[..|items| - 1], productId);
    }
  }

  /** With unique lines, the quantity held of a product is that of its line, or 0. */
  lemma QtyOfUnique(items: seq<CartItem>, productId: string)
    requires UniqueIds(items)
    ensures QtyOf(items, productId) ==
            (if IndexOf(items, productId) >= 0 then items[IndexOf(items, productId)].quantity else 0)
  {
    var k := IndexOf(items, productId);
    if k < 0 {
      QtyOfAbsent(items, productId);
    } else {
      assert items == items[..k] + [items[k]] + items[k + 1..];
      QtyOfConcat(items[..k] + [items[k]], items[k + 1..], productId);
      QtyOfConcat(items[..k], [items[k]], productId);
      QtyOfAbsent(items[..k], productId);
      QtyOfAbsent(items[k + 1..], productId);
    }
  }

  /** Replacing one line changes the quantities and the total by that line alone. */
  lemma ReplaceLine(items: seq<CartItem>, k: int, x: CartItem, productId: string)
    requires 0 <= k < |items|
    ensures QtyOf(items[k := x], productId) == QtyOf(items, productId) - QtyOf([items[k]], productId) + QtyOf([x], productId)
    ensures LinesTotal(items[k := x]) == LinesTotal(items) - LinesTotal([items[k]]) + LinesTotal([x])
  {
    assert items == items[..k] + [items[k]] + items[k + 1..];
    assert items[k := x] == items[..k] + [x] + items[k + 1..];
    QtyOfConcat(items[..k] + [items[k]], items[k + 1..], productId);
    QtyOfConcat(items[..k], [items[k]], productId);
    QtyOfConcat(items[..k] + [x], items[k + 1..], productId);
    QtyOfConcat(items[..k], [x], productId);
    LinesTotalConcat(items[..k] + [items[k]], items[k + 1..]);
    LinesTotalConcat(items[..k], [items[k]]);
    LinesTotalConcat(items[..k] + [x], items[k + 1..]);
    LinesTotalConcat(items[..k], [x]);
  }

  /** `splice(k, 1)`. */
  function RemoveAt(items: seq<CartItem>, k: int): (r: seq<CartItem>)
    requires 0 <= k < |items|
    ensures |r| == |items| - 1
    ensures forall i :: 0 <= i < k ==> r[i] == items[i]
    ensures forall i :: k <= i < |r| ==> r[i] == items[i + 1]
  {
    items[..k] + items[k + 1..]
  }

  /** Removing one line removes its quantity and its amount. */
  lemma RemoveLine(items: seq<CartItem>, k: int, productId: string)
    requires 0 <= k < |items|
    ensures QtyOf(RemoveAt(items, k), productId) == QtyOf(items, productId) - QtyOf([items[k]], productId)
    ensures LinesTotal(RemoveAt(items, k)) == LinesTotal(items) - LinesTotal([items[k]])
  {
    assert items == items[..k] + [items[k]] + items[k + 1..];
    QtyOfConcat(items[..k] + [items[k]], items[k + 1..], productId);
    QtyOfConcat(items[..k], [items[k]], productId);
    QtyOfConcat(items[..k], items[k + 1..], productId);
    LinesTotalConcat(items[..k] + [items[k]], items[k + 1..]);
    LinesTotalConcat(items[..k], [items[k]]);
    LinesTotalConcat(items[..k], items[k + 1..]);
  }

  /** `filter(i => i.productId !== productId)`. */
  function Without(items: seq<CartItem>, productId: string): (r: seq<CartItem>)
    ensures Absent(r, productId)
    ensures |r| <= |items|
    ensures forall x :: x in r ==> x in items
    ensures Absent(items, productId) ==> r == items
  {
    if items == [] then []
    else
      var last := items[|items| - 1];
      var front := items[..|items| - 1];
      assert items == front + [last];
      Without(front, productId) + (if last.productId == productId then [] else [last])
  }

  /** Filtering a product out leaves every other product's quantity as it was. */
  lemma {:induction false} WithoutQty(items: seq<CartItem>, productId: string, other: string)
    requires other != productId
    ensures QtyOf(Without(items, productId), other) == QtyOf(items, other)
    decreases |items|
  {
    if items != [] {
      var last := items[|items| - 1];
      var front := items[..|items| - 1];
      WithoutQty(front, productId, other);
      QtyOfConcat(Without(front, productId), if last.productId == productId then [] else [last], other);
    }
  }

  lemma {:induction false} WithoutUnique(items: seq<CartItem>, productId: string)
    requires UniqueIds(items)
    ensures UniqueIds(Without(items, productId))
    decreases |items|
  {
    if items != [] {
      var last := items[|items| - 1];
      var front := items[..|items| - 1];
      WithoutUnique(front, productId);
      var w := Without(front, productId);
      forall x | x in w
        ensures x.productId != last.productId
      {
        var i :| 0 <= i < |front| && front[i] == x;
        assert items[i] == x;
      }
    }
  }

  /* ---------------------------------------------------------------------------------
   * Recalculation
   * --------------------------------------------------------------------------------- */

  /**
   * The cart with its subtotal set to the lines' total and its total to
   * subtotal + shipping - discount, floored at 0; nothing else changes.
   */
  function Recalculated(c: CartState): (r: CartState)
    ensures r.items == c.items && r.shippingCost == c.shippingCost
    ensures r.discount == c.discount && r.promoCode == c.promoCode
    ensures r.subtotal == LinesTotal(c.items)
    ensures r.total >= 0 && r.total >= r.subtotal + r.shippingCost - r.discount
    ensures r.total == 0 || r.total == r.subtotal + r.shippingCost - r.discount
  {
    var subtotal := LinesTotal(c.items);
    c.(subtotal := subtotal, total := Max0(subtotal + c.shippingCost - c.discount))
  }

  /** A cart whose totals are consistent with its lines, discount and shipping. */
  predicate Consistent(c: CartState)
  {
    c == Recalculated(c)
  }

  method RecalculateCart(cart: Cart)
    modifies cart
    ensures cart.State() == Recalculated(old(cart.State()))
  {
    var sum := 0;
    var i := 0;
    while i < |cart.items|
      invariant 0 <= i <= |cart.items|
      invariant sum == LinesTotal(cart.items[..i])
    {
      assert cart.items[..i + 1][..i] == cart.items[..i];
      sum := sum + cart.items[i].UnitPrice() * cart.items[i].quantity;
      i := i + 1;
    }
    assert cart.items[..i] == cart.items;
    cart.subtotal := sum;
    cart.total := cart.subtotal + cart.shippingCost - cart.discount;
    if cart.total < 0 {
      cart.total := 0;
    }
  }

  /** `getCart`: the session's cart, created empty on first use. */
  method GetCart(s: Session) returns (cart: Cart)
    modifies s
    ensures s.cart == cart && cart.State() == old(s.CartValue())
    ensures old(s.cart) != null ==> cart == old(s.cart)
    ensures old(s.cart) == null ==> fresh(cart)
    ensures s.Auth() == old(s.Auth())
  {
    if s.cart == null {
      s.cart := new Cart.Empty();
    }
    cart := s.cart;
  }

  /* ---------------------------------------------------------------------------------
   * The cart operations, as functions on cart values
   * --------------------------------------------------------------------------------- */

  datatype CartError =
    | ProductNotFound
    | InsufficientStock(available: int)
    | LineNotFound
    | PromoInvalid
    | PromoExpired
    | PromoExhausted
    | BelowMinimum(minimum: Cents)

  /** The HTTP status each rejection is answered with. */
  function HttpStatus(e: CartError): (r: int)
    ensures r == 404 <==> e == ProductNotFound || e == LineNotFound
    ensures r == 404 || r == 400
  {
    match e
    case ProductNotFound => 404
    case LineNotFound => 404
    case _ => 400
  }

  datatype Outcome = Updated(cart: CartState) | Rejected(error: CartError)

  /** The line a product gets when first added: a snapshot of its current data. */
  function Snapshot(p: Product, quantity: int): (r: CartItem)
    ensures r.productId == p.id && r.quantity == quantity && r.stock == p.stock
    ensures r.UnitPrice() == p.promoPrice.GetOr(p.price)
  {
    CartItem(p.id, p.name, p.slug, p.price, p.promoPrice, GetProductImage(p.images, Thumbnail), quantity, p.stock)
  }

  /** Adding `quantity` of an active product `p`. */
  function AddLine(c: CartState, p: Product, quantity: int): (r: Outcome)
    ensures r.Rejected? ==> r.error == InsufficientStock(p.stock)
    ensures r.Updated? ==> Consistent(r.cart) && r.cart.discount == c.discount && r.cart.promoCode == c.promoCode
  {
    var k := IndexOf(c.items, p.id);
    if k >= 0 then
      var newQty := c.items[k].quantity + quantity;
      if newQty > p.stock then Rejected(InsufficientStock(p.stock))
      else Updated(Recalculated(c.(items := c.items[k := c.items[k].(quantity := newQty)])))
    else if quantity > p.stock then Rejected(InsufficientStock(p.stock))
    else Updated(Recalculated(c.(items := c.items + [Snapshot(p, quantity)])))
  }

  /**
   * Adding succeeds exactly when the product's resulting quantity is within its stock; it
   * then adds `quantity` to that product alone, keeps one line per product, appends a
   * line only for a product not yet in the cart, and grows the subtotal by `quantity`
   * times that line's unit price.
   */
  lemma AddLineEffect(c: CartState, p: Product, quantity: int)
    requires UniqueIds(c.items)
    ensures AddLine(c, p, quantity).Rejected? <==> QtyOf(c.items, p.id) + quantity > p.stock
    ensures AddLine(c, p, quantity).Updated? ==>
      var n := AddLine(c, p, quantity).cart;
      UniqueIds(n.items) &&
      QtyOf(n.items, p.id) == QtyOf(c.items, p.id) + quantity &&
      (forall id :: id != p.id ==> QtyOf(n.items, id) == QtyOf(c.items, id)) &&
      |n.items| == |c.items| + (if Absent(c.items, p.id) then 1 else 0) &&
      n.subtotal == LinesTotal(c.items) + quantity *
        (if Absent(c.items, p.id) then p.promoPrice.GetOr(p.price) else c.items[IndexOf(c.items, p.id)].UnitPrice())
  {
    QtyOfUnique(c.items, p.id);
    if AddLine(c, p, quantity).Updated? {
      if IndexOf(c.items, p.id) >= 0 {
        AddToExistingLine(c, p, quantity);
      } else {
        AddNewLine(c, p, quantity);
      }
    }
  }

  /** Adding a product the cart already holds raises its line. */
  lemma AddToExistingLine(c: CartState, p: Product, quantity: int)
    requires UniqueIds(c.items) && IndexOf(c.items, p.id) >= 0 && AddLine(c, p, quantity).Updated?
    ensures var n := AddLine(c, p, quantity).cart; var k := IndexOf(c.items, p.id);
      UniqueIds(n.items) && |n.items| == |c.items| &&
      QtyOf(n.items, p.id) == QtyOf(c.items, p.id) + quantity &&
      (forall id :: id != p.id ==> QtyOf(n.items, id) == QtyOf(c.items, id)) &&
      n.subtotal == LinesTotal(c.items) + quantity * c.items[k].UnitPrice()
  {
    var k := IndexOf(c.items, p.id);
    var x := c.items[k];
    var newQty := x.quantity + quantity;
    var n := AddLine(c, p, quantity).cart;
    assert n.items == c.items[k := x.(quantity := newQty)];
    IncrementLine(c.items, k, newQty);
    assert (newQty - x.quantity) * x.UnitPrice() == quantity * x.UnitPrice();
  }

  /** Adding a product the cart does not hold appends its snapshot. */
  lemma AddNewLine(c: CartState, p: Product, quantity: int)
    requires UniqueIds(c.items) && IndexOf(c.items, p.id) < 0 && AddLine(c, p, quantity).Updated?
    ensures var n := AddLine(c, p, quantity).cart;
      UniqueIds(n.items) && |n.items| == |c.items| + 1 &&
      QtyOf(n.items, p.id) == QtyOf(c.items, p.id) + quantity &&
      (forall id :: id != p.id ==> QtyOf(n.items, id) == QtyOf(c.items, id)) &&
      n.subtotal == LinesTotal(c.items) + quantity * p.promoPrice.GetOr(p.price)
  {
    AppendLine(c.items, Snapshot(p, quantity));
  }

  /** Raising the quantity of line `k` to `newQty`. */
  lemma IncrementLine(items: seq<CartItem>, k: int, newQty: int)
    requires UniqueIds(items) && 0 <= k < |items|
    ensures var n := items[k := items[k].(quantity := newQty)];
      UniqueIds(n) &&
      QtyOf(n, items[k].productId) == QtyOf(items, items[k].productId) - items[k].quantity + newQty &&
      (forall id :: id != items[k].productId ==> QtyOf(n, id) == QtyOf(items, id)) &&
      LinesTotal(n) == LinesTotal(items) + (newQty - items[k].quantity) * items[k].UnitPrice()
  {
    var x := items[k].(quantity := newQty);
    ReplaceLine(items, k, x, x.productId);
    forall id | id != x.productId
      ensures QtyOf(items[k := x], id) == QtyOf(items, id)
    {
      ReplaceLine(items, k, x, id);
    }
  }

  /** Appending a line for a product the lines do not hold. */
  lemma AppendLine(items: seq<CartItem>, x: CartItem)
    requires UniqueIds(items) && Absent(items, x.productId)
    ensures UniqueIds(items + [x])
    ensures QtyOf(items + [x], x.productId) == QtyOf(items, x.productId) + x.quantity
    ensures forall id :: id != x.productId ==> QtyOf(items + [x], id) == QtyOf(items, id)
    ensures LinesTotal(items + [x]) == LinesTotal(items) + x.UnitPrice() * x.quantity
  {
    QtyOfConcat(items, [x], x.productId);
    LinesTotalConcat(items, [x]);
    forall id | id != x.productId
      ensures QtyOf(items + [x], id) == QtyOf(items, id)
    {
      QtyOfConcat(items, [x], id);
    }
  }

  /** Setting the quantity of the line of `productId`; `live` is that product, if it still exists. */
  function UpdateLine(c: CartState, productId: string, quantity: int, live: Option<Product>): (r: Outcome)
    ensures r.Rejected? ==> r.error == LineNotFound || (live.Some? && r.error == InsufficientStock(live.value.stock))
    ensures r.Updated? ==> Consistent(r.cart) && r.cart.discount == c.discount && r.cart.promoCode == c.promoCode
  {
    var k := IndexOf(c.items, productId);
    if k < 0 then Rejected(LineNotFound)
    else if quantity <= 0 then Updated(Recalculated(c.(items := RemoveAt(c.items, k))))
    else if live.Some? && quantity > live.value.stock then Rejected(InsufficientStock(live.value.stock))
    else Updated(Recalculated(c.(items := c.items[k := c.items[k].(quantity := quantity)])))
  }

  /**
   * Updating fails with LineNotFound exactly when the product has no line, and with
   * InsufficientStock exactly when a positive quantity exceeds the stock of a product
   * that still exists. Otherwise a quantity of 0 or less removes the line and any other
   * sets it, leaving every other product's quantity as it was.
   */
  lemma UpdateLineEffect(c: CartState, productId: string, quantity: int, live: Option<Product>)
    requires UniqueIds(c.items)
    ensures UpdateLine(c, productId, quantity, live) == Rejected(LineNotFound) <==> Absent(c.items, productId)
    ensures UpdateLine(c, productId, quantity, live).Rejected? && !Absent(c.items, productId) <==>
            quantity > 0 && live.Some? && quantity > live.value.stock && !Absent(c.items, productId)
    ensures UpdateLine(c, productId, quantity, live).Updated? ==>
      var n := UpdateLine(c, productId, quantity, live).cart;
      UniqueIds(n.items) &&
      QtyOf(n.items, productId) == (if quantity <= 0 then 0 else quantity) &&
      (quantity <= 0 ==> Absent(n.items, productId) && |n.items| == |c.items| - 1) &&
      (quantity > 0 ==> |n.items| == |c.items|) &&
      (forall id :: id != productId ==> QtyOf(n.items, id) == QtyOf(c.items, id))
  {
    if UpdateLine(c, productId, quantity, live).Updated? {
      if quantity <= 0 {
        UpdateRemovesLine(c, productId, quantity, live);
      } else {
        UpdateSetsLine(c, productId, quantity, live);
      }
    }
  }

  /** A quantity of 0 or less drops the product's line. */
  lemma UpdateRemovesLine(c: CartState, productId: string, quantity: int, live: Option<Product>)
    requires UniqueIds(c.items) && quantity <= 0 && UpdateLine(c, productId, quantity, live).Updated?
    ensures var n := UpdateLine(c, productId, quantity, live).cart;
      UniqueIds(n.items) && Absent(n.items, productId) && QtyOf(n.items, productId) == 0 &&
      |n.items| == |c.items| - 1 &&
      (forall id :: id != productId ==> QtyOf(n.items, id) == QtyOf(c.items, id))
  {
    var k := IndexOf(c.items, productId);
    var n := UpdateLine(c, productId, quantity, live).cart;
    assert n.items == RemoveAt(c.items, k);
    forall i | 0 <= i < |n.items|
      ensures n.items[i].productId != productId
    {
      if i >= k {
        assert n.items[i] == c.items[i + 1];
      }
    }
    QtyOfAbsent(n.items, productId);
    forall id | id != productId
      ensures QtyOf(n.items, id) == QtyOf(c.items, id)
    {
      RemoveLine(c.items, k, id);
    }
  }

  /** A positive quantity within the stock replaces the line's quantity. */
  lemma UpdateSetsLine(c: CartState, productId: string, quantity: int, live: Option<Product>)
    requires UniqueIds(c.items) && quantity > 0 && UpdateLine(c, productId, quantity, live).Updated?
    ensures var n := UpdateLine(c, productId, quantity, live).cart;
      UniqueIds(n.items) && QtyOf(n.items, productId) == quantity && |n.items| == |c.items| &&
      (forall id :: id != productId ==> QtyOf(n.items, id) == QtyOf(c.items, id))
  {
    var k := IndexOf(c.items, productId);
    var n := UpdateLine(c, productId, quantity, live).cart;
    var x := c.items[k].(quantity := quantity);
    assert n.items == c.items[k := x];
    QtyOfUnique(c.items, productId);
    ReplaceLine(c.items, k, x, productId);
    forall id | id != productId
      ensures QtyOf(n.items, id) == QtyOf(c.items, id)
    {
      ReplaceLine(c.items, k, x, id);
    }
  }

  /** Dropping every line of the product. */
  function RemoveLines(c: CartState, productId: string): (r: CartState)
    ensures Consistent(r) && r.discount == c.discount && r.promoCode == c.promoCode
    ensures Absent(r.items, productId)
    ensures Absent(c.items, productId) ==> r.items == c.items
  {
    Recalculated(c.(items := Without(c.items, productId)))
  }

  /** Removing keeps one line per product and every other product's quantity. */
  lemma RemoveLinesEffect(c: CartState, productId: string)
    requires UniqueIds(c.items)
    ensures UniqueIds(RemoveLines(c, productId).items)
    ensures QtyOf(RemoveLines(c, productId).items, productId) == 0
    ensures forall id :: id != productId ==> QtyOf(RemoveLines(c, productId).items, id) == QtyOf(c.items, id)
  {
    WithoutUnique(c.items, productId);
    QtyOfAbsent(RemoveLines(c, productId).items, productId);
    forall id | id != productId
      ensures QtyOf(RemoveLines(c, productId).items, id) == QtyOf(c.items, id)
    {
      WithoutQty(c.items, productId, id);
    }
  }

  /* ---------------------------------------------------------------------------------
   * Promotion codes
   * --------------------------------------------------------------------------------- */

  const Percentage := "percentage"

  /**
   * The discount a promotion gives on a subtotal: the nearest cent to `value`
   * hundredths of a percent of it, or `value` cents for a fixed discount.
   */
  function PromoDiscount(promo: PromoCode, subtotal: Cents): (r: Cents)
    ensures promo.discountType == Percentage ==>
      2 * 10000 * r - 10000 <= 2 * (subtotal * promo.discountValue) < 2 * 10000 * r + 10000
    ensures promo.discountType != Percentage ==> r == promo.discountValue
  {
    if promo.discountType == Percentage then RoundHalfUp(subtotal * promo.discountValue, 10000)
    else promo.discountValue
  }

  /** A percentage of at most 100% never discounts more than the subtotal. */
  lemma PercentageWithinSubtotal(promo: PromoCode, subtotal: Cents)
    requires promo.discountType == Percentage && 0 <= promo.discountValue <= 10000 && subtotal >= 0
    ensures 0 <= PromoDiscount(promo, subtotal) <= subtotal
  {
    MulBounds(subtotal, promo.discountValue, 10000);
  }

  lemma MulBounds(x: int, v: int, m: int)
    requires x >= 0 && 0 <= v <= m
    ensures 0 <= x * v <= x * m
  {
    assert x * m - x * v == x * (m - v);
  }

  predicate Expired(promo: PromoCode, nowMs: int)
  {
    promo.expiresAt.Some? && promo.expiresAt.value < nowMs
  }

  /** A use limit of null or 0 is no limit. */
  predicate Exhausted(promo: PromoCode)
  {
    promo.maxUses.Some? && promo.maxUses.value != 0 && promo.currentUses >= promo.maxUses.value
  }

  predicate BelowMinimumAmount(promo: PromoCode, subtotal: Cents)
  {
    promo.minOrderAmount.Some? && subtotal < promo.minOrderAmount.value
  }

  /** Applying the promotion `promo` (the row found under the upper-cased code, if any). */
  function PromoDecision(c: CartState, promo: Option<PromoCode>, nowMs: int): (r: Outcome)
    ensures r == Rejected(PromoInvalid) <==> promo.None? || !promo.value.isActive
    ensures r == Rejected(PromoExpired) <==> promo.Some? && promo.value.isActive && Expired(promo.value, nowMs)
    ensures r == Rejected(PromoExhausted) <==>
      promo.Some? && promo.value.isActive && !Expired(promo.value, nowMs) && Exhausted(promo.value)
    ensures r.Rejected? && r.error.BelowMinimum? <==>
      promo.Some? && promo.value.isActive && !Expired(promo.value, nowMs) && !Exhausted(promo.value) &&
      BelowMinimumAmount(promo.value, c.subtotal)
    ensures r.Rejected? && r.error.BelowMinimum? ==> r.error.minimum == promo.value.minOrderAmount.value
    ensures r.Updated? ==>
      Consistent(r.cart) && r.cart.items == c.items && r.cart.shippingCost == c.shippingCost &&
      r.cart.promoCode == Some(promo.value.code) && r.cart.discount == PromoDiscount(promo.value, c.subtotal)
  {
    if promo.None? || !promo.value.isActive then Rejected(PromoInvalid)
    else
      var pc := promo.value;
      if Expired(pc, nowMs) then Rejected(PromoExpired)
      else if Exhausted(pc) then Rejected(PromoExhausted)
      else if BelowMinimumAmount(pc, c.subtotal) then Rejected(BelowMinimum(pc.minOrderAmount.value))
      else Updated(Recalculated(c.(promoCode := Some(pc.code), discount := PromoDiscount(pc, c.subtotal))))
  }

  /** A use limit or minimum amount of 0, or none at all, never rejects a code. */
  lemma ZeroLimitsNeverReject(c: CartState, promo: PromoCode, nowMs: int)
    requires promo.isActive && !Expired(promo, nowMs) && c.subtotal >= 0
    requires promo.maxUses == None || promo.maxUses == Some(0)
    requires promo.minOrderAmount == None || promo.minOrderAmount == Some(0)
    ensures PromoDecision(c, Some(promo), nowMs).Updated?
  {
  }

  /** The seeded BIENVENUE10 code: 10% off from 20 euros, at most 100 uses. */
  const Bienvenue10 := PromoCode("promo-1", "BIENVENUE10", Percentage, 1000, Some(2000), Some(100), 0, None, true)

  /** 25 euros of goods with BIENVENUE10 cost 22.50; 19.99 euros are refused for the minimum. */
  lemma Bienvenue10Scenario(item: CartItem)
    requires item.promoPrice == None && item.price == 1250 && item.quantity == 2
    ensures PromoDecision(Recalculated(EmptyCart.(items := [item])), Some(Bienvenue10), 0)
         == Updated(CartState([item], 2500, 0, 250, Some("BIENVENUE10"), 2250))
    ensures PromoDecision(Recalculated(EmptyCart.(items := [item.(price := 1999, quantity := 1)])), Some(Bienvenue10), 0)
         == Rejected(BelowMinimum(2000))
  {
    RoundHalfUpUnique(2500 * 1000, 10000, 250);
  }

  /* ---------------------------------------------------------------------------------
   * The handlers
   * --------------------------------------------------------------------------------- */

  /** POST /api/cart/add. A quantity left out of the body counts as 1. */
  method ApiAddToCart(s: Session, db: Database, productId: string, quantity: Option<int>)
    returns (status: int, error: Option<CartError>)
    requires db.Valid()
    modifies s, s.cart
    ensures s.Auth() == old(s.Auth())
    ensures old(s.cart) != null ==> s.cart == old(s.cart)
    ensures productId !in db.products || !db.products[productId].isActive ==>
      status == 404 && error == Some(ProductNotFound) && s.cart == old(s.cart) && s.CartValue() == old(s.CartValue())
    ensures productId in db.products && db.products[productId].isActive ==>
      var out := AddLine(old(s.CartValue()), db.products[productId], quantity.GetOr(1));
      s.cart != null &&
      (out.Rejected? ==> status == 400 && error == Some(out.error) && s.CartValue() == old(s.CartValue())) &&
      (out.Updated? ==> status == 200 && error == None && s.CartValue() == out.cart)
  {
    var q := quantity.GetOr(1);
    if productId !in db.products || !db.products[productId].isActive {
      return 404, Some(ProductNotFound);
    }
    var cart := GetCart(s);
    status, error := AddToCart(cart, db.products[productId], q);
  }

  /** The stock check of the add route, then the line incremented or appended on the session's cart. */
  method AddToCart(cart: Cart, product: Product, q: int) returns (status: int, error: Option<CartError>)
    modifies cart
    ensures
      var out := AddLine(old(cart.State()), product, q);
      (out.Rejected? ==> status == 400 && error == Some(out.error) && cart.State() == old(cart.State())) &&
      (out.Updated? ==> status == 200 && error == None && cart.State() == out.cart)
  {
    var k := IndexOf(cart.items, product.id);
    if k >= 0 {
      var newQty := cart.items[k].quantity + q;
      if newQty > product.stock {
        return 400, Some(InsufficientStock(product.stock));
      }
      cart.items := cart.items[k := cart.items[k].(quantity := newQty)];
    } else {
      if q > product.stock {
        return 400, Some(InsufficientStock(product.stock));
      }
      cart.items := cart.items + [Snapshot(product, q)];
    }
    RecalculateCart(cart);
    status, error := 200, None;
  }

  /** PUT /api/cart/update. */
  method ApiUpdateCart(s: Session, db: Database, productId: string, quantity: int)
    returns (status: int, error: Option<CartError>)
    modifies s, s.cart
    ensures s.Auth() == old(s.Auth()) && s.cart != null
    ensures old(s.cart) != null ==> s.cart == old(s.cart)
    ensures
      var live := if productId in db.products then Some(db.products[productId]) else None;
      var out := UpdateLine(old(s.CartValue()), productId, quantity, live);
      (out.Rejected? ==> status == HttpStatus(out.error) && error == Some(out.error) && s.CartValue() == old(s.CartValue())) &&
      (out.Updated? ==> status == 200 && error == None && s.CartValue() == out.cart)
  {
    var cart := GetCart(s);
    var k := IndexOf(cart.items, productId);
    if k < 0 {
      return 404, Some(LineNotFound);
    }
    if quantity <= 0 {
      cart.items := RemoveAt(cart.items, k);
    } else {
      if productId in db.products && quantity > db.products[productId].stock {
        return 400, Some(InsufficientStock(db.products[productId].stock));
      }
      cart.items := cart.items[k := cart.items[k].(quantity := quantity)];
    }
    RecalculateCart(cart);
    status, error := 200, None;
  }

  /** DELETE /api/cart/remove: always succeeds. */
  method ApiRemoveFromCart(s: Session, productId: string)
    modifies s, s.cart
    ensures s.Auth() == old(s.Auth()) && s.cart != null
    ensures old(s.cart) != null ==> s.cart == old(s.cart)
    ensures s.CartValue() == RemoveLines(old(s.CartValue()), productId)
  {
    var cart := GetCart(s);
    cart.items := Without(cart.items, productId);
    RecalculateCart(cart);
  }

  /** POST /api/cart/promo; `nowMs` is the current time. */
  method ApiApplyPromo(s: Session, db: Database, code: string, nowMs: int)
    returns (status: int, error: Option<CartError>)
    modifies s, s.cart
    ensures s.Auth() == old(s.Auth()) && s.cart != null
    ensures old(s.cart) != null ==> s.cart == old(s.cart)
    ensures
      var key := UpperCase(code);
      var out := PromoDecision(old(s.CartValue()), if key in db.promos then Some(db.promos[key]) else None, nowMs);
      (out.Rejected? ==> status == 400 && error == Some(out.error) && s.CartValue() == old(s.CartValue())) &&
      (out.Updated? ==> status == 200 && error == None && s.CartValue() == out.cart)
  {
    var cart := GetCart(s);
    var key := UpperCase(code);
    var promo := if key in db.promos then Some(db.promos[key]) else None;
    status, error := ApplyPromo(cart, promo, nowMs);
  }

  /** The checks of the promo route, in the route's order, then the discount on the session's cart. */
  method ApplyPromo(cart: Cart, promo: Option<PromoCode>, nowMs: int) returns (status: int, error: Option<CartError>)
    modifies cart
    ensures
      var out := PromoDecision(old(cart.State()), promo, nowMs);
      (out.Rejected? ==> status == 400 && error == Some(out.error) && cart.State() == old(cart.State())) &&
      (out.Updated? ==> status == 200 && error == None && cart.State() == out.cart)
  {
    if promo.None? || !promo.value.isActive {
      return 400, Some(PromoInvalid);
    }
    var pc := promo.value;
    if pc.expiresAt.Some? && pc.expiresAt.value < nowMs {
      return 400, Some(PromoExpired);
    }
    if pc.maxUses.Some? && pc.maxUses.value != 0 && pc.currentUses >= pc.maxUses.value {
      return 400, Some(PromoExhausted);
    }
    if pc.minOrderAmount.Some? && cart.subtotal < pc.minOrderAmount.value {
      return 400, Some(BelowMinimum(pc.minOrderAmount.value));
    }
    var discount := 0;
    if pc.discountType == Percentage {
      discount := RoundHalfUp(cart.subtotal * pc.discountValue, 10000);
    } else {
      discount := pc.discountValue;
    }
    cart.promoCode := Some(pc.code);
    cart.discount := discount;
    RecalculateCart(cart);
    status, error := 200, None;
  }
}

=== FILE: Checkout.dfy ===
/**
 * Checkout and payment confirmation. Checkout re-prices every cart line from the live
 * product, creates one pending order and asks the payment provider for a session;
 * confirmation marks the order paid, takes each line's quantity out of stock with one
 * "sale" movement per line, and empties the cart.
 */
module Checkout {
  import opened Wrappers
  import opened Money
  import opened Helpers
  import opened Store
  import opened Sessions
  import opened StripeService
  import opened CartController

  /** The checkout form's fields; the address fields are "" when left out. */
  datatype CheckoutForm = CheckoutForm(
    customerName: string,
    customerEmail: string,
    customerPhone: string,
    deliveryMethod: string,
    notes: Option<string>,
    address: string,
    city: string,
    postalCode: string)

  /** A line can be ordered when its product exists, is active and has enough stock. */
  predicate Purchasable(item: CartItem, products: map<string, Product>)
  {
    item.productId in products && products[item.productId].isActive &&
    products[item.productId].stock >= item.quantity
  }

  predicate AllPurchasable(items: seq<CartItem>, products: map<string, Product>)
  {
    forall i :: 0 <= i < |items| ==> Purchasable(items[i], products)
  }

  /** The line with the price and promotional price of the live product. */
  function LiveLine(item: CartItem, p: Product): (r: CartItem)
    ensures r.productId == item.productId && r.quantity == item.quantity && r.name == item.name
    ensures r.UnitPrice() == p.promoPrice.GetOr(p.price)
  {
    item.(price := p.price, promoPrice := p.promoPrice)
  }

  /** Every cart line re-priced from its live product. */
  function Repriced(items: seq<CartItem>, products: map<string, Product>): (r: seq<CartItem>)
    requires AllPurchasable(items, products)
    ensures |r| == |items|
    ensures forall i :: 0 <= i < |items| ==> r[i] == LiveLine(items[i], products[items[i].productId])
  {
    seq(|items|, i requires 0 <= i < |items| => LiveLine(items[i], products[items[i].productId]))
  }

  /** The order line of a cart line: its unit price and unit price times quantity. */
  function OrderLine(item: CartItem): (r: OrderItem)
    ensures r.productId == item.productId && r.productName == item.name && r.quantity == item.quantity
    ensures r.unitPrice == item.UnitPrice() && r.totalPrice == r.unitPrice * r.quantity
  {
    OrderItem(item.productId, item.name, item.quantity, item.UnitPrice(), item.UnitPrice() * item.quantity)
  }

  function OrderLines(items: seq<CartItem>): (r: seq<OrderItem>)
    ensures |r| == |items|
    ensures forall i :: 0 <= i < |items| ==> r[i] == OrderLine(items[i])
  {
    seq(|items|, i requires 0 <= i < |items| => OrderLine(items[i]))
  }

  /** The sum of the order lines' totals. */
  function ItemsTotal(items: seq<OrderItem>): int
  {
    if items == [] then 0 else ItemsTotal(items[..|items| - 1]) + items[|items| - 1].totalPrice
  }

  lemma {:induction false} ItemsTotalOfLines(items: seq<CartItem>)
    ensures ItemsTotal(OrderLines(items)) == LinesTotal(items)
    decreases |items|
  {
    if items != [] {
      var n := |items| - 1;
      assert OrderLines(items)[..n] == OrderLines(items[..n]);
      ItemsTotalOfLines(items[..n]);
    }
  }

  /**
   * The pending order for the re-priced lines: its subtotal is the sum of its line
   * totals (not rounded), its shipping follows the shipping rule, and its total is
   * subtotal + shipping - the cart's discount, with no floor at 0.
   */
  function NewOrder(cart: CartState, serverItems: seq<CartItem>, form: CheckoutForm,
                    orderId: string, orderNumber: string): (r: Order)
    ensures r.id == orderId && r.orderNumber == orderNumber && r.status == "pending"
    ensures r.stripeSessionId == None
    ensures r.items == OrderLines(serverItems)
    ensures r.subtotal == ItemsTotal(r.items)
    ensures r.shippingCost == CalculateShipping(r.subtotal, form.deliveryMethod)
    ensures r.total == r.subtotal + r.shippingCost - cart.discount
    ensures r.discount == cart.discount && r.promoCode == cart.promoCode
    ensures r.shippingAddress.Some? <==> form.deliveryMethod == "delivery"
  {
    var subtotal := LinesTotal(serverItems);
    var shippingCost := CalculateShipping(subtotal, form.deliveryMethod);
    ItemsTotalOfLines(serverItems);
    Order(orderId, orderNumber, form.customerName, form.customerEmail, form.customerPhone,
          if form.deliveryMethod == "delivery" then Some(ShippingAddress(form.address, form.city, form.postalCode)) else None,
          form.deliveryMethod, "pending", subtotal, shippingCost, cart.discount,
          subtotal + shippingCost - cart.discount, cart.promoCode, form.notes,
          OrderLines(serverItems), None)
  }

  /** What the provider is asked to charge for an order. */
  function ParamsFor(order: Order, serverItems: seq<CartItem>, form: CheckoutForm): CheckoutParams
  {
    CheckoutParams(serverItems, form.customerEmail, form.customerName, form.deliveryMethod,
                   order.shippingCost, order.discount, order.id, order.orderNumber)
  }

  /** Where checkout sends the customer after asking for a payment session. */
  function CheckoutRedirect(reply: CreateReply): (r: string)
    ensures reply.CreateFailed? ==> r == "/panier?error=server"
    ensures reply.Created? && reply.url.GetOr("") != "" ==> r == reply.url.value
    ensures reply.Created? && reply.url.GetOr("") == "" ==> r == "/panier?error=stripe"
  {
    match reply
    case CreateFailed => "/panier?error=server"
    case Created(url) => if url.GetOr("") != "" then url.value else "/panier?error=stripe"
  }

  /** Every order line carries its live product's price, not the price the cart saw. */
  lemma CheckoutUsesLivePrices(cart: CartState, products: map<string, Product>, form: CheckoutForm,
                               orderId: string, orderNumber: string, i: int)
    requires AllPurchasable(cart.items, products) && 0 <= i < |cart.items|
    ensures
      var o := NewOrder(cart, Repriced(cart.items, products), form, orderId, orderNumber);
      var p := products[cart.items[i].productId];
      |o.items| == |cart.items| &&
      o.items[i].productId == cart.items[i].productId && o.items[i].quantity == cart.items[i].quantity &&
      o.items[i].unitPrice == p.promoPrice.GetOr(p.price) &&
      o.items[i].totalPrice == p.promoPrice.GetOr(p.price) * cart.items[i].quantity
  {
  }

  /**
   * The provider charges the order's total plus its discount: the discount is recorded
   * on the order but never passed on to the payment session.
   */
  lemma ChargeIgnoresDiscount(cart: CartState, serverItems: seq<CartItem>, form: CheckoutForm,
                              orderId: string, orderNumber: string, appUrl: string, nowMs: int)
    ensures
      var o := NewOrder(cart, serverItems, form, orderId, orderNumber);
      ChargedTotal(SessionRequestFor(ParamsFor(o, serverItems, form), appUrl, nowMs).lineItems) == o.total + o.discount
  {
    var o := NewOrder(cart, serverItems, form, orderId, orderNumber);
    ChargedSessionLines(serverItems, appUrl, o.shippingCost);
    ItemsTotalOfLines(serverItems);
  }

  /**
   * A fixed 10-euro code on a 5-euro cart collected in store: the cart shows 0, the order
   * records -5 euros.
   */
  lemma TotalNotFloored(item: CartItem, form: CheckoutForm)
    requires item.promoPrice == None && item.price == 500 && item.quantity == 1
    requires form.deliveryMethod == "pickup"
    ensures
      var cart := CartState([item], 500, 0, 1000, Some("MOINS10"), 0);
      NewOrder(cart, [item], form, "o", "n").total == -500
  {
    var cart := CartState([item], 500, 0, 1000, Some("MOINS10"), 0);
    assert ItemsTotal(OrderLines([item])) == 500 by {
      assert OrderLines([item])[..0] == [];
    }
  }

  /**
   * The re-pricing loop of the checkout: every line from its live product, or nothing at
   * the first line whose product is missing, inactive or short of stock.
   */
  method RepriceLines(items: seq<CartItem>, products: map<string, Product>) returns (r: Option<seq<CartItem>>)
    ensures r.Some? <==> AllPurchasable(items, products)
    ensures r.Some? ==> r.value == Repriced(items, products)
  {
    var serverItems: seq<CartItem> := [];
    var i := 0;
    while i < |items|
      invariant 0 <= i <= |items|
      invariant forall j :: 0 <= j < i ==> Purchasable(items[j], products)
      invariant |serverItems| == i
      invariant forall j :: 0 <= j < i ==> serverItems[j] == LiveLine(items[j], products[items[j].productId])
    {
      var item := items[i];
      if item.productId !in products || !products[item.productId].isActive ||
         products[item.productId].stock < item.quantity {
        assert !Purchasable(items[i], products);
        return None;
      }
      serverItems := serverItems + [LiveLine(item, products[item.productId])];
      i := i + 1;
    }
    return Some(serverItems);
  }

  /** `prisma.order.create`: the order is stored under its id and nothing else changes. */
  method InsertOrder(db: Database, order: Order)
    requires db.Valid() && order.id !in db.orders
    modifies db
    ensures db.Valid()
    ensures db.State() == old(db.State()).(orders := old(db.orders)[order.id := order])
  {
    db.orders := db.orders[order.id := order];
  }

  /** POST /checkout. `orderId` is the id the database gives the new order. */
  method ProcessCheckout(s: Session, db: Database, form: CheckoutForm, orderId: string, orderNumber: string,
                         appUrl: string, nowMs: int, create: SessionRequest -> CreateReply)
    returns (redirect: string)
    requires db.Valid() && orderId !in db.orders
    modifies s, s.cart, db
    ensures db.Valid()
    ensures s.Auth() == old(s.Auth()) && s.CartValue() == old(s.CartValue())
    ensures old(s.CartValue()).items == [] ==> redirect == "/panier" && db.State() == old(db.State())
    ensures old(s.CartValue()).items != [] && !AllPurchasable(old(s.CartValue()).items, old(db.products)) ==>
      redirect == "/panier?error=stock" && db.State() == old(db.State())
    ensures old(s.CartValue()).items != [] && AllPurchasable(old(s.CartValue()).items, old(db.products)) ==>
      var serverItems := Repriced(old(s.CartValue()).items, old(db.products));
      var order := NewOrder(old(s.CartValue()), serverItems, form, orderId, orderNumber);
      db.State() == old(db.State()).(orders := old(db.orders)[orderId := order]) &&
      redirect == CheckoutRedirect(create(SessionRequestFor(ParamsFor(order, serverItems, form), appUrl, nowMs)))
  {
    var cart := GetCart(s);
    redirect := PlaceOrder(db, cart.State(), form, orderId, orderNumber, appUrl, nowMs, create);
  }

  /** The checkout handler once it holds the session's cart `c`: the order is written before payment starts. */
  method PlaceOrder(db: Database, c: CartState, form: CheckoutForm, orderId: string, orderNumber: string,
                    appUrl: string, nowMs: int, create: SessionRequest -> CreateReply)
    returns (redirect: string)
    requires db.Valid() && orderId !in db.orders
    modifies db
    ensures db.Valid()
    ensures c.items == [] ==> redirect == "/panier" && db.State() == old(db.State())
    ensures c.items != [] && !AllPurchasable(c.items, old(db.products)) ==>
      redirect == "/panier?error=stock" && db.State() == old(db.State())
    ensures c.items != [] && AllPurchasable(c.items, old(db.products)) ==>
      var serverItems := Repriced(c.items, old(db.products));
      var order := NewOrder(c, serverItems, form, orderId, orderNumber);
      db.State() == old(db.State()).(orders := old(db.orders)[orderId := order]) &&
      redirect == CheckoutRedirect(create(SessionRequestFor(ParamsFor(order, serverItems, form), appUrl, nowMs)))
  {
    if |c.items| == 0 {
      return "/panier";
    }
    var priced := RepriceLines(c.items, db.products);
    if priced.None? {
      return "/panier?error=stock";
    }
    var serverItems := priced.value;
    redirect := OpenOrder(db, NewOrder(c, serverItems, form, orderId, orderNumber), serverItems, form, appUrl, nowMs,
                          create);
  }

  /** The pending order is stored, then the payment session is asked for and the customer redirected. */
  method OpenOrder(db: Database, order: Order, serverItems: seq<CartItem>, form: CheckoutForm,
                   appUrl: string, nowMs: int, create: SessionRequest -> CreateReply)
    returns (redirect: string)
    requires db.Valid() && order.id !in db.orders
    modifies db
    ensures db.Valid() && db.State() == old(db.State()).(orders := old(db.orders)[order.id := order])
    ensures redirect == CheckoutRedirect(create(SessionRequestFor(ParamsFor(order, serverItems, form), appUrl, nowMs)))
  {
    InsertOrder(db, order);
    var request, url := CreateCheckoutSession(ParamsFor(order, serverItems, form), appUrl, nowMs, create);
    if url.None? {
      return "/panier?error=server";
    }
    if url.value != "" {
      redirect := url.value;
    } else {
      redirect := "/panier?error=stripe";
    }
  }

  /* ---------------------------------------------------------------------------------
   * Payment confirmation
   * --------------------------------------------------------------------------------- */

  /** The payment session as the provider returns it, or an exception. */
  datatype RetrieveReply = Retrieved(orderId: Option<string>) | RetrieveFailed

  datatype ConfirmationOutcome =
    | RedirectHome
    /** The confirmation page, showing the paid order. */
    | Confirmed(order: Order)
    /** The confirmation page without an order, after an exception. */
    | ErrorPage

  /** The total quantity the order lines sell of one product. */
  function SoldQty(items: seq<OrderItem>, productId: string): int
  {
    if items == [] then 0
    else
      var last := items[|items| - 1];
      SoldQty(items[..|items| - 1], productId) + (if last.productId == productId then last.quantity else 0)
  }

  lemma {:induction false} SoldQtyConcat(a: seq<OrderItem>, b: seq<OrderItem>, productId: string)
    ensures SoldQty(a + b, productId) == SoldQty(a, productId) + SoldQty(b, productId)
    decreases |b|
  {
    if b == [] {
      assert a + b == a;
    } else {
      var n := |b| - 1;
      assert (a + b)[..|a + b| - 1] == a + b[..n];
      SoldQtyConcat(a, b[..n], productId);
    }
  }

  /** The products after the lines' quantities are taken out of stock, with no floor. */
  function StockAfterSale(products: map<string, Product>, items: seq<OrderItem>): (r: map<string, Product>)
    ensures r.Keys == products.Keys
  {
    map id | id in products :: products[id].(stock := products[id].stock - SoldQty(items, id))
  }

  /** One "sale" movement of minus the quantity per line, in order. */
  function SaleMovements(items: seq<OrderItem>, orderId: string): (r: seq<StockMovement>)
    ensures |r| == |items|
    ensures forall i :: 0 <= i < |items| ==>
      r[i] == StockMovement(items[i].productId, -items[i].quantity, "sale", Some(orderId))
  {
    seq(|items|, i requires 0 <= i < |items| => StockMovement(items[i].productId, -items[i].quantity, "sale", Some(orderId)))
  }

  /** How many lines, from the first, have a product that still exists. */
  function SalePrefix(items: seq<OrderItem>, products: map<string, Product>): (k: nat)
    ensures k <= |items|
    ensures forall j :: 0 <= j < k ==> items[j].productId in products
    ensures k < |items| ==> items[k].productId !in products
  {
    if items == [] || items[0].productId !in products then 0
    else 1 + SalePrefix(items[1..], products)
  }

  /** Selling `a` and then `b` is selling `a + b`. */
  lemma SalesCompose(products: map<string, Product>, a: seq<OrderItem>, b: seq<OrderItem>)
    ensures StockAfterSale(StockAfterSale(products, a), b) == StockAfterSale(products, a + b)
  {
    forall id | id in products
      ensures StockAfterSale(StockAfterSale(products, a), b)[id] == StockAfterSale(products, a + b)[id]
    {
      SoldQtyConcat(a, b, id);
    }
  }

  /**
   * With no guard on the order's status, confirming the same order twice takes its
   * quantities out of stock twice.
   */
  lemma RepeatConfirmationSellsTwice(products: map<string, Product>, items: seq<OrderItem>, id: string)
    requires id in products
    ensures StockAfterSale(StockAfterSale(products, items), items)[id].stock == products[id].stock - 2 * SoldQty(items, id)
  {
    SalesCompose(products, items, items);
    SoldQtyConcat(items, items, id);
  }

  lemma {:induction false} SaleMovementsLedger(items: seq<OrderItem>, orderId: string, productId: string)
    ensures LedgerSum(SaleMovements(items, orderId), productId) == -SoldQty(items, productId)
    decreases |items|
  {
    if items != [] {
      var n := |items| - 1;
      assert SaleMovements(items, orderId)[..n] == SaleMovements(items[..n], orderId);
      SaleMovementsLedger(items[..n], orderId, productId);
    }
  }

  /** A sale changes each product's stock by exactly what its movements record. */
  lemma SaleKeepsLedgerBalanced(products: map<string, Product>, movements: seq<StockMovement>,
                                items: seq<OrderItem>, orderId: string)
    ensures StockBaseline(StockAfterSale(products, items), movements + SaleMovements(items, orderId))
         == StockBaseline(products, movements)
  {
    forall id | id in products
      ensures StockBaseline(StockAfterSale(products, items), movements + SaleMovements(items, orderId))[id]
           == StockBaseline(products, movements)[id]
    {
      LedgerSumConcat(movements, SaleMovements(items, orderId), id);
      SaleMovementsLedger(items, orderId, id);
    }
  }

  lemma SaleStep(products: map<string, Product>, items: seq<OrderItem>, i: int)
    requires 0 <= i < |items| && items[i].productId in products
    ensures
      var q := StockAfterSale(products, items[..i]);
      var p := q[items[i].productId];
      StockAfterSale(products, items[..i + 1]) == q[items[i].productId := p.(stock := p.stock - items[i].quantity)]
  {
    assert items[..i + 1][..i] == items[..i];
  }

  /**
   * GET /confirmation?session_id=… . The order is marked paid whatever its status; if a
   * line's product no longer exists the loop stops there with the earlier lines already
   * applied, and the page is rendered without an order.
   */
  method ConfirmationPage(s: Session, db: Database, sessionId: string, retrieve: string -> RetrieveReply)
    returns (outcome: ConfirmationOutcome)
    requires db.Valid()
    modifies s, db
    ensures db.Valid() && s.Auth() == old(s.Auth())
    ensures sessionId == "" ==> outcome == RedirectHome && db.State() == old(db.State()) && s.cart == old(s.cart)
    ensures sessionId != "" && retrieve(sessionId).RetrieveFailed? ==>
      outcome == ErrorPage && db.State() == old(db.State()) && s.cart == old(s.cart)
    ensures sessionId != "" && retrieve(sessionId).Retrieved? && retrieve(sessionId).orderId.GetOr("") == "" ==>
      outcome == RedirectHome && db.State() == old(db.State()) && s.cart == old(s.cart)
    ensures sessionId != "" && retrieve(sessionId).Retrieved? && retrieve(sessionId).orderId.GetOr("") != "" ==>
      var orderId := retrieve(sessionId).orderId.value;
      (orderId !in old(db.orders) ==> outcome == ErrorPage && db.State() == old(db.State()) && s.cart == old(s.cart)) &&
      (orderId in old(db.orders) ==>
        db.State() == AfterConfirmation(old(db.State()), orderId, sessionId) &&
        (SaleCompletes(old(db.State()), orderId) ==>
           outcome == Confirmed(db.orders[orderId]) && s.cart != null && fresh(s.cart) && s.CartValue() == EmptyCart) &&
        (!SaleCompletes(old(db.State()), orderId) ==> outcome == ErrorPage && s.cart == old(s.cart)))
  {
    if sessionId == "" {
      return RedirectHome;
    }
    var reply := retrieve(sessionId);
    if reply.RetrieveFailed? {
      return ErrorPage;
    }
    var orderId := reply.orderId.GetOr("");
    if orderId == "" {
      return RedirectHome;
    }
    if orderId !in db.orders {
      return ErrorPage;
    }
    var order, complete := ConfirmOrder(db, orderId, sessionId);
    if !complete {
      return ErrorPage;
    }
    s.cart := new Cart.Empty();
    outcome := Confirmed(order);
  }

  /** The writes of the confirmation: the order marked paid, then the stock loop over its lines. */
  method ConfirmOrder(db: Database, orderId: string, sessionId: string) returns (order: Order, complete: bool)
    requires db.Valid() && orderId in db.orders
    modifies db
    ensures db.Valid() && db.State() == AfterConfirmation(old(db.State()), orderId, sessionId)
    ensures order == db.orders[orderId] && (complete <==> SaleCompletes(old(db.State()), orderId))
  {
    ghost var t := db.State();
    AfterConfirmationWellKeyed(t, orderId, sessionId);
    order := db.orders[orderId].(status := "paid", stripeSessionId := Some(sessionId));
    var after, sold;
    after, sold, complete := SellLines(db.products, order.items, orderId);
    AfterConfirmationOf(t, orderId, sessionId, after, sold);
    WriteSale(db, orderId, order, after, sold);
  }

  /** The confirmation's writes: the paid order, the new stock and the recorded movements. */
  method WriteSale(db: Database, orderId: string, order: Order, after: map<string, Product>, sold: seq<StockMovement>)
    modifies db
    ensures db.State() == old(db.State()).(orders := old(db.orders)[orderId := order], products := after,
                                           movements := old(db.movements) + sold)
  {
    db.orders, db.products, db.movements := db.orders[orderId := order], after, db.movements + sold;
  }

  /**
   * The tables after confirming `orderId`: the order paid with the session id recorded,
   * and the sale applied up to the first line whose product is missing.
   */
  function AfterConfirmation(t: DbState, orderId: string, sessionId: string): (r: DbState)
    requires orderId in t.orders
    ensures r.orders == t.orders[orderId := t.orders[orderId].(status := "paid", stripeSessionId := Some(sessionId))]
    ensures r.categories == t.categories && r.promos == t.promos && r.reviews == t.reviews
    ensures r.admins == t.admins && r.audit == t.audit
    ensures r.products.Keys == t.products.Keys
  {
    var paid := t.orders[orderId].(status := "paid", stripeSessionId := Some(sessionId));
    var k := SalePrefix(paid.items, t.products);
    t.(orders := t.orders[orderId := paid],
       products := StockAfterSale(t.products, paid.items[..k]),
       movements := t.movements + SaleMovements(paid.items[..k], orderId))
  }

  /** The confirmed tables, given the outcome of the stock loop. */
  lemma AfterConfirmationOf(t: DbState, orderId: string, sessionId: string,
                            after: map<string, Product>, sold: seq<StockMovement>)
    requires orderId in t.orders
    requires var k := SalePrefix(t.orders[orderId].items, t.products);
      after == StockAfterSale(t.products, t.orders[orderId].items[..k]) &&
      sold == SaleMovements(t.orders[orderId].items[..k], orderId)
    ensures AfterConfirmation(t, orderId, sessionId) ==
      t.(orders := t.orders[orderId := t.orders[orderId].(status := "paid", stripeSessionId := Some(sessionId))],
         products := after, movements := t.movements + sold)
  {
  }

  /**
   * Confirmation changes stock only through the movements it records, and a complete
   * sale takes every line of the order out of stock with one movement each.
   */
  lemma AfterConfirmationEffect(t: DbState, orderId: string, sessionId: string)
    requires orderId in t.orders
    ensures var r := AfterConfirmation(t, orderId, sessionId);
      StockBaseline(r.products, r.movements) == StockBaseline(t.products, t.movements) &&
      (SaleCompletes(t, orderId) ==>
        r.products == StockAfterSale(t.products, t.orders[orderId].items) &&
        r.movements == t.movements + SaleMovements(t.orders[orderId].items, orderId))
  {
    var items := t.orders[orderId].items;
    var k := SalePrefix(items, t.products);
    SaleKeepsLedgerBalanced(t.products, t.movements, items[..k], orderId);
    assert items[..|items|] == items;
  }

  /** Every line of the order still has its product, so the whole order is taken out of stock. */
  predicate SaleCompletes(t: DbState, orderId: string)
    requires orderId in t.orders
  {
    SalePrefix(t.orders[orderId].items, t.products) == |t.orders[orderId].items|
  }

  lemma AfterConfirmationWellKeyed(t: DbState, orderId: string, sessionId: string)
    requires orderId in t.orders && WellKeyed(t)
    ensures WellKeyed(AfterConfirmation(t, orderId, sessionId))
  {
  }

  /**
   * The stock loop of the confirmation, over the products table: for each line, take its
   * quantity out of its product's stock and record its movement, stopping (`complete`
   * false) at the first line whose product is missing.
   */
  method SellLines(products: map<string, Product>, items: seq<OrderItem>, orderId: string)
    returns (after: map<string, Product>, sold: seq<StockMovement>, complete: bool)
    ensures
      var k := SalePrefix(items, products);
      after == StockAfterSale(products, items[..k]) &&
      sold == SaleMovements(items[..k], orderId) &&
      (complete <==> k == |items|)
  {
    after, sold, complete := products, [], true;
    assert items[..0] == [];
    SellNothing(products);
    var i := 0;
    while i < |items|
      invariant i <= SalePrefix(items, products)
      invariant after == StockAfterSale(products, items[..i])
      invariant sold == SaleMovements(items[..i], orderId)
    {
      var item := items[i];
      if item.productId !in after {
        assert SalePrefix(items, products) == i;
        complete := false;
        return;
      }
      assert item.productId in products;
      assert i < SalePrefix(items, products);
      var p := after[item.productId];
      SellOne(products, items, i, after, item, p);
      SaleMovementsStep(items, orderId, i);
      after := after[item.productId := p.(stock := p.stock - item.quantity)];
      sold := sold + [StockMovement(item.productId, -item.quantity, "sale", Some(orderId))];
      i := i + 1;
    }
    assert items[..i] == items;
  }

  /** One turn of the stock loop, from the table it has reached. */
  lemma SellOne(products: map<string, Product>, items: seq<OrderItem>, i: int, after: map<string, Product>,
                item: OrderItem, p: Product)
    requires 0 <= i < |items| && after == StockAfterSale(products, items[..i])
    requires item == items[i] && item.productId in after && p == after[item.productId]
    ensures StockAfterSale(products, items[..i + 1]) == after[item.productId := p.(stock := p.stock - item.quantity)]
  {
    SaleStep(products, items, i);
  }

  lemma SellNothing(products: map<string, Product>)
    ensures StockAfterSale(products, []) == products
  {
    forall id | id in products
      ensures StockAfterSale(products, [])[id] == products[id]
    {
    }
  }

  lemma SaleMovementsStep(items: seq<OrderItem>, orderId: string, i: int)
    requires 0 <= i < |items|
    ensures SaleMovements(items[..i + 1], orderId) == SaleMovements(items[..i], orderId) +
      [StockMovement(items[i].productId, -items[i].quantity, "sale", Some(orderId))]
  {
    var a := SaleMovements(items[..i + 1], orderId);
    var b := SaleMovements(items[..i], orderId) + [StockMovement(items[i].productId, -items[i].quantity, "sale", Some(orderId))];
    assert |a| == |b|;
    forall j | 0 <= j < |a|
      ensures a[j] == b[j]
    {
    }
  }

  /** The prefix is `i` long when the first `i` products exist and the next does not (or there is none). */
  lemma {:induction false} SalePrefixIs(items: seq<OrderItem>, products: map<string, Product>, i: int)
    requires 0 <= i <= |items|
    requires forall j :: 0 <= j < i ==> items[j].productId in products
    requires i < |items| ==> items[i].productId !in products
    ensures SalePrefix(items, products) == i
    decreases i
  {
    if i > 0 {
      SalePrefixIs(items[1..], products, i - 1);
    }
  }
}

=== FILE: Helpers.dfy ===
/**
 * The storefront's pure helpers: shipping cost, stock status, the French labels and
 * badge colours of order statuses and menu sections, image-path sizing and text
 * truncation. Amounts are in cents.
 */
module Helpers {
  import opened Wrappers
  import opened JsText
  import opened Money

  /* ---------- shipping ---------- */

  /** Delivery is free from 50 euros on. */
  const FreeShippingFrom: Cents := 5000
  /** Flat delivery fee below that amount. */
  const DeliveryFee: Cents := 590

  /** `calculateShipping`: nothing for pickup or from 50 euros, 5.90 otherwise. */
  function CalculateShipping(subtotal: Cents, deliveryMethod: string): (r: Cents)
    ensures r == 0 || r == DeliveryFee
    ensures r == 0 <==> deliveryMethod == "pickup" || subtotal >= FreeShippingFrom
  {
    if deliveryMethod == "pickup" then 0
    else if subtotal >= FreeShippingFrom then 0
    else DeliveryFee
  }

  /** Spending more never makes shipping dearer. */
  lemma ShippingAntitone(a: Cents, b: Cents, deliveryMethod: string)
    requires a <= b
    ensures CalculateShipping(b, deliveryMethod) <= CalculateShipping(a, deliveryMethod)
  {
  }

  /* ---------- stock status ---------- */

  datatype StockStatus = Out | Low | In

  /** `getStockStatus`: out, low or in, and exactly one of them. */
  function GetStockStatus(stock: int, threshold: int): (r: StockStatus)
    ensures r == Out <==> stock <= 0
    ensures r == Low <==> 0 < stock <= threshold
    ensures r == In <==> stock > 0 && stock > threshold
  {
    if stock <= 0 then Out
    else if stock <= threshold then Low
    else In
  }

  function StatusRank(s: StockStatus): nat
  {
    match s
    case Out => 0
    case Low => 1
    case In => 2
  }

  /** Selling stock never improves the status: out stays out and in can only fall to low or out. */
  lemma StockStatusMonotone(a: int, b: int, threshold: int)
    requires a <= b
    ensures StatusRank(GetStockStatus(a, threshold)) <= StatusRank(GetStockStatus(b, threshold))
  {
  }

  /* ---------- labels ---------- */

  /** The seven order statuses, in workflow order. */
  const OrderStatuses: seq<string> :=
    ["pending", "paid", "preparing", "ready", "shipped", "delivered", "cancelled"]

  const OrderStatusLabels: map<string, string> := map[
    "pending" := "En attente",
    "paid" := "Payée",
    "preparing" := "En préparation",
    "ready" := "Prête",
    "shipped" := "Expédiée",
    "delivered" := "Livrée",
    "cancelled" := "Annulée"]

  const OrderStatusColors: map<string, string> := map[
    "pending" := "bg-yellow-100 text-yellow-800",
    "paid" := "bg-blue-100 text-blue-800",
    "preparing" := "bg-orange-100 text-orange-800",
    "ready" := "bg-green-100 text-green-800",
    "shipped" := "bg-purple-100 text-purple-800",
    "delivered" := "bg-green-200 text-green-900",
    "cancelled" := "bg-red-100 text-red-800"]

  const GrayBadge := "bg-gray-100 text-gray-800"

  const MenuSectionLabels: map<string, string> := map[
    "thes_chauds" := "Thés Chauds",
    "thes_glaces" := "Thés Glacés",
    "cafes" := "Cafés",
    "patisseries" := "Pâtisseries du Jour",
    "macarons" := "Macarons",
    "formules" := "Nos Formules"]

  /** `labels[key] || key`: every label is non-empty, so a listed key gives its label. */
  function LookupOr(labels: map<string, string>, key: string, fallback: string): (r: string)
    ensures key in labels && labels[key] != "" ==> r == labels[key]
    ensures key !in labels ==> r == fallback
  {
    if key in labels && labels[key] != "" then labels[key] else fallback
  }

  /** `getOrderStatusLabel`: the French label of a known status, any other string unchanged. */
  function OrderStatusLabel(status: string): (r: string)
    ensures status in OrderStatuses ==> r == OrderStatusLabels[status]
    ensures status !in OrderStatuses ==> r == status
  {
    LookupOr(OrderStatusLabels, status, status)
  }

  /** `getOrderStatusColor`: the badge classes of a known status, gray for any other. */
  function OrderStatusColor(status: string): (r: string)
    ensures status in OrderStatuses ==> r == OrderStatusColors[status]
    ensures status !in OrderStatuses ==> r == GrayBadge
  {
    LookupOr(OrderStatusColors, status, GrayBadge)
  }

  /** `getMenuSectionLabel`: the label of one of the six sections, any other key unchanged. */
  function MenuSectionLabel(section: string): (r: string)
    ensures section in MenuSectionLabels ==> r == MenuSectionLabels[section]
    ensures section !in MenuSectionLabels ==> r == section
  {
    LookupOr(MenuSectionLabels, section, section)
  }

  /** Two different known statuses never share a label, and no label is itself a status. */
  lemma OrderStatusLabelsDistinct(a: string, b: string)
    requires a in OrderStatuses && b in OrderStatuses && a != b
    ensures OrderStatusLabel(a) != OrderStatusLabel(b)
    ensures OrderStatusLabel(a) !in OrderStatuses
  {
  }

  /* ---------- images ---------- */

  const Placeholder := "/images/placeholder-product.jpg"
  const UploadsPrefix := "/uploads/"

  datatype ImageSize = Thumbnail | Medium | Large | Original

  function SizeName(size: ImageSize): (r: string)
    ensures '.' !in r && '-' !in r
  {
    match size
    case Thumbnail => "thumbnail"
    case Medium => "medium"
    case Large => "large"
    case Original => "original"
  }

  const SizeNames: set<string> := {"thumbnail", "medium", "large", "original"}

  /**
   * `base.replace(/-(thumbnail|medium|large|original)$/, '')`: drops one size suffix.
   * None of the four names holds a `-`, so the suffix starts at the last `-` of `base`.
   */
  function StripSizeSuffix(base: string): (r: string)
    ensures |r| <= |base| && r == base[..|r|]
    ensures |r| < |base| ==> base[|r|] == '-' && base[|r| + 1..] in SizeNames
  {
    var k := LastIndexOf(base, '-');
    if k >= 0 && base[k + 1..] in SizeNames then base[..k] else base
  }

  /** Stripping the suffix that sizing just added gives the base back. */
  lemma StripSized(base: string, size: ImageSize)
    ensures StripSizeSuffix(base + "-" + SizeName(size)) == base
  {
    var s := base + "-" + SizeName(size);
    assert s[|base|] == '-';
    assert '-' !in SizeName(size);
    assert forall j :: |base| < j < |s| ==> s[j] == SizeName(size)[j - |base| - 1];
    assert LastIndexOf(s, '-') == |base|;
    assert s[|base| + 1..] == SizeName(size);
    assert s[..|base|] == base;
  }

  /**
   * `getSingleImage`: the placeholder for an empty path; a path outside `/uploads/`
   * unchanged; otherwise the part before the last `.` with any size suffix dropped,
   * then `-size`, then the part from the last `.` on. Without a `.`, `lastIndexOf` is -1,
   * so the base is empty and the "extension" is the whole path.
   */
  function GetSingleImage(img: string, size: ImageSize): (r: string)
    ensures img == "" ==> r == Placeholder
    ensures img != "" && !StartsWith(img, UploadsPrefix) ==> r == img
    ensures StartsWith(img, UploadsPrefix) && '.' !in img ==> r == "-" + SizeName(size) + img
  {
    if img == "" then Placeholder
    else if StartsWith(img, UploadsPrefix) then
      var dot := LastIndexOf(img, '.');
      var base := Substring(img, 0, dot);
      var extension := Substring(img, dot, |img|);
      StripSizeSuffix(base) + "-" + SizeName(size) + extension
    else img
  }

  /** The last `.` of an upload path lies after the `/uploads/` prefix. */
  lemma UploadDot(img: string) returns (dot: nat)
    requires StartsWith(img, UploadsPrefix) && '.' in img
    ensures dot == LastIndexOf(img, '.') && 9 <= dot < |img|
    ensures '.' !in img[dot + 1..]
  {
    assert forall j :: 0 <= j < 9 ==> img[j] == img[..9][j];
    dot := LastIndexOf(img, '.');
  }

  /** Dropping a size suffix cannot reach into the `/uploads/` prefix. */
  lemma StripKeepsPrefix(whole: string)
    requires StartsWith(whole, UploadsPrefix)
    ensures StartsWith(StripSizeSuffix(whole), UploadsPrefix)
  {
    var r := StripSizeSuffix(whole);
    assert forall j :: 0 <= j < 9 ==> whole[j] == whole[..9][j];
    assert r[..9] == whole[..9];
  }

  /** The path of an upload in the given size, from its base name (without any size suffix). */
  lemma UploadShape(img: string, size: ImageSize) returns (base: string, ext: string)
    requires StartsWith(img, UploadsPrefix) && '.' in img
    ensures GetSingleImage(img, size) == base + "-" + SizeName(size) + ext
    ensures StartsWith(base, UploadsPrefix) && base == StripSizeSuffix(img[..LastIndexOf(img, '.')])
    ensures ext == img[LastIndexOf(img, '.')..] && |ext| >= 1 && ext[0] == '.' && '.' !in ext[1..]
  {
    var dot := UploadDot(img);
    var whole := img[..dot];
    assert whole[..9] == img[..9];
    StripKeepsPrefix(whole);
    base := StripSizeSuffix(whole);
    ext := img[dot..];
    assert ext[1..] == img[dot + 1..];
  }

  /** A path ending in an extension has its last `.` where the extension starts. */
  lemma LastDotOfExtension(stem: string, ext: string)
    requires |ext| >= 1 && ext[0] == '.' && '.' !in ext[1..]
    ensures LastIndexOf(stem + ext, '.') == |stem|
    ensures (stem + ext)[..|stem|] == stem && (stem + ext)[|stem|..] == ext
  {
    var s := stem + ext;
    assert s[|stem|] == '.';
    assert forall j :: |stem| < j < |s| ==> s[j] == ext[1..][j - |stem| - 1];
  }

  /** Resizing an already-sized upload replaces its size suffix instead of stacking a second one. */
  lemma ResizeReplacesSuffix(img: string, first: ImageSize, second: ImageSize)
    requires StartsWith(img, UploadsPrefix) && '.' in img
    ensures GetSingleImage(GetSingleImage(img, first), second) == GetSingleImage(img, second)
  {
    var base, ext := UploadShape(img, first);
    var base2, ext2 := UploadShape(img, second);
    var stem := base + "-" + SizeName(first);
    var sized := stem + ext;
    LastDotOfExtension(stem, ext);
    assert StartsWith(sized, UploadsPrefix) by {
      assert sized[..9] == base[..9];
    }
    assert sized[|stem|] == '.';
    StripSized(base, first);
    var base3, ext3 := UploadShape(sized, second);
    assert base3 == base && ext3 == ext;
  }

  /** The JSON text stored in a product's `images` column, as far as the helpers look at it. */
  datatype JsonText = ArrayOf(items: seq<string>) | NotAnArray | Unparseable

  /** `parseJsonArray`: the array's elements, or the empty list for any other text. */
  function ParseJsonArray(json: JsonText): (r: seq<string>)
    ensures json.ArrayOf? ==> r == json.items
    ensures !json.ArrayOf? ==> r == []
  {
    match json
    case ArrayOf(items) => items
    case _ => []
  }

  /** `getProductImage`: the first image in the given size, or the placeholder. */
  function GetProductImage(images: JsonText, size: ImageSize): (r: string)
    ensures ParseJsonArray(images) == [] ==> r == Placeholder
    ensures ParseJsonArray(images) != [] ==> r == GetSingleImage(ParseJsonArray(images)[0], size)
  {
    var parsed := ParseJsonArray(images);
    if |parsed| == 0 then Placeholder else GetSingleImage(parsed[0], size)
  }

  /* ---------- truncation ---------- */

  /** Where the trailing run of non-space characters starts. */
  function TrailingWordStart(s: string): (j: nat)
    ensures j <= |s| && NoSpace(s[j..])
    ensures j > 0 ==> IsSpace(s[j - 1])
  {
    if s == [] || IsSpace(s[|s| - 1]) then |s|
    else TrailingWordStart(s[..|s| - 1])
  }

  /**
   * `s.replace(/\s+\S*$/, '')`: when `s` has a space, drops its trailing word and the
   * spaces before it; a string without any space is left alone.
   */
  function DropTrailingWord(s: string): (r: string)
    ensures |r| <= |s| && r == s[..|r|]
    ensures r == s <==> NoSpace(s)
    ensures r != s ==> |r| < TrailingWordStart(s) && AllSpace(s[|r|..TrailingWordStart(s)])
    ensures r == [] || !IsSpace(r[|r| - 1])
  {
    var j := TrailingWordStart(s);
    if j == 0 then
      assert s[0..] == s;
      s
    else
      var r := TrimEnd(s[..j]);
      assert s[..j][|r|..] == s[|r|..j];
      assert s[..j][..|r|] == s[..|r|];
      r
  }

  /**
   * `p` is what `/\s+\S*$/` leaves of `cut`: the whole cut when it holds no space, else
   * the cut up to the whitespace run before its trailing word, that run excluded.
   */
  predicate WordCut(cut: string, p: string)
  {
    |p| <= |cut| && p == cut[..|p|] &&
    (NoSpace(cut) ==> p == cut) &&
    (!NoSpace(cut) ==>
      |p| < TrailingWordStart(cut) && AllSpace(cut[|p|..TrailingWordStart(cut)]) &&
      (p == [] || !IsSpace(p[|p| - 1])))
  }

  /** A cut has exactly one such remainder. */
  lemma WordCutUnique(cut: string, p: string, q: string)
    requires WordCut(cut, p) && WordCut(cut, q)
    ensures p == q
  {
  }

  /** `truncateText`: the text itself when short enough, else its first `maxLength` characters cut at a word boundary, and `…`. */
  function TruncateText(text: string, maxLength: int): (r: string)
    ensures |text| <= maxLength ==> r == text
    ensures |text| > maxLength ==>
      |r| >= 1 && r[|r| - 1] == '…' &&
      WordCut(text[..if maxLength < 0 then 0 else maxLength], r[..|r| - 1])
  {
    if |text| <= maxLength then text
    else
      var cut := Substring(text, 0, maxLength);
      var p := DropTrailingWord(cut);
      assert cut == text[..if maxLength < 0 then 0 else maxLength];
      assert (p + "…")[..|p|] == p;
      p + "…"
  }

  /** The cut drops the partial word and the space before it: "ab cd ef" cut at 5 is "ab…". */
  lemma TruncateDropsPartialWord()
    ensures TruncateText("ab cd ef", 5) == "ab…"
  {
    var r := TruncateText("ab cd ef", 5);
    var cut := "ab cd";
    assert "ab cd ef"[..5] == cut;
    assert !NoSpace(cut) by { assert IsSpace(cut[2]); }
    assert TrailingWordStart(cut) == 3;
    assert WordCut(cut, "ab") by { assert cut[2..3] == " "; }
    WordCutUnique(cut, r[..|r| - 1], "ab");
  }
}

=== FILE: JsText.dfy ===
/**
 * The JavaScript string and number built-ins that the storefront's code relies on
 * (`\s`, `\w`, `trim`, `toUpperCase`, `toLowerCase`, `split`, `startsWith`,
 * `includes`, `lastIndexOf`, `substring`, `parseInt`, `parseFloat`, `String(n)`),
 * stated over strings of Unicode scalar values.
 */
module JsText {
  import opened Wrappers

  /** JavaScript's `\s` class; `trim` removes exactly these characters. */
  predicate IsSpace(c: char)
  {
    c == ' ' || c == '\t' || c == '\n' || c == '\r' || c == '\U{B}' || c == '\U{C}'
    || c == '\U{A0}' || c == '\U{1680}' || ('\U{2000}' <= c <= '\U{200A}')
    || c == '\U{2028}' || c == '\U{2029}' || c == '\U{202F}' || c == '\U{205F}'
    || c == '\U{3000}' || c == '\U{FEFF}'
  }

  predicate IsDigit(c: char) { '0' <= c <= '9' }
  predicate IsLower(c: char) { 'a' <= c <= 'z' }
  predicate IsUpper(c: char) { 'A' <= c <= 'Z' }

  predicate IsHexDigit(c: char) { IsDigit(c) || 'a' <= c <= 'f' || 'A' <= c <= 'F' }

  /** JavaScript's `\w` class: ASCII letters, digits and `_`. */
  predicate IsWordChar(c: char) { IsLower(c) || IsUpper(c) || IsDigit(c) || c == '_' }

  predicate AllSpace(s: string) { forall i :: 0 <= i < |s| ==> IsSpace(s[i]) }
  predicate NoSpace(s: string) { forall i :: 0 <= i < |s| ==> !IsSpace(s[i]) }

  /** `toLowerCase` on one character, for the ASCII letters. */
  function LowerChar(c: char): (r: char)
    ensures IsUpper(c) ==> IsLower(r) && r as int == c as int + 32
    ensures !IsUpper(c) ==> r == c
  {
    if IsUpper(c) then (c as int + 32) as char else c
  }

  function LowerCase(s: string): (r: string)
    ensures |r| == |s|
    ensures forall i :: 0 <= i < |s| ==> r[i] == LowerChar(s[i])
  {
    if s == [] then [] else [LowerChar(s[0])] + LowerCase(s[1..])
  }

  /**
   * `toUpperCase` on one character, for ASCII and Latin-1: lower-case letters move to
   * their capitals, `ß` becomes `SS`, `ÿ` becomes U+0178 and `µ` becomes U+039C.
   */
  function UpperChar(c: char): (r: string)
    ensures IsLower(c) ==> r == [(c as int - 32) as char] && IsUpper(r[0])
    ensures IsUpper(c) || IsDigit(c) || c == ' ' || c == '-' || c == '_' ==> r == [c]
  {
    if IsLower(c) then [(c as int - 32) as char]
    else if c == '\U{DF}' then "SS"
    else if c == '\U{FF}' then ['\U{178}']
    else if c == '\U{B5}' then ['\U{39C}']
    else if '\U{E0}' <= c <= '\U{FE}' && c != '\U{F7}' then [(c as int - 32) as char]
    else [c]
  }

  function UpperCase(s: string): (r: string)
    ensures |r| >= |s|
    ensures (forall i :: 0 <= i < |s| ==> IsWordChar(s[i]) || s[i] == '-') ==>
      |r| == |s| && forall i :: 0 <= i < |s| ==> !IsLower(r[i]) && (IsLower(s[i]) || r[i] == s[i])
    ensures (forall i :: 0 <= i < |s| ==> IsWordChar(s[i]) || s[i] == '-') ==>
      |r| == |s| && forall i :: 0 <= i < |s| ==> IsLower(s[i]) ==> r[i] as int == s[i] as int - 32
  {
    if s == [] then [] else UpperChar(s[0]) + UpperCase(s[1..])
  }

  /** Drops the leading `\s` characters. */
  function TrimStart(s: string): (r: string)
    ensures |r| <= |s| && r == s[|s| - |r|..]
    ensures AllSpace(s[..|s| - |r|])
    ensures r == [] || !IsSpace(r[0])
  {
    if s != [] && IsSpace(s[0]) then TrimStart(s[1..]) else s
  }

  /** Drops the trailing `\s` characters. */
  function TrimEnd(s: string): (r: string)
    ensures |r| <= |s| && r == s[..|r|]
    ensures AllSpace(s[|r|..])
    ensures r == [] || !IsSpace(r[|r| - 1])
  {
    if s != [] && IsSpace(s[|s| - 1]) then TrimEnd(s[..|s| - 1]) else s
  }

  /** Where `trim`'s result starts in its input. */
  function TrimOffset(s: string): (i: nat)
    ensures i <= |s| && AllSpace(s[..i])
  {
    |s| - |TrimStart(s)|
  }

  /** `trim`: the slice of `s` left between its leading and its trailing `\s` characters. */
  function Trim(s: string): (r: string)
    ensures r == [] || (!IsSpace(r[0]) && !IsSpace(r[|r| - 1]))
    ensures TrimOffset(s) + |r| <= |s| && r == s[TrimOffset(s)..TrimOffset(s) + |r|]
    ensures AllSpace(s[..TrimOffset(s)]) && AllSpace(s[TrimOffset(s) + |r|..])
  {
    var t := TrimStart(s);
    var r := TrimEnd(t);
    SliceOfSuffix(s, |s| - |t|, |r|);
    r
  }

  /** The first `n` elements of the suffix from `a` are the slice from `a` to `a + n`, and the rest follows it. */
  lemma SliceOfSuffix<T>(s: seq<T>, a: nat, n: nat)
    requires a + n <= |s|
    ensures s[a..][..n] == s[a..a + n] && s[a..][n..] == s[a + n..]
  {
  }

  /** `trim` leaves a string without `\s` characters as it is. */
  lemma TrimNoSpace(s: string)
    requires NoSpace(s)
    ensures Trim(s) == s
  {
    assert TrimStart(s) == s;
  }

  function StartsWith(s: string, prefix: string): bool
  {
    |prefix| <= |s| && s[..|prefix|] == prefix
  }

  /** `s.includes(sub)` on strings. */
  predicate Contains(s: string, sub: string)
  {
    StartsWith(s, sub) || (s != [] && Contains(s[1..], sub))
  }

  /** `lastIndexOf` for one character: the last position of `c`, or -1. */
  function LastIndexOf(s: string, c: char): (r: int)
    ensures -1 <= r < |s|
    ensures r >= 0 ==> s[r] == c
    ensures forall j :: r < j < |s| ==> s[j] != c
  {
    if s == [] then -1
    else if s[|s| - 1] == c then |s| - 1
    else LastIndexOf(s[..|s| - 1], c)
  }

  /** `substring(start, end)`: both ends are clamped to 0..|s| and swapped when reversed. */
  function Substring(s: string, start: int, end: int): (r: string)
    ensures 0 <= start <= end <= |s| ==> r == s[start..end]
    ensures end <= 0 && start >= 0 && start <= |s| ==> r == s[..start]
  {
    var a := if start < 0 then 0 else if start > |s| then |s| else start;
    var b := if end < 0 then 0 else if end > |s| then |s| else end;
    if a <= b then s[a..b] else s[b..a]
  }

  /** `split(sep)` for a one-character separator; `"".split(",")` is `[""]`. */
  function Split(s: string, sep: char): (r: seq<string>)
    ensures |r| >= 1
    ensures forall i :: 0 <= i < |r| ==> sep !in r[i]
  {
    if s == [] then [""]
    else
      var rest := Split(s[1..], sep);
      if s[0] == sep then [""] + rest else [[s[0]] + rest[0]] + rest[1..]
  }

  /** `join(sep)`: the parts with `sep` between each two; the inverse of `Split`. */
  function Join(parts: seq<string>, sep: string): (r: string)
    ensures |parts| == 1 ==> r == parts[0]
  {
    if parts == [] then ""
    else if |parts| == 1 then parts[0]
    else parts[0] + sep + Join(parts[1..], sep)
  }

  lemma {:induction false} SplitJoin(s: string, sep: char)
    ensures Join(Split(s, sep), [sep]) == s
  {
    if s != [] {
      var rest := Split(s[1..], sep);
      SplitJoin(s[1..], sep);
      if s[0] == sep {
        assert Split(s, sep) == [""] + rest;
        assert Join([""] + rest, [sep]) == "" + [sep] + Join(rest, [sep]);
      } else {
        assert Split(s, sep) == [[s[0]] + rest[0]] + rest[1..];
        if |rest| == 1 {
          assert Join(rest, [sep]) == rest[0];
        } else {
          assert Join(rest, [sep]) == rest[0] + [sep] + Join(rest[1..], [sep]);
        }
      }
    }
  }

  /* ---------- numbers ---------- */

  function DigitValue(c: char): (r: nat)
    requires IsHexDigit(c)
    ensures r < 16
    ensures IsDigit(c) ==> r < 10
  {
    if IsDigit(c) then c as int - '0' as int
    else if 'a' <= c <= 'f' then c as int - 'a' as int + 10
    else c as int - 'A' as int + 10
  }

  function DigitChar(d: nat): (c: char)
    requires d < 10
    ensures IsDigit(c) && DigitValue(c) == d
  {
    ('0' as int + d) as char
  }

  /** The longest prefix of `s` made of digits of the given base (10 or 16). */
  function DigitPrefix(s: string, hex: bool): (r: string)
    ensures |r| <= |s| && r == s[..|r|]
    ensures forall i :: 0 <= i < |r| ==> IsHexDigit(r[i]) && (!hex ==> IsDigit(r[i]))
    ensures |r| < |s| ==> !(if hex then IsHexDigit(s[|r|]) else IsDigit(s[|r|]))
  {
    if s != [] && (if hex then IsHexDigit(s[0]) else IsDigit(s[0])) then [s[0]] + DigitPrefix(s[1..], hex)
    else []
  }

  /** The value of a digit string in base 10 or 16, most significant digit first. */
  function DigitsValue(ds: string, base: nat): nat
    requires base == 10 || base == 16
    requires forall i :: 0 <= i < |ds| ==> IsHexDigit(ds[i]) && (base == 10 ==> IsDigit(ds[i]))
  {
    if ds == [] then 0 else DigitsValue(ds[..|ds| - 1], base) * base + DigitValue(ds[|ds| - 1])
  }

  /** `String(n)` for a natural number: its decimal digits, no leading zero. */
  function NatToString(n: nat): (r: string)
    ensures |r| >= 1
    ensures forall i :: 0 <= i < |r| ==> IsDigit(r[i])
    ensures |r| > 1 ==> r[0] != '0'
  {
    if n < 10 then [DigitChar(n)] else NatToString(n / 10) + [DigitChar(n % 10)]
  }

  lemma {:induction false} NatToStringValue(n: nat)
    ensures DigitsValue(NatToString(n), 10) == n
  {
    if n >= 10 {
      var s := NatToString(n);
      NatToStringValue(n / 10);
      assert s[..|s| - 1] == NatToString(n / 10);
    }
  }

  /** Different numbers print differently. */
  lemma NatToStringInjective(a: nat, b: nat)
    requires NatToString(a) == NatToString(b)
    ensures a == b
  {
    NatToStringValue(a);
    NatToStringValue(b);
  }

  /** Splits an optional leading sign off `s`. */
  function SignSplit(s: string): (bool, string)
  {
    if s != [] && s[0] == '-' then (true, s[1..])
    else if s != [] && s[0] == '+' then (false, s[1..])
    else (false, s)
  }

  /** True when `u` starts with `0x` or `0X`. */
  predicate HexPrefixed(u: string)
  {
    |u| >= 2 && u[0] == '0' && (u[1] == 'x' || u[1] == 'X')
  }

  /**
   * The unsigned part of `parseInt`: a `0x`/`0X` prefix selects base 16, then the
   * longest run of digits is read and the rest ignored; `None` when there is no digit.
   */
  function ParseDigits(u: string): (r: Option<nat>)
    ensures r.None? <==> (if HexPrefixed(u) then DigitPrefix(u[2..], true) else DigitPrefix(u, false)) == []
  {
    var hex := HexPrefixed(u);
    var ds := if hex then DigitPrefix(u[2..], true) else DigitPrefix(u, false);
    if ds == [] then None else Some(DigitsValue(ds, if hex then 16 else 10))
  }

  /**
   * `parseInt(s)` with no radix: leading `\s` skipped, an optional sign, then the
   * digits read by `ParseDigits`. `None` is `NaN` (no digit at all).
   */
  function ParseInt(s: string): (r: Option<int>)
    ensures r.None? <==> ParseDigits(SignSplit(TrimStart(s)).1).None?
    ensures r.Some? && !SignSplit(TrimStart(s)).0 ==> r.value >= 0
  {
    var (negative, u) := SignSplit(TrimStart(s));
    match ParseDigits(u)
    case None => None
    case Some(v) => Some(if negative then -(v as int) else v)
  }

  /** A decimal digit string without a leading zero reads back as its own value. */
  lemma ParseDigitsDecimal(s: string)
    requires s != [] && forall i :: 0 <= i < |s| ==> IsDigit(s[i])
    ensures ParseDigits(s) == Some(DigitsValue(s, 10))
  {
    DigitPrefixAll(s);
    if |s| >= 2 {
      assert IsDigit(s[1]);
    }
    assert !HexPrefixed(s);
    var ds := DigitPrefix(s, false);
    assert ds == s;
  }

  /** `parseInt` reads back what `String(n)` writes, with or without a minus sign. */
  lemma ParseIntNatToString(n: nat)
    ensures ParseInt(NatToString(n)) == Some(n)
    ensures ParseInt("-" + NatToString(n)) == Some(-(n as int))
  {
    var s := NatToString(n);
    NatToStringValue(n);
    ParseDigitsDecimal(s);
    ParseUnsigned(s, n);
    ParseNegated(s, n);
  }

  lemma ParseUnsigned(s: string, v: nat)
    requires s != [] && IsDigit(s[0]) && ParseDigits(s) == Some(v)
    ensures ParseInt(s) == Some(v)
  {
    assert !IsSpace(s[0]);
    assert TrimStart(s) == s;
    assert SignSplit(s) == (false, s);
  }

  lemma ParseNegated(s: string, v: nat)
    requires s != [] && IsDigit(s[0]) && ParseDigits(s) == Some(v)
    ensures ParseInt("-" + s) == Some(-(v as int))
  {
    var t := "-" + s;
    assert !IsSpace(t[0]);
    assert TrimStart(t) == t;
    assert t[1..] == s;
    assert SignSplit(t) == (true, s);
  }

  lemma {:induction false} DigitPrefixAll(s: string)
    requires forall i :: 0 <= i < |s| ==> IsDigit(s[i])
    ensures DigitPrefix(s, false) == s
  {
    if s != [] {
      DigitPrefixAll(s[1..]);
    }
  }

  /** What `parseFloat` makes of a string, as far as a sign test can tell. */
  datatype NumberSign = NaN | Negative | NonNegative

  predicate AllZeroDigits(ds: string) { forall i :: 0 <= i < |ds| ==> ds[i] == '0' }

  /**
   * `parseFloat(s)` reduced to the question `!isNaN(x) && x >= 0`: leading `\s` skipped,
   * an optional sign, then `Infinity`, or digits with an optional fraction (at least one
   * digit in all). `-0 >= 0` holds, so a minus sign makes the value negative only when
   * some mantissa digit is not 0. An exponent is not read: a negative mantissa is taken
   * as negative even where an exponent such as `e-400` would underflow it to -0.
   */
  function ParseFloatSign(s: string): NumberSign
  {
    var (negative, u) := SignSplit(TrimStart(s));
    if StartsWith(u, "Infinity") then
      if negative then Negative else NonNegative
    else
      var whole := DigitPrefix(u, false);
      var rest := u[|whole|..];
      var frac := if rest != [] && rest[0] == '.' then DigitPrefix(rest[1..], false) else [];
      if whole == [] && frac == [] then NaN
      else if negative && !AllZeroDigits(whole + frac) then Negative else NonNegative
  }
}

=== FILE: Money.dfy ===
/**
 * Amounts of money in euro cents. The storefront computes with floating-point euros and
 * rounds with `Math.round(x * 100) / 100`; on exact cent amounts that is rounding half
 * up (ties toward positive infinity), which `RoundHalfUp` states over integers.
 */
module Money {
  /** An amount in euro cents; negative values occur (an order total below its discount). */
  type Cents = int

  /** `Math.round(n / d)`: the nearest integer to `n / d`, ties toward positive infinity. */
  function RoundHalfUp(n: int, d: int): (r: int)
    requires d > 0
    ensures 2 * d * r - d <= 2 * n < 2 * d * r + d
  {
    (2 * n + d) / (2 * d)
  }

  /** Only one integer lies within half a unit of `n / d`, so the rounding is well defined. */
  lemma RoundHalfUpUnique(n: int, d: int, r: int)
    requires d > 0
    requires 2 * d * r - d <= 2 * n < 2 * d * r + d
    ensures r == RoundHalfUp(n, d)
  {
    var q := RoundHalfUp(n, d);
    var k := r - q;
    assert 2 * d * r == 2 * d * q + 2 * (d * k);
    assert -d < d * k < d;
    SmallMultiple(d, k);
  }

  lemma SmallMultiple(d: int, k: int)
    requires d > 0 && -d < d * k < d
    ensures k == 0
  {
    if k >= 1 {
      MulAtLeast(d, k);
    } else if k <= -1 {
      MulAtLeast(d, -k);
    }
  }

  lemma {:induction false} MulAtLeast(d: int, k: int)
    requires d > 0 && k >= 1
    ensures d * k >= d
  {
    if k > 1 {
      MulAtLeast(d, k - 1);
    }
  }

  /** Rounding an exact multiple of `d` gives the quotient back. */
  lemma RoundHalfUpExact(k: int, d: int)
    requires d > 0
    ensures RoundHalfUp(k * d, d) == k
  {
    assert 2 * d * k - d <= 2 * (k * d) < 2 * d * k + d;
    RoundHalfUpUnique(k * d, d, k);
  }

  /** `Math.max(0, x)`. */
  function Max0(x: int): (r: int)
    ensures r >= 0 && r >= x
    ensures r == x || r == 0
  {
    if x < 0 then 0 else x
  }
}

=== FILE: PublicRoutes.dfy ===
/**
 * The visitor routes that change the store: the review form of a product page, and the
 * checkout form. Both sit behind a rate limiter and the body validator; the limiter's
 * verdict for the current request is the parameter `limited`.
 */
module PublicRoutes {
  import opened Wrappers
  import opened Store
  import opened Sessions
  import opened StripeService
  import opened Validation
  import opened JsText
  import Shop
  import Checkout

  /* ---------------------------------------------------------------------------------
   * Middleware chain
   * --------------------------------------------------------------------------------- */

  /** Where a request ends up after the limiter and the validator. */
  datatype Gate<T> =
    | Limited
    | Refused(reply: Validated<T>)
    | Reached(body: T)

  /** The limiter answers first; then the validator either answers or hands the body on. */
  function Guard<T>(limited: bool, parsed: Parsed<T>, path: string, xhr: bool, accept: Option<string>): (r: Gate<T>)
    ensures r.Limited? <==> limited
    ensures r.Reached? <==> !limited && parsed.Accepted?
    ensures r.Reached? ==> r.body == parsed.data
    ensures r.Refused? ==> !r.reply.Next? && r.reply.status == 400
  {
    if limited then Limited
    else match ValidateBody(parsed, path, xhr, accept)
      case Next(body) => Reached(body)
      case reply => Refused(reply)
  }

  /** `POST /checkout`: the checkout handler sees only bodies that passed the checkout schema. */
  lemma CheckoutGuarded(limited: bool, b: CheckoutBody, isEmail: string -> bool, dateParses: string -> bool,
                        path: string, xhr: bool, accept: Option<string>)
    ensures var g := Guard(limited, ParseCheckout(b, isEmail, dateParses), path, xhr, accept);
      (g.Reached? <==> !limited && CheckoutIssues(b, isEmail, dateParses) == []) &&
      (g.Reached? ==> g.body == b && b.deliveryMethod.Some? && b.deliveryMethod.value in {"pickup", "delivery"})
  {
  }

  /** The handler's reading of the body: absent fields are "", as `|| ''` and a missing form field give. */
  function FormOf(b: CheckoutBody): (r: Checkout.CheckoutForm)
    ensures r.notes == b.notes && r.deliveryMethod == b.deliveryMethod.GetOr("")
    ensures b.shippingAddress.Some? ==> r.address == b.shippingAddress.value
  {
    Checkout.CheckoutForm(b.customerName.GetOr(""), b.customerEmail.GetOr(""), b.customerPhone.GetOr(""),
      b.deliveryMethod.GetOr(""), b.notes, b.shippingAddress.GetOr(""), b.shippingCity.GetOr(""),
      b.shippingPostalCode.GetOr(""))
  }

  /** What `POST /checkout` answers: the limiter's 429, the validator's 400, or the handler's redirect. */
  datatype CheckoutReply =
    | TooManyRequests
    | InvalidCheckout(reply: Validated<CheckoutBody>)
    | CheckoutRedirect(url: string)

  method PostCheckout(s: Session, db: Database, limited: bool, b: CheckoutBody,
                      isEmail: string -> bool, dateParses: string -> bool,
                      path: string, xhr: bool, accept: Option<string>,
                      orderId: string, orderNumber: string, appUrl: string, nowMs: int,
                      create: SessionRequest -> CreateReply)
    returns (reply: CheckoutReply)
    requires db.Valid() && orderId !in db.orders
    modifies s, s.cart, db
    ensures db.Valid()
    ensures reply.TooManyRequests? <==> limited
    ensures reply.CheckoutRedirect? <==> !limited && CheckoutIssues(b, isEmail, dateParses) == []
    ensures reply.InvalidCheckout? ==> !reply.reply.Next? && reply.reply.status == 400
    ensures !reply.CheckoutRedirect? ==> db.State() == old(db.State())
    ensures s.Auth() == old(s.Auth()) && s.CartValue() == old(s.CartValue())
    ensures reply.CheckoutRedirect? && old(s.CartValue()).items != [] &&
            Checkout.AllPurchasable(old(s.CartValue()).items, old(db.products)) ==>
      var serverItems := Checkout.Repriced(old(s.CartValue()).items, old(db.products));
      db.orders == old(db.orders)[orderId := Checkout.NewOrder(old(s.CartValue()), serverItems, FormOf(b), orderId, orderNumber)]
  {
    CheckoutGuarded(limited, b, isEmail, dateParses, path, xhr, accept);
    var gate := Guard(limited, ParseCheckout(b, isEmail, dateParses), path, xhr, accept);
    match gate {
      case Limited =>
        reply := TooManyRequests;
      case Refused(r) =>
        reply := InvalidCheckout(r);
      case Reached(body) =>
        var url := Checkout.ProcessCheckout(s, db, FormOf(body), orderId, orderNumber, appUrl, nowMs, create);
        reply := CheckoutRedirect(url);
    }
  }

  /* ---------------------------------------------------------------------------------
   * Review submission
   * --------------------------------------------------------------------------------- */

  /** `findUnique({ where: { slug } })`: the product with the slug, if any; slugs are unique in the table. */
  function ProductWithSlug(products: map<string, Product>, slug: string): (r: Option<string>)
    requires Shop.SlugsUnique(products)
    ensures r.Some? <==> exists id :: id in products && products[id].slug == slug
    ensures r.Some? ==> r.value in products && products[r.value].slug == slug
  {
    if exists id :: id in products && products[id].slug == slug then
      var id :| id in products && products[id].slug == slug;
      Some(id)
    else
      None
  }

  /** A review body as the validator lets it through: every field present and the rating's leading integer in 1..5. */
  predicate ValidatedReview(b: ReviewBody)
  {
    b.customerName.Some? && b.customerEmail.Some? && b.rating.Some? && ValidRating(b.rating.value) && b.comment.Some?
  }

  /** Every review the validator accepts is one the handler can take. */
  lemma AcceptedReviewIsValidated(b: ReviewBody, isEmail: string -> bool)
    requires ParseReview(b, isEmail).Accepted?
    ensures ValidatedReview(ParseReview(b, isEmail).data)
  {
  }

  function SubmittedUrl(slug: string): string
  {
    "/boutique/" + slug + "?review=submitted"
  }

  const UnknownProductUrl := "/boutique?error=product"

  /** The review the handler stores: pending, with the rating's leading integer. */
  function PendingReview(productId: string, b: ReviewBody): (r: Review)
    requires ValidatedReview(b)
    ensures r.status == "pending" && 1 <= r.rating <= 5 && r.productId == productId
    ensures Some(r.rating) == ParseInt(b.rating.value)
  {
    Review(productId, b.customerName.value, b.customerEmail.value, ParseInt(b.rating.value).value,
      b.comment.value, "pending")
  }

  /**
   * The review handler: a filled honeypot gets the success redirect and nothing stored;
   * an unknown slug gets `error=product`; otherwise one pending review for that product.
   */
  function ReviewIntake(t: DbState, slug: string, b: ReviewBody, website: string, newId: string): (r: (string, DbState))
    requires Shop.SlugsUnique(t.products) && ValidatedReview(b)
    ensures website != "" ==> r == (SubmittedUrl(slug), t)
    ensures website == "" && (forall id :: id in t.products ==> t.products[id].slug != slug) ==>
      r == (UnknownProductUrl, t)
    ensures website == "" && (exists id :: id in t.products && t.products[id].slug == slug) ==>
      r.0 == SubmittedUrl(slug) &&
      exists id :: id in t.products && t.products[id].slug == slug &&
        r.1 == t.(reviews := t.reviews[newId := PendingReview(id, b)])
  {
    if website != "" then (SubmittedUrl(slug), t)
    else match ProductWithSlug(t.products, slug)
      case None => (UnknownProductUrl, t)
      case Some(id) => (SubmittedUrl(slug), t.(reviews := t.reviews[newId := PendingReview(id, b)]))
  }

  /** The submission touches nothing but the review table, and adds at most the one new review. */
  lemma ReviewIntakeOnlyAddsReview(t: DbState, slug: string, b: ReviewBody, website: string, newId: string)
    requires Shop.SlugsUnique(t.products) && ValidatedReview(b) && newId !in t.reviews
    ensures var t' := ReviewIntake(t, slug, b, website, newId).1;
      t' == t.(reviews := t'.reviews) && WellKeyed(t') == WellKeyed(t) &&
      (forall id :: id in t.reviews ==> id in t'.reviews && t'.reviews[id] == t.reviews[id]) &&
      (t'.reviews.Keys == t.reviews.Keys || t'.reviews.Keys == t.reviews.Keys + {newId}) &&
      (newId in t'.reviews ==> t'.reviews[newId].status == "pending" && t'.reviews[newId].productId in t.products)
  {
    if website == "" {
      var found := ProductWithSlug(t.products, slug);
      if found.Some? {
        AddedReviewKeeps(t, newId, PendingReview(found.value, b));
      }
    }
  }

  lemma AddedReviewKeeps(t: DbState, newId: string, r: Review)
    requires newId !in t.reviews && r.productId in t.products
    ensures var t' := t.(reviews := t.reviews[newId := r]);
      WellKeyed(t') == WellKeyed(t) && t'.reviews.Keys == t.reviews.Keys + {newId} &&
      forall id :: id in t.reviews ==> id in t'.reviews && t'.reviews[id] == t.reviews[id]
  {
  }

  /** A bot that fills the hidden field is told its review was received, and nothing is stored. */
  lemma HoneypotStoresNothing(t: DbState, slug: string, b: ReviewBody, website: string, newId: string)
    requires Shop.SlugsUnique(t.products) && ValidatedReview(b) && website != ""
    ensures ReviewIntake(t, slug, b, website, newId) == (SubmittedUrl(slug), t)
  {
  }

  /** `POST /boutique/:slug/avis` once past the limiter and the validator. */
  method SubmitReview(db: Database, slug: string, b: ReviewBody, website: string, newId: string)
    returns (redirect: string)
    requires Shop.SlugsUnique(db.products) && ValidatedReview(b)
    modifies db
    ensures (redirect, db.State()) == ReviewIntake(old(db.State()), slug, b, website, newId)
  {
    if website != "" {
      return SubmittedUrl(slug);
    }
    var found := exists id :: id in db.products && db.products[id].slug == slug;
    if !found {
      return UnknownProductUrl;
    }
    var id :| id in db.products && db.products[id].slug == slug;
    db.reviews := db.reviews[newId := PendingReview(id, b)];
    redirect := SubmittedUrl(slug);
  }
}

=== FILE: Session.dfy ===
/**
 * The per-visitor session: the shopping cart (the `Cart`/`CartItem` shapes of the
 * storefront's types) and the admin identity and login-attempt counters.
 */
module Sessions {
  import opened Wrappers
  import opened Money

  /** A cart line: a snapshot of the product taken when it was first added. */
  datatype CartItem = CartItem(
    productId: string,
    name: string,
    slug: string,
    price: Cents,
    promoPrice: Option<Cents>,
    image: string,
    quantity: int,
    stock: int)
  {
    /** The price the line is charged at: the promotional price when there is one. */
    function UnitPrice(): Cents { promoPrice.GetOr(price) }
  }

  /** The sum of unit price times quantity over the lines, in order. */
  function LinesTotal(items: seq<CartItem>): (r: int)
    ensures items == [] ==> r == 0
    ensures |items| == 1 ==> r == items[0].UnitPrice() * items[0].quantity
  {
    if items == [] then 0
    else LinesTotal(items[..|items| - 1]) + items[|items| - 1].UnitPrice() * items[|items| - 1].quantity
  }

  /** The total of a concatenation is the sum of the totals. */
  lemma {:induction false} LinesTotalConcat(a: seq<CartItem>, b: seq<CartItem>)
    ensures LinesTotal(a + b) == LinesTotal(a) + LinesTotal(b)
    decreases |b|
  {
    if b == [] {
      assert a + b == a;
    } else {
      var n := |b| - 1;
      assert (a + b)[..|a + b| - 1] == a + b[..n];
      LinesTotalConcat(a, b[..n]);
    }
  }

  /** The value of a cart at one moment. */
  datatype CartState = CartState(
    items: seq<CartItem>,
    subtotal: Cents,
    shippingCost: Cents,
    discount: Cents,
    promoCode: Option<string>,
    total: Cents)

  /** No items, every amount 0, no promotion code. */
  const EmptyCart := CartState([], 0, 0, 0, None, 0)

  class Cart {
    var items: seq<CartItem>
    var subtotal: Cents
    var shippingCost: Cents
    var discount: Cents
    var promoCode: Option<string>
    var total: Cents

    function State(): CartState
      reads this
    {
      CartState(items, subtotal, shippingCost, discount, promoCode, total)
    }

    /** The cart `getCart` and the confirmation page create. */
    constructor Empty()
      ensures State() == EmptyCart
    {
      items, subtotal, shippingCost, discount, promoCode, total := [], 0, 0, 0, None, 0;
    }
  }

  /** The admin identity and login-attempt fields of a session. */
  datatype AuthState = AuthState(
    adminId: string,
    adminEmail: string,
    adminName: string,
    loginAttempts: int,
    lastLoginAttempt: Option<int>)

  class Session {
    /** The cart, or null before the first cart operation. */
    var cart: Cart?
    /** The logged-in admin; "" when absent (absent and empty behave alike). */
    var adminId: string
    var adminEmail: string
    var adminName: string
    /** Failed login attempts; an absent counter reads as 0. */
    var loginAttempts: int
    /** Time of the last failed login, in milliseconds. */
    var lastLoginAttempt: Option<int>

    /** The cart as the handlers see it once `getCart` has run. */
    function CartValue(): CartState
      reads this, cart
    {
      if cart == null then EmptyCart else cart.State()
    }

    function Auth(): AuthState
      reads this
    {
      AuthState(adminId, adminEmail, adminName, loginAttempts, lastLoginAttempt)
    }

    constructor ()
      ensures cart == null && adminId == "" && adminEmail == "" && adminName == ""
      ensures loginAttempts == 0 && lastLoginAttempt == None
    {
      cart, adminId, adminEmail, adminName := null, "", "", "";
      loginAttempts, lastLoginAttempt := 0, None;
    }
  }
}

=== FILE: Shop.dfy ===
/**
 * The public catalogue: the shop page's pagination and sort choice, the tea-room menu
 * grouped by section, the product page's guard and structured offer, and the sitemap in
 * the Sitemaps XML format, version 0.9 (sitemaps.org). Database reads are inputs.
 */
module Shop {
  import opened Wrappers
  import opened Money
  import opened JsText
  import opened Helpers
  import opened Store
  import opened Sessions
  import CartController

  /* ---------------------------------------------------------------------------------
   * Shop page
   * --------------------------------------------------------------------------------- */

  const PageSize := 12

  datatype Pagination = Pagination(page: int, skip: int, take: int, totalPages: int)

  /** `parseInt(query) || 1`: an unreadable or zero page number means the first page. */
  function PageNumber(query: string): (r: int)
    ensures ParseInt(query).Some? && ParseInt(query).value != 0 ==> r == ParseInt(query).value
    ensures ParseInt(query).None? || ParseInt(query).value == 0 ==> r == 1
  {
    match ParseInt(query)
    case Some(v) => if v != 0 then v else 1
    case None => 1
  }

  /** `Math.ceil(total / 12)` for a count. */
  function PageCount(total: nat): (r: nat)
    ensures PageSize * (r - 1) < total <= PageSize * r || (total == 0 && r == 0)
  {
    (total + PageSize - 1) / PageSize
  }

  /** The slice of the catalogue a page shows and the number of pages. */
  function Paginate(query: string, total: nat): (r: Pagination)
    ensures r.page == PageNumber(query) && r.take == PageSize
    ensures r.skip == (r.page - 1) * PageSize
    ensures r.totalPages == PageCount(total)
  {
    var page := PageNumber(query);
    Pagination(page, (page - 1) * PageSize, PageSize, PageCount(total))
  }

  /**
   * The pages 1 to `totalPages` split the catalogue without gap or overlap: each starts
   * where the previous one ended, the last starts inside it, and none starts beyond it.
   */
  lemma PagesCoverCatalogue(total: nat, k: nat)
    requires 1 <= k <= PageCount(total)
    ensures var p := Paginate(NatToString(k), total);
      p.page == k && 0 <= p.skip < total && (k == PageCount(total) ==> p.skip + p.take >= total)
  {
    ParseIntNatToString(k);
  }

  /** `parseInt` reads a minus sign and -k is truthy, so `?page=-k` yields a negative skip, which the store refuses. */
  lemma NegativePageNegativeSkip(k: nat, total: nat)
    requires k >= 1
    ensures var p := Paginate("-" + NatToString(k), total);
      p.page == -(k as int) && p.skip == -(k as int + 1) * PageSize && p.skip < 0
  {
    ParseIntNatToString(k);
  }

  datatype SortKey = PriceAscending | PriceDescending | NameAscending | NewestFirst

  /** The `tri` query: three known keys; "nouveautes" and anything else sort newest first. */
  function SortOrder(sort: string): (r: SortKey)
    ensures r == PriceAscending <==> sort == "prix_asc"
    ensures r == PriceDescending <==> sort == "prix_desc"
    ensures r == NameAscending <==> sort == "nom"
    ensures r == NewestFirst <==> sort !in {"prix_asc", "prix_desc", "nom"}
  {
    match sort
    case "prix_asc" => PriceAscending
    case "prix_desc" => PriceDescending
    case "nom" => NameAscending
    case _ => NewestFirst
  }

  /* ---------------------------------------------------------------------------------
   * Menu
   * --------------------------------------------------------------------------------- */

  datatype MenuItem = MenuItem(name: string, section: string, price: Cents)

  /** The items of one section, in input order. */
  function ItemsIn(items: seq<MenuItem>, section: string): (r: seq<MenuItem>)
    ensures |r| <= |items|
  {
    if items == [] then []
    else
      var last := items[|items| - 1];
      ItemsIn(items[..|items| - 1], section) + (if last.section == section then [last] else [])
  }

  /** The sections that occur among `items`. */
  function SectionKeys(items: seq<MenuItem>): (r: set<string>)
    ensures forall k :: k in r <==> exists i :: 0 <= i < |items| && items[i].section == k
  {
    set i | 0 <= i < |items| :: items[i].section
  }

  /** The menu as the page receives it: each occurring section with its items. */
  function Sections(items: seq<MenuItem>): (r: map<string, seq<MenuItem>>)
    ensures r.Keys == SectionKeys(items)
    ensures forall k :: k in r ==> r[k] == ItemsIn(items, k) && r[k] != []
  {
    map k | k in SectionKeys(items) :: NonEmptySection(items, k)
  }

  /** An occurring section has at least one item. */
  function NonEmptySection(items: seq<MenuItem>, k: string): (r: seq<MenuItem>)
    requires k in SectionKeys(items)
    ensures r == ItemsIn(items, k) && r != []
  {
    var i :| 0 <= i < |items| && items[i].section == k;
    ItemsOfOccurring(items, k, i);
    ItemsIn(items, k)
  }

  lemma {:induction false} ItemsOfOccurring(items: seq<MenuItem>, k: string, i: int)
    requires 0 <= i < |items| && items[i].section == k
    ensures items[i] in ItemsIn(items, k)
    decreases |items|
  {
    var n := |items| - 1;
    if i < n {
      assert items[..n][i] == items[i];
      ItemsOfOccurring(items[..n], k, i);
    }
  }

  /** How often `x` occurs under section `k`: as often as in the input if `k` is its section, else never. */
  lemma {:induction false} ItemsInCount(items: seq<MenuItem>, k: string, x: MenuItem)
    ensures multiset(ItemsIn(items, k))[x] == if x.section == k then multiset(items)[x] else 0
    decreases |items|
  {
    if items != [] {
      var n := |items| - 1;
      ItemsInCount(items[..n], k, x);
      assert items == items[..n] + [items[n]];
    }
  }

  /** Every item sits under its own section exactly as often as it was listed, and under no other. */
  lemma EachItemOnce(items: seq<MenuItem>, x: MenuItem, k: string)
    requires x in items
    ensures x.section in Sections(items)
    ensures multiset(Sections(items)[x.section])[x] == multiset(items)[x]
    ensures k in Sections(items) && k != x.section ==> x !in Sections(items)[k]
  {
    var i :| 0 <= i < |items| && items[i] == x;
    assert x.section in SectionKeys(items);
    ItemsInCount(items, x.section, x);
    if k in Sections(items) && k != x.section {
      ItemsInCount(items, k, x);
    }
  }

  lemma ItemsInAbsent(items: seq<MenuItem>, k: string)
    requires k !in SectionKeys(items)
    ensures ItemsIn(items, k) == []
  {
    var r := ItemsIn(items, k);
    if r != [] {
      ItemsInMembers(items, k, r[0]);
    }
  }

  /** Only items of the input, and of section `k`, are grouped under `k`. */
  lemma {:induction false} ItemsInMembers(items: seq<MenuItem>, k: string, x: MenuItem)
    requires x in ItemsIn(items, k)
    ensures x in items && x.section == k
    decreases |items|
  {
    var n := |items| - 1;
    if x in ItemsIn(items[..n], k) {
      ItemsInMembers(items[..n], k, x);
      assert items[..n] <= items;
    }
  }

  /** One more item adds its section to the keys and itself to the end of that section alone. */
  lemma GroupStep(items: seq<MenuItem>, i: int)
    requires 0 <= i < |items|
    ensures SectionKeys(items[..i + 1]) == SectionKeys(items[..i]) + {items[i].section}
    ensures forall k ::
      ItemsIn(items[..i + 1], k) == ItemsIn(items[..i], k) + (if items[i].section == k then [items[i]] else [])
  {
    assert items[..i + 1][..i] == items[..i];
    assert items[..i + 1] == items[..i] + [items[i]];
  }

  /** `menuPage`'s grouping loop: a section's list is created on its first item, then appended to. */
  method GroupBySection(items: seq<MenuItem>) returns (sections: map<string, seq<MenuItem>>)
    ensures sections == Sections(items)
  {
    sections := map[];
    for i := 0 to |items|
      invariant sections.Keys == SectionKeys(items[..i])
      invariant forall k :: k in sections ==> sections[k] == ItemsIn(items[..i], k)
    {
      var item := items[i];
      GroupStep(items, i);
      if item.section !in sections {
        ItemsInAbsent(items[..i], item.section);
        sections := sections[item.section := []];
      }
      sections := sections[item.section := sections[item.section] + [item]];
    }
    assert items[..|items|] == items;
  }

  /* ---------------------------------------------------------------------------------
   * Product page
   * --------------------------------------------------------------------------------- */

  /** The schema.org offer of a product page. */
  datatype Offer = Offer(price: Cents, inStock: bool)

  datatype ProductView = NotFound | ProductDetails(product: Product, offer: Offer, image: string)

  /**
   * The structured offer: the promotional price whenever one is set (even 0), else the
   * price; in stock exactly when the stock is positive.
   */
  function OfferFor(p: Product): (r: Offer)
    ensures r.price == (if p.promoPrice.Some? then p.promoPrice.value else p.price)
    ensures r.inStock <==> p.stock > 0
  {
    Offer(p.promoPrice.GetOr(p.price), p.stock > 0)
  }

  /** The advertised price is what the cart charges per unit, and "in stock" is every status but out. */
  lemma OfferMatchesCart(p: Product, quantity: int)
    ensures OfferFor(p).price == CartController.Snapshot(p, quantity).UnitPrice()
    ensures OfferFor(p).inStock <==> GetStockStatus(p.stock, p.stockAlertThreshold) != Out
  {
  }

  /** Slugs are unique in the product table. */
  predicate SlugsUnique(products: map<string, Product>)
  {
    forall a, b :: a in products && b in products && products[a].slug == products[b].slug ==> a == b
  }

  /** `productPage`: 404 unless an active product has the slug; otherwise the product, its offer and its large image. */
  method ProductPage(db: Database, slug: string) returns (view: ProductView)
    requires SlugsUnique(db.products)
    ensures view.NotFound? <==> !exists id :: id in db.products && db.products[id].slug == slug && db.products[id].isActive
    ensures view.ProductDetails? ==>
      view.product in db.products.Values && view.product.slug == slug && view.product.isActive &&
      view.offer == OfferFor(view.product) && view.image == GetProductImage(view.product.images, Large)
  {
    var found := exists id :: id in db.products && db.products[id].slug == slug;
    if !found {
      return NotFound;
    }
    var id :| id in db.products && db.products[id].slug == slug;
    var product := db.products[id];
    if !product.isActive {
      return NotFound;
    }
    view := ProductDetails(product, OfferFor(product), GetProductImage(product.images, Large));
  }

  /* ---------------------------------------------------------------------------------
   * Sitemap
   * --------------------------------------------------------------------------------- */

  datatype UrlEntry = UrlEntry(loc: string, lastmod: Option<string>, changefreq: string, priority: string)

  /** The change frequencies the sitemap protocol allows. */
  const ChangeFrequencies: set<string> := {"always", "hourly", "daily", "weekly", "monthly", "yearly", "never"}

  /** The priorities this sitemap writes, all in the protocol's range 0.0 to 1.0. */
  const Priorities: set<string> := {"1.0", "0.9", "0.8", "0.7", "0.6", "0.5"}

  const XmlDeclaration := "<?xml version=\"1.0\" encoding=\"UTF-8\"?>\n"
  const UrlsetOpen := "<urlset xmlns=\"http://www.sitemaps.org/schemas/sitemap/0.9\">\n"
  const UrlsetClose := "</urlset>"

  /** A product as the sitemap reads it: its slug and its last update as an ISO 8601 timestamp. */
  datatype SitemapProduct = SitemapProduct(slug: string, updatedAt: string)

  /** `APP_URL || 'http://localhost:3000'`. */
  function BaseUrl(appUrl: string): string
  {
    if appUrl == "" then "http://localhost:3000" else appUrl
  }

  function StaticEntries(baseUrl: string): (r: seq<UrlEntry>)
    ensures |r| == 4
  {
    [UrlEntry(baseUrl + "/", None, "daily", "1.0"),
     UrlEntry(baseUrl + "/menu", None, "weekly", "0.8"),
     UrlEntry(baseUrl + "/boutique", None, "daily", "0.9"),
     UrlEntry(baseUrl + "/contact", None, "monthly", "0.5")]
  }

  function CategoryEntry(baseUrl: string, slug: string): UrlEntry
  {
    UrlEntry(baseUrl + "/boutique?categorie=" + slug, None, "weekly", "0.7")
  }

  /** A product's entry; its `lastmod` is the date part of the timestamp. */
  function ProductEntry(baseUrl: string, p: SitemapProduct): UrlEntry
  {
    UrlEntry(baseUrl + "/boutique/" + p.slug, Some(Split(p.updatedAt, 'T')[0]), "weekly", "0.6")
  }

  function CategoryEntries(baseUrl: string, slugs: seq<string>): (r: seq<UrlEntry>)
    ensures |r| == |slugs| && forall i :: 0 <= i < |slugs| ==> r[i] == CategoryEntry(baseUrl, slugs[i])
  {
    seq(|slugs|, i requires 0 <= i < |slugs| => CategoryEntry(baseUrl, slugs[i]))
  }

  function ProductEntries(baseUrl: string, products: seq<SitemapProduct>): (r: seq<UrlEntry>)
    ensures |r| == |products| && forall i :: 0 <= i < |products| ==> r[i] == ProductEntry(baseUrl, products[i])
  {
    seq(|products|, i requires 0 <= i < |products| => ProductEntry(baseUrl, products[i]))
  }

  /** The entries of the sitemap: 4 static pages, then one per category, then one per active product. */
  function SitemapEntries(appUrl: string, categorySlugs: seq<string>, products: seq<SitemapProduct>): (r: seq<UrlEntry>)
    ensures |r| == 4 + |categorySlugs| + |products|
    ensures forall i :: 0 <= i < |categorySlugs| ==> r[4 + i] == CategoryEntry(BaseUrl(appUrl), categorySlugs[i])
    ensures forall i :: 0 <= i < |products| ==>
      r[4 + |categorySlugs| + i] == ProductEntry(BaseUrl(appUrl), products[i])
  {
    var base := BaseUrl(appUrl);
    StaticEntries(base) + CategoryEntries(base, categorySlugs) + ProductEntries(base, products)
  }

  /** Every entry uses an allowed change frequency and a priority in range; only products carry a date. */
  lemma SitemapEntriesWellFormed(appUrl: string, categorySlugs: seq<string>, products: seq<SitemapProduct>)
    ensures var es := SitemapEntries(appUrl, categorySlugs, products);
      forall i :: 0 <= i < |es| ==>
        es[i].changefreq in ChangeFrequencies && es[i].priority in Priorities &&
        (es[i].lastmod.Some? <==> i >= 4 + |categorySlugs|)
  {
  }

  /** One `<url>` element, indented as the page writes it. */
  function RenderEntry(e: UrlEntry): string
  {
    "  <url>\n    <loc>" + e.loc + "</loc>\n" +
    (if e.lastmod.Some? then "    <lastmod>" + e.lastmod.value + "</lastmod>\n" else "") +
    "    <changefreq>" + e.changefreq + "</changefreq>\n    <priority>" + e.priority + "</priority>\n  </url>\n"
  }

  function RenderAll(es: seq<UrlEntry>): string
  {
    if es == [] then "" else RenderAll(es[..|es| - 1]) + RenderEntry(es[|es| - 1])
  }

  lemma {:induction false} RenderAllConcat(a: seq<UrlEntry>, b: seq<UrlEntry>)
    ensures RenderAll(a + b) == RenderAll(a) + RenderAll(b)
    decreases |b|
  {
    if b == [] {
      assert a + b == a;
    } else {
      var n := |b| - 1;
      var ab := a + b;
      assert ab[..|ab| - 1] == a + b[..n];
      assert ab[|ab| - 1] == b[n];
      RenderAllConcat(a, b[..n]);
      RenderAllLast(ab);
      RenderAllLast(b);
      Regroup(RenderAll(a), RenderAll(b[..n]), RenderEntry(b[n]));
    }
  }

  lemma RenderAllLast(es: seq<UrlEntry>)
    requires es != []
    ensures RenderAll(es) == RenderAll(es[..|es| - 1]) + RenderEntry(es[|es| - 1])
  {
  }

  lemma Regroup<T>(x: seq<T>, y: seq<T>, z: seq<T>)
    ensures x + y + z == x + (y + z)
  {
  }

  /** The whole document: the declaration, one `urlset` holding every entry in order, and nothing after it. */
  function Sitemap(appUrl: string, categorySlugs: seq<string>, products: seq<SitemapProduct>): string
  {
    XmlDeclaration + UrlsetOpen + RenderAll(SitemapEntries(appUrl, categorySlugs, products)) + UrlsetClose
  }

  lemma RenderAllSnoc(es: seq<UrlEntry>, i: nat)
    requires i < |es|
    ensures RenderAll(es[..i + 1]) == RenderAll(es[..i]) + RenderEntry(es[i])
  {
    assert es[..i + 1][..i] == es[..i];
  }

  lemma FramedBy<T>(head: seq<T>, body: seq<T>, tail: seq<T>)
    ensures (head + body + tail)[..|head|] == head
    ensures (head + body + tail)[|head + body + tail| - |tail|..] == tail
  {
  }

  /** The document opens with the XML declaration and the 0.9 `urlset`, and closes that element last. */
  lemma SitemapFraming(appUrl: string, categorySlugs: seq<string>, products: seq<SitemapProduct>)
    ensures var xml := Sitemap(appUrl, categorySlugs, products);
      xml[..|XmlDeclaration + UrlsetOpen|] == XmlDeclaration + UrlsetOpen &&
      xml[|xml| - |UrlsetClose|..] == UrlsetClose
  {
    FramedBy(XmlDeclaration + UrlsetOpen, RenderAll(SitemapEntries(appUrl, categorySlugs, products)), UrlsetClose);
  }

  lemma AppendStep(prefix: string, es: seq<UrlEntry>, i: nat)
    requires i < |es|
    ensures prefix + RenderAll(es[..i]) + RenderEntry(es[i]) == prefix + RenderAll(es[..i + 1])
  {
    RenderAllSnoc(es, i);
  }

  /** The document is its head, the static pages, the categories, the products and the closing tag. */
  lemma SitemapInThreeParts(appUrl: string, categorySlugs: seq<string>, products: seq<SitemapProduct>)
    ensures var base := BaseUrl(appUrl);
      Sitemap(appUrl, categorySlugs, products) ==
        XmlDeclaration + UrlsetOpen + RenderAll(StaticEntries(base)) + RenderAll(CategoryEntries(base, categorySlugs))
        + RenderAll(ProductEntries(base, products)) + UrlsetClose
  {
    var base := BaseUrl(appUrl);
    RenderThree(XmlDeclaration + UrlsetOpen, StaticEntries(base), CategoryEntries(base, categorySlugs),
      ProductEntries(base, products), UrlsetClose);
  }

  lemma RenderThree(head: string, a: seq<UrlEntry>, b: seq<UrlEntry>, c: seq<UrlEntry>, tail: string)
    ensures head + RenderAll(a + b + c) + tail == head + RenderAll(a) + RenderAll(b) + RenderAll(c) + tail
  {
    RenderAllConcat(a, b);
    RenderAllConcat(a + b, c);
    RegroupFramed(head, RenderAll(a), RenderAll(b), RenderAll(c), tail);
  }

  lemma RegroupFramed<T>(h: seq<T>, x: seq<T>, y: seq<T>, z: seq<T>, t: seq<T>)
    ensures h + (x + y + z) + t == h + x + y + z + t
  {
  }

  /** One of `sitemapXml`'s loops: appends the `<url>` element of each entry, in order. */
  method AppendEntries(prefix: string, es: seq<UrlEntry>) returns (xml: string)
    ensures xml == prefix + RenderAll(es)
  {
    xml := prefix;
    for i := 0 to |es|
      invariant xml == prefix + RenderAll(es[..i])
    {
      AppendStep(prefix, es, i);
      xml := xml + RenderEntry(es[i]);
    }
    assert es[..|es|] == es;
  }

  /** `sitemapXml`: the static pages, then the categories, then the active products, inside one `urlset`. */
  method SitemapXml(appUrl: string, categorySlugs: seq<string>, products: seq<SitemapProduct>) returns (xml: string)
    ensures xml == Sitemap(appUrl, categorySlugs, products)
  {
    var baseUrl := BaseUrl(appUrl);
    var staticPages := StaticEntries(baseUrl);
    var categories := CategoryEntries(baseUrl, categorySlugs);
    var productEntries := ProductEntries(baseUrl, products);
    var head := XmlDeclaration + UrlsetOpen;
    xml := AppendEntries(head, staticPages);
    xml := AppendEntries(xml, categories);
    xml := AppendEntries(xml, productEntries);
    SitemapInThreeParts(appUrl, categorySlugs, products);
    xml := xml + UrlsetClose;
  }
}

=== FILE: Slugify.dfy ===
/**
 * URL slugs: `slugify`, a chain of string rewrites, and `slugifyUnique`, which appends
 * the first free numeric suffix. Unicode decomposition is modelled for Latin-1 letters.
 */
module Slugify {
  import opened JsText

  /** The characters a slug is made of: a-z, 0-9, `_` and `-`. */
  predicate IsSlugChar(c: char) { IsLower(c) || IsDigit(c) || c == '_' || c == '-' }

  /** A combining diacritical mark, U+0300 to U+036F. */
  predicate IsMark(c: char) { '\U{300}' <= c <= '\U{36F}' }

  /**
   * The base letter canonical decomposition (NFD) leaves in front of the accent, for the
   * Latin-1 letters that decompose; every other character is returned as it is.
   */
  function BaseLetter(c: char): (r: char)
    ensures IsWordChar(c) || IsSpace(c) || c == '-' ==> r == c
    ensures !IsMark(r)  || r == c
  {
    if '\U{C0}' <= c <= '\U{C5}' then 'A'
    else if c == '\U{C7}' then 'C'
    else if '\U{C8}' <= c <= '\U{CB}' then 'E'
    else if '\U{CC}' <= c <= '\U{CF}' then 'I'
    else if c == '\U{D1}' then 'N'
    else if '\U{D2}' <= c <= '\U{D6}' then 'O'
    else if '\U{D9}' <= c <= '\U{DC}' then 'U'
    else if c == '\U{DD}' then 'Y'
    else if '\U{E0}' <= c <= '\U{E5}' then 'a'
    else if c == '\U{E7}' then 'c'
    else if '\U{E8}' <= c <= '\U{EB}' then 'e'
    else if '\U{EC}' <= c <= '\U{EF}' then 'i'
    else if c == '\U{F1}' then 'n'
    else if '\U{F2}' <= c <= '\U{F6}' then 'o'
    else if '\U{F9}' <= c <= '\U{FC}' then 'u'
    else if c == '\U{FD}' || c == '\U{FF}' then 'y'
    else c
  }

  /** `normalize('NFD').replace(/[̀-ͯ]/g, '')`: accents dropped, base letters kept. */
  function StripAccents(s: string): (r: string)
    ensures forall i :: 0 <= i < |r| ==> !IsMark(r[i])
    ensures (forall i :: 0 <= i < |s| ==> IsWordChar(s[i]) || IsSpace(s[i]) || s[i] == '-') ==> r == s
  {
    if s == [] then []
    else if IsMark(s[0]) then StripAccents(s[1..])
    else [BaseLetter(s[0])] + StripAccents(s[1..])
  }

  /** No ASCII capital letter. */
  predicate NoUpper(s: string) { forall i :: 0 <= i < |s| ==> !IsUpper(s[i]) }

  /** Only `\w` characters and `-`. */
  predicate WordOrDash(s: string) { forall i :: 0 <= i < |s| ==> IsWordChar(s[i]) || s[i] == '-' }

  /** `replace(/\s+/g, '-')`: every run of `\s` characters becomes one `-`. */
  function DashSpaces(s: string): (r: string)
    ensures NoSpace(r)
    ensures NoSpace(s) ==> r == s
    ensures NoUpper(s) ==> NoUpper(r)
    decreases |s|
  {
    if s == [] then []
    else if IsSpace(s[0]) then "-" + DashSpaces(TrimStart(s))
    else [s[0]] + DashSpaces(s[1..])
  }

  /** `replace(/[^\w-]+/g, '')`: only `\w` characters and `-` are kept. */
  function KeepWordChars(s: string): (r: string)
    ensures WordOrDash(r)
    ensures NoUpper(s) ==> NoUpper(r)
    ensures WordOrDash(s) ==> r == s
  {
    if s == [] then []
    else if IsWordChar(s[0]) || s[0] == '-' then [s[0]] + KeepWordChars(s[1..])
    else KeepWordChars(s[1..])
  }

  /** Drops the leading `-` characters. */
  function DropDashes(s: string): (r: string)
    ensures |r| <= |s| && r == s[|s| - |r|..]
    ensures forall i :: 0 <= i < |s| - |r| ==> s[i] == '-'
    ensures r == [] || r[0] != '-'
  {
    if s != [] && s[0] == '-' then
      var r := DropDashes(s[1..]);
      assert forall i :: 1 <= i < |s| - |r| ==> s[i] == s[1..][i - 1];
      r
    else s
  }

  /** Drops the trailing `-` characters. */
  function DropTrailingDashes(s: string): (r: string)
    ensures |r| <= |s| && r == s[..|r|]
    ensures forall i :: |r| <= i < |s| ==> s[i] == '-'
    ensures r == [] || r[|r| - 1] != '-'
  {
    if s != [] && s[|s| - 1] == '-' then DropTrailingDashes(s[..|s| - 1]) else s
  }

  /** No two `-` in a row. */
  predicate NoDoubleDash(s: string)
  {
    forall i :: 0 <= i < |s| - 1 ==> !(s[i] == '-' && s[i + 1] == '-')
  }

  /** `replace(/--+/g, '-')`: every run of dashes becomes one `-`. */
  function CollapseDashes(s: string): (r: string)
    ensures s == [] <==> r == []
    ensures s != [] ==> r[0] == s[0]
    ensures '-' !in s ==> r == s
    decreases |s|
  {
    if s == [] then []
    else if s[0] == '-' then "-" + CollapseDashes(DropDashes(s))
    else [s[0]] + CollapseDashes(s[1..])
  }

  /** After collapsing, no two dashes are adjacent. */
  lemma {:induction false} CollapseNoDoubleDash(s: string)
    ensures NoDoubleDash(CollapseDashes(s))
    decreases |s|
  {
    if s == [] {
    } else if s[0] == '-' {
      var d := DropDashes(s);
      CollapseNoDoubleDash(d);
      var rest := CollapseDashes(d);
      assert rest == [] || rest[0] != '-';
      ConsNoDoubleDash('-', rest);
    } else {
      CollapseNoDoubleDash(s[1..]);
      ConsNoDoubleDash(s[0], CollapseDashes(s[1..]));
    }
  }

  lemma ConsNoDoubleDash(c: char, s: string)
    requires NoDoubleDash(s) && (c != '-' || s == [] || s[0] != '-')
    ensures NoDoubleDash([c] + s)
  {
    var t := [c] + s;
    forall i | 0 <= i < |t| - 1 ensures !(t[i] == '-' && t[i + 1] == '-') {
      if i > 0 { assert t[i] == s[i - 1] && t[i + 1] == s[i]; }
    }
  }

  /** Collapsing keeps a string within `\w` characters and `-`, with no upper-case letter. */
  lemma {:induction false} CollapseKeepsWord(s: string)
    requires WordOrDash(s) && NoUpper(s)
    ensures WordOrDash(CollapseDashes(s)) && NoUpper(CollapseDashes(s))
    decreases |s|
  {
    if s == [] {
    } else if s[0] == '-' {
      var d := DropDashes(s);
      WordSliceKeeps(s, |s| - |d|, |s|);
      assert d == s[|s| - |d|..|s|];
      CollapseKeepsWord(d);
      WordConsKeeps('-', CollapseDashes(d));
    } else {
      WordSliceKeeps(s, 1, |s|);
      assert s[1..] == s[1..|s|];
      CollapseKeepsWord(s[1..]);
      WordConsKeeps(s[0], CollapseDashes(s[1..]));
    }
  }

  /** Taking dashes off both ends keeps a string free of double dashes. */
  lemma TrimDashesKeeps(s: string)
    requires NoDoubleDash(s)
    ensures NoDoubleDash(DropTrailingDashes(DropDashes(s)))
  {
    var t := DropDashes(s);
    NoDoubleDashSlice(s, |s| - |t|, |s|);
    assert t == s[|s| - |t|..|s|];
    NoDoubleDashSlice(t, 0, |DropTrailingDashes(t)|);
    assert DropTrailingDashes(t) == t[0..|DropTrailingDashes(t)|];
  }

  lemma NoDoubleDashSlice(s: string, lo: nat, hi: nat)
    requires NoDoubleDash(s) && lo <= hi <= |s|
    ensures NoDoubleDash(s[lo..hi])
  {
    var t := s[lo..hi];
    forall i | 0 <= i < |t| - 1 ensures !(t[i] == '-' && t[i + 1] == '-') {
      assert t[i] == s[lo + i] && t[i + 1] == s[lo + i + 1];
    }
  }

  /**
   * `slugify`: accents dropped, lower-cased, trimmed, whitespace runs turned into `-`,
   * everything but `\w` and `-` removed, dash runs collapsed, and the dashes at both
   * ends removed.
   */
  function Slugify(text: string): (r: string)
    ensures forall i :: 0 <= i < |r| ==> IsSlugChar(r[i])
    ensures r == [] || (r[0] != '-' && r[|r| - 1] != '-')
    ensures NoDoubleDash(r)
  {
    var lower := LowerCase(StripAccents(text));
    var trimmed := Trim(lower);
    LowerTrimmed(lower, trimmed);
    var kept := KeepWordChars(DashSpaces(trimmed));
    var collapsed := CollapseDashes(kept);
    CollapseNoDoubleDash(kept);
    CollapseKeepsWord(kept);
    TrimDashesKeeps(collapsed);
    DropDashesKeeps(collapsed);
    DropTrailingDashes(DropDashes(collapsed))
  }

  lemma LowerTrimmed(lower: string, trimmed: string)
    requires NoUpper(lower) && trimmed == Trim(lower)
    ensures NoUpper(trimmed)
  {
    assert forall k :: 0 <= k < |trimmed| ==> trimmed[k] == lower[TrimOffset(lower) + k];
  }

  lemma DropDashesKeeps(s: string)
    requires WordOrDash(s) && NoUpper(s)
    ensures var r := DropTrailingDashes(DropDashes(s)); WordOrDash(r) && NoUpper(r)
  {
    var t := DropDashes(s);
    WordSliceKeeps(s, |s| - |t|, |s|);
    assert t == s[|s| - |t|..|s|];
    var r := DropTrailingDashes(t);
    WordSliceKeeps(t, 0, |r|);
    assert r == t[0..|r|];
  }

  lemma WordSliceKeeps(s: string, lo: nat, hi: nat)
    requires WordOrDash(s) && NoUpper(s) && lo <= hi <= |s|
    ensures WordOrDash(s[lo..hi]) && NoUpper(s[lo..hi])
  {
    var t := s[lo..hi];
    forall i | 0 <= i < |t| ensures (IsWordChar(t[i]) || t[i] == '-') && !IsUpper(t[i]) {
      assert t[i] == s[lo + i];
    }
  }

  /** Putting a `\w` character or `-` in front keeps a string within those characters. */
  lemma WordConsKeeps(c: char, s: string)
    requires (IsWordChar(c) || c == '-') && !IsUpper(c) && WordOrDash(s) && NoUpper(s)
    ensures WordOrDash([c] + s) && NoUpper([c] + s)
  {
    var t := [c] + s;
    forall i | 0 <= i < |t| ensures (IsWordChar(t[i]) || t[i] == '-') && !IsUpper(t[i]) {
      if i > 0 { assert t[i] == s[i - 1]; }
    }
  }

  /** A word a slug can hold as it is: lower-case letters, digits and `_`, at least one. */
  predicate SlugWord(w: string)
  {
    w != [] && forall i :: 0 <= i < |w| ==> IsLower(w[i]) || IsDigit(w[i]) || w[i] == '_'
  }

  lemma ConsSplit(a: string, t: string, r: string)
    requires a != []
    ensures (a + t)[0] == a[0] && (a + t)[1..] == a[1..] + t
    ensures [a[0]] + (a[1..] + r) == a + r
  {
  }

  lemma DashSpacesStep(a: string, t: string)
    requires NoSpace(a) && a != []
    ensures DashSpaces(a + t) == [a[0]] + DashSpaces((a + t)[1..])
  {
    assert (a + t)[0] == a[0] && !IsSpace(a[0]);
  }

  lemma {:induction false} DashSpacesAfterWord(a: string, t: string)
    requires NoSpace(a)
    ensures DashSpaces(a + t) == a + DashSpaces(t)
  {
    if a == [] {
      assert a + t == t;
    } else {
      ConsSplit(a, t, DashSpaces(t));
      DashSpacesStep(a, t);
      DashSpacesAfterWord(a[1..], t);
    }
  }

  lemma {:induction false} TrimStartSpaces(ws: string, b: string)
    requires AllSpace(ws) && (b == [] || !IsSpace(b[0]))
    ensures TrimStart(ws + b) == b
  {
    if ws == [] {
      assert ws + b == b;
    } else {
      var s := ws + b;
      ConsSplit(ws, b, b);
      assert IsSpace(s[0]);
      assert TrimStart(s) == TrimStart(s[1..]);
      assert AllSpace(ws[1..]) by {
        forall i | 0 <= i < |ws| - 1 ensures IsSpace(ws[1..][i]) {
          assert ws[1..][i] == ws[i + 1];
        }
      }
      TrimStartSpaces(ws[1..], b);
    }
  }

  lemma CollapseStep(a: string, t: string)
    requires '-' !in a && a != []
    ensures CollapseDashes(a + t) == [a[0]] + CollapseDashes((a + t)[1..])
  {
    assert (a + t)[0] == a[0] && a[0] != '-';
  }

  lemma {:induction false} CollapseAfterWord(a: string, t: string)
    requires '-' !in a
    ensures CollapseDashes(a + t) == a + CollapseDashes(t)
  {
    if a == [] {
      assert a + t == t;
    } else {
      ConsSplit(a, t, CollapseDashes(t));
      CollapseStep(a, t);
      CollapseAfterWord(a[1..], t);
    }
  }

  /** Accent stripping, lower-casing and trimming leave a plain lower-case phrase alone. */
  lemma FrontStagesKeep(x: string)
    requires x != [] && !IsSpace(x[0]) && !IsSpace(x[|x| - 1])
    requires forall i :: 0 <= i < |x| ==> IsLower(x[i]) || IsDigit(x[i]) || x[i] == '_' || IsSpace(x[i])
    ensures Trim(LowerCase(StripAccents(x))) == x
  {
    StripAccentsKeeps(x);
    LowerCaseKeeps(x);
    TrimKeeps(x);
  }

  lemma StripAccentsKeeps(x: string)
    requires forall i :: 0 <= i < |x| ==> IsLower(x[i]) || IsDigit(x[i]) || x[i] == '_' || IsSpace(x[i])
    ensures StripAccents(x) == x && NoUpper(x)
  {
    forall i | 0 <= i < |x| ensures IsWordChar(x[i]) || IsSpace(x[i]) || x[i] == '-' {
      assert IsLower(x[i]) || IsDigit(x[i]) || x[i] == '_' || IsSpace(x[i]);
    }
    forall i | 0 <= i < |x| ensures !IsUpper(x[i]) {
      assert IsLower(x[i]) || IsDigit(x[i]) || x[i] == '_' || IsSpace(x[i]);
    }
  }

  lemma LowerCaseKeeps(x: string)
    requires NoUpper(x)
    ensures LowerCase(x) == x
  {
  }

  lemma TrimKeeps(x: string)
    requires x != [] && !IsSpace(x[0]) && !IsSpace(x[|x| - 1])
    ensures Trim(x) == x
  {
    assert TrimStart(x) == x;
    assert TrimEnd(x) == x;
  }

  /** Dash collapsing and edge trimming leave `a-b` alone. */
  lemma BackStagesKeep(a: string, b: string)
    requires SlugWord(a) && SlugWord(b)
    ensures var y := a + "-" + b; DropTrailingDashes(DropDashes(CollapseDashes(KeepWordChars(y)))) == y
  {
    var y := a + "-" + b;
    assert WordOrDash(y) by {
      forall i | 0 <= i < |y| ensures IsWordChar(y[i]) || y[i] == '-' {
        if i < |a| { assert y[i] == a[i]; }
        else if i > |a| { assert y[i] == b[i - |a| - 1]; }
      }
    }
    assert KeepWordChars(y) == y;
    CollapseJoin(a, b);
    DashEndsKeep(y);
  }

  lemma CollapseJoin(a: string, b: string)
    requires SlugWord(a) && SlugWord(b)
    ensures CollapseDashes(a + "-" + b) == a + "-" + b
  {
    var db := "-" + b;
    assert a + "-" + b == a + db;
    SlugWordPlain(a);
    SlugWordPlain(b);
    CollapseAfterWord(a, db);
    assert db[0] == '-' && db[1..] == b && b[0] != '-';
    assert DropDashes(db) == b;
    assert CollapseDashes(db) == "-" + CollapseDashes(b);
  }

  lemma DashEndsKeep(y: string)
    requires y != [] && y[0] != '-' && y[|y| - 1] != '-'
    ensures DropTrailingDashes(DropDashes(y)) == y
  {
  }

  lemma DashSpacesJoin(a: string, ws: string, b: string)
    requires SlugWord(a) && SlugWord(b) && ws != [] && AllSpace(ws)
    ensures DashSpaces(a + ws + b) == a + "-" + b
  {
    SlugWordPlain(a);
    SlugWordPlain(b);
    assert a + ws + b == a + (ws + b);
    DashSpacesAfterWord(a, ws + b);
    TrimStartSpaces(ws, b);
    DashSpacesAtSpace(ws + b);
    assert DashSpaces(ws + b) == "-" + DashSpaces(b);
  }

  lemma DashSpacesAtSpace(s: string)
    requires s != [] && IsSpace(s[0])
    ensures DashSpaces(s) == "-" + DashSpaces(TrimStart(s))
  {
  }

  /** A slug word has neither spaces nor dashes. */
  lemma SlugWordPlain(w: string)
    requires SlugWord(w)
    ensures NoSpace(w) && '-' !in w && !IsSpace(w[0])
  {
    forall i | 0 <= i < |w| ensures !IsSpace(w[i]) && w[i] != '-' {
      assert IsLower(w[i]) || IsDigit(w[i]) || w[i] == '_';
    }
  }

  /** A run of whitespace between two words becomes exactly one `-`. */
  lemma SlugifyJoinsWords(a: string, ws: string, b: string)
    requires SlugWord(a) && SlugWord(b)
    requires ws != [] && AllSpace(ws)
    ensures Slugify(a + ws + b) == a + "-" + b
  {
    var x := a + ws + b;
    forall i | 0 <= i < |x| ensures IsLower(x[i]) || IsDigit(x[i]) || x[i] == '_' || IsSpace(x[i]) {
      if i < |a| { assert x[i] == a[i]; }
      else if i < |a| + |ws| { assert x[i] == ws[i - |a|]; }
      else { assert x[i] == b[i - |a| - |ws|]; }
    }
    assert x[0] == a[0] && x[|x| - 1] == b[|b| - 1];
    FrontStagesKeep(x);
    DashSpacesJoin(a, ws, b);
    BackStagesKeep(a, b);
    assert (a + "-" + b)[0] == a[0];
  }

  /* ---------- unique slugs ---------- */

  /** The `n`-th candidate `slugifyUnique` tries: the slug itself, then `slug-1`, `slug-2`, ... */
  function Candidate(slug: string, n: nat): (r: string)
    ensures n == 0 ==> r == slug
    ensures n > 0 ==> |r| > |slug| + 1 && r[..|slug| + 1] == slug + "-"
  {
    if n == 0 then slug else slug + "-" + NatToString(n)
  }

  /** Different counters give different candidates, which is why the search terminates. */
  lemma CandidateInjective(slug: string, m: nat, n: nat)
    requires Candidate(slug, m) == Candidate(slug, n)
    ensures m == n
  {
    if m > 0 && n > 0 {
      var p := |slug| + 1;
      assert Candidate(slug, m)[p..] == NatToString(m);
      assert Candidate(slug, n)[p..] == NatToString(n);
      NatToStringInjective(m, n);
    }
  }

  /** The candidates tried before the `n`-th one. */
  ghost function Tried(slug: string, n: nat): set<string>
  {
    if n == 0 then {} else Tried(slug, n - 1) + {Candidate(slug, n - 1)}
  }

  lemma {:induction false} FreshCandidate(slug: string, n: nat, k: nat)
    requires n <= k
    ensures Candidate(slug, k) !in Tried(slug, n)
  {
    if n > 0 {
      FreshCandidate(slug, n - 1, k);
      if Candidate(slug, n - 1) == Candidate(slug, k) {
        CandidateInjective(slug, n - 1, k);
      }
    }
  }

  /** Trying one more taken candidate leaves fewer taken slugs untried. */
  lemma TriedGrows(originalSlug: string, n: nat, taken: set<string>)
    requires Tried(originalSlug, n) <= taken && Candidate(originalSlug, n) in taken
    ensures Tried(originalSlug, n + 1) <= taken
    ensures |taken - Tried(originalSlug, n + 1)| < |taken - Tried(originalSlug, n)|
  {
    var tried := Tried(originalSlug, n);
    var slug := Candidate(originalSlug, n);
    FreshCandidate(originalSlug, n, n);
    assert (taken - (tried + {slug})) + {slug} == taken - tried;
  }

  /**
   * The loop of `slugifyUnique`: `originalSlug` when it is not taken, else the first of
   * `originalSlug-1`, `originalSlug-2`, ... that is not taken.
   */
  method FirstFreeSlug(originalSlug: string, taken: set<string>) returns (slug: string)
    ensures slug !in taken
    ensures exists n: nat :: slug == Candidate(originalSlug, n) &&
                             forall m: nat :: m < n ==> Candidate(originalSlug, m) in taken
  {
    slug := originalSlug;
    var counter := 1;
    ghost var n: nat := 0;
    ghost var tried: set<string> := {};
    while slug in taken
      invariant counter == n + 1 && slug == Candidate(originalSlug, n)
      invariant forall m: nat :: m < n ==> Candidate(originalSlug, m) in taken
      invariant tried == Tried(originalSlug, n) && tried <= taken
      decreases |taken - tried|
    {
      TriedGrows(originalSlug, n, taken);
      tried := tried + {slug};
      slug := originalSlug + "-" + NatToString(counter);
      counter := counter + 1;
      n := n + 1;
    }
    assert slug == Candidate(originalSlug, n);
  }

  /** `slugifyUnique`: the first free candidate for the slug of `text`. */
  method SlugifyUnique(text: string, existingSlugs: seq<string>) returns (slug: string)
    ensures slug !in existingSlugs
    ensures Slugify(text) !in existingSlugs ==> slug == Slugify(text)
    ensures exists n: nat :: slug == Candidate(Slugify(text), n) &&
                             forall m: nat :: m < n ==> Candidate(Slugify(text), m) in existingSlugs
  {
    var originalSlug := Slugify(text);
    var taken := set s | s in existingSlugs;
    slug := FirstFreeSlug(originalSlug, taken);
    var n: nat :| slug == Candidate(originalSlug, n) &&
                 forall m: nat :: m < n ==> Candidate(originalSlug, m) in taken;
    if n > 0 {
      assert Candidate(originalSlug, 0) in existingSlugs;
    }
  }
}

=== FILE: Store.dfy ===
/**
 * The persistent records the storefront reads and writes through its database client,
 * and the database itself: one map per table, keyed the way the code looks rows up,
 * plus the two append-only ledgers (stock movements and the admin audit log).
 * Money is in cents; times are milliseconds since the epoch.
 */
module Store {
  import opened Wrappers
  import opened Money
  import opened Helpers

  datatype Product = Product(
    id: string,
    name: string,
    slug: string,
    price: Cents,
    /** A promotional price; any non-null value is used, even 0. */
    promoPrice: Option<Cents>,
    stock: int,
    stockAlertThreshold: int,
    isActive: bool,
    categoryId: string,
    images: JsonText)

  datatype Category = Category(id: string, name: string, slug: string)

  datatype ShippingAddress = ShippingAddress(address: string, city: string, postalCode: string)

  datatype OrderItem = OrderItem(
    productId: string,
    productName: string,
    quantity: int,
    unitPrice: Cents,
    totalPrice: Cents)

  datatype Order = Order(
    id: string,
    orderNumber: string,
    customerName: string,
    customerEmail: string,
    customerPhone: string,
    shippingAddress: Option<ShippingAddress>,
    deliveryMethod: string,
    status: string,
    subtotal: Cents,
    shippingCost: Cents,
    discount: Cents,
    total: Cents,
    promoCode: Option<string>,
    notes: Option<string>,
    items: seq<OrderItem>,
    stripeSessionId: Option<string>)

  /**
   * A promotion code. `discountValue` is in hundredths: cents for a fixed discount,
   * hundredths of a percent for a percentage. `maxUses` of 0 or null means no limit.
   */
  datatype PromoCode = PromoCode(
    id: string,
    code: string,
    discountType: string,
    discountValue: int,
    minOrderAmount: Option<Cents>,
    maxUses: Option<int>,
    currentUses: int,
    expiresAt: Option<int>,
    isActive: bool)

  datatype Review = Review(
    productId: string,
    customerName: string,
    customerEmail: string,
    rating: int,
    comment: string,
    status: string)

  datatype StockMovement = StockMovement(
    productId: string,
    quantityChange: int,
    reason: string,
    orderId: Option<string>)

  datatype AuditEntry = AuditEntry(adminEmail: string, action: string)

  datatype AdminUser = AdminUser(id: string, email: string, name: string, passwordHash: string)

  /** The net quantity change the ledger records for one product. */
  function LedgerSum(movements: seq<StockMovement>, productId: string): int
  {
    if movements == [] then 0
    else
      var last := movements[|movements| - 1];
      LedgerSum(movements[..|movements| - 1], productId) + (if last.productId == productId then last.quantityChange else 0)
  }

  lemma {:induction false} LedgerSumConcat(a: seq<StockMovement>, b: seq<StockMovement>, productId: string)
    ensures LedgerSum(a + b, productId) == LedgerSum(a, productId) + LedgerSum(b, productId)
    decreases |b|
  {
    if b == [] {
      assert a + b == a;
    } else {
      var n := |b| - 1;
      assert (a + b)[..|a + b| - 1] == a + b[..n];
      LedgerSumConcat(a, b[..n], productId);
    }
  }

  /**
   * Each product's stock less what the ledger records for it: the stock it had before
   * any recorded movement. Operations that keep this map fixed change stock only
   * through recorded movements.
   */
  function StockBaseline(products: map<string, Product>, movements: seq<StockMovement>): (r: map<string, int>)
    ensures r.Keys == products.Keys
    ensures forall id :: id in r ==> r[id] == products[id].stock - LedgerSum(movements, id)
  {
    map id | id in products :: products[id].stock - LedgerSum(movements, id)
  }

  /** The contents of every table at one moment. */
  datatype DbState = DbState(
    products: map<string, Product>,
    categories: map<string, Category>,
    orders: map<string, Order>,
    promos: map<string, PromoCode>,
    reviews: map<string, Review>,
    admins: map<string, AdminUser>,
    movements: seq<StockMovement>,
    audit: seq<AuditEntry>)

  /** Every row is stored under its own key, and no two promotion codes share an id. */
  predicate WellKeyed(t: DbState)
  {
    (forall id :: id in t.products ==> t.products[id].id == id) &&
    (forall id :: id in t.categories ==> t.categories[id].id == id) &&
    (forall id :: id in t.orders ==> t.orders[id].id == id) &&
    (forall c :: c in t.promos ==> t.promos[c].code == c) &&
    (forall c, d :: c in t.promos && d in t.promos && t.promos[c].id == t.promos[d].id ==> c == d) &&
    (forall e :: e in t.admins ==> t.admins[e].email == e)
  }

  class Database {
    /** Products by id. */
    var products: map<string, Product>
    /** Categories by id. */
    var categories: map<string, Category>
    /** Orders by id. */
    var orders: map<string, Order>
    /** Promotion codes by their (unique) code. */
    var promos: map<string, PromoCode>
    /** Reviews by id. */
    var reviews: map<string, Review>
    /** Admin accounts by their (unique) email. */
    var admins: map<string, AdminUser>
    /** The stock ledger, oldest first. */
    var movements: seq<StockMovement>
    /** The admin audit log, oldest first. */
    var audit: seq<AuditEntry>

    function State(): DbState
      reads this
    {
      DbState(products, categories, orders, promos, reviews, admins, movements, audit)
    }

    /** Every row is stored under its own key. */
    ghost predicate Valid()
      reads this
    {
      WellKeyed(State())
    }

    constructor ()
      ensures Valid()
      ensures products == map[] && categories == map[] && orders == map[] && promos == map[]
      ensures reviews == map[] && admins == map[] && movements == [] && audit == []
    {
      products, categories, orders, promos := map[], map[], map[], map[];
      reviews, admins, movements, audit := map[], map[], [], [];
    }
  }

  /** Appends one entry to the audit log and changes nothing else. */
  method AppendAudit(db: Database, adminEmail: string, action: string)
    modifies db
    ensures db.State() == old(db.State()).(audit := old(db.audit) + [AuditEntry(adminEmail, action)])
  {
    db.audit := db.audit + [AuditEntry(adminEmail, action)];
  }
}

=== FILE: Stripe.dfy ===
/**
 * The payment-session request the storefront sends to its payment provider when a
 * customer checks out: one line per cart line, an optional delivery-fee line, the order
 * metadata and a 30-minute expiry. The provider call itself is a function parameter.
 */
module StripeService {
  import opened Wrappers
  import opened Money
  import opened Sessions

  datatype CheckoutParams = CheckoutParams(
    items: seq<CartItem>,
    customerEmail: string,
    customerName: string,
    deliveryMethod: string,
    shippingCost: Cents,
    discount: Cents,
    orderId: string,
    orderNumber: string)

  /** One priced line of the payment page; amounts in cents. */
  datatype LineItem = LineItem(name: string, images: seq<string>, unitAmount: Cents, quantity: int)

  datatype Metadata = Metadata(orderId: string, orderNumber: string, deliveryMethod: string)

  datatype SessionRequest = SessionRequest(
    customerEmail: string,
    lineItems: seq<LineItem>,
    /** Discounts passed to the provider: never any. */
    discounts: Option<Cents>,
    metadata: Metadata,
    successUrl: string,
    cancelUrl: string,
    /** Expiry, in seconds since the epoch. */
    expiresAt: int)

  /** What the provider answers: a session (whose url may be missing) or an exception. */
  datatype CreateReply = Created(url: Option<string>) | CreateFailed

  const ShippingLineName := "Frais de livraison"
  /** Thirty minutes, in seconds. */
  const SessionLifetime := 1800

  /** The line of one cart line: its unit price in cents and its quantity. */
  function ItemLine(item: CartItem, appUrl: string): (r: LineItem)
    ensures r.name == item.name && r.quantity == item.quantity
    ensures r.unitAmount == item.UnitPrice()
    ensures r.images == [] <==> item.image == []
  {
    LineItem(item.name, if item.image != [] then [appUrl + item.image] else [], item.UnitPrice(), item.quantity)
  }

  /** The cart lines mapped one to one, in order. */
  function ItemLines(items: seq<CartItem>, appUrl: string): (r: seq<LineItem>)
    ensures |r| == |items|
    ensures forall i :: 0 <= i < |items| ==> r[i] == ItemLine(items[i], appUrl)
  {
    seq(|items|, i requires 0 <= i < |items| => ItemLine(items[i], appUrl))
  }

  /** Every line of the session: the cart lines, then the delivery fee when there is one. */
  function SessionLines(items: seq<CartItem>, appUrl: string, shippingCost: Cents): (r: seq<LineItem>)
    ensures |r| == |items| + (if shippingCost > 0 then 1 else 0)
    ensures r[..|items|] == ItemLines(items, appUrl)
    ensures shippingCost > 0 ==> r[|items|] == LineItem(ShippingLineName, [], shippingCost, 1)
  {
    ItemLines(items, appUrl) + if shippingCost > 0 then [LineItem(ShippingLineName, [], shippingCost, 1)] else []
  }

  /** What the customer is charged for a list of lines. */
  function ChargedTotal(lines: seq<LineItem>): int
  {
    if lines == [] then 0
    else ChargedTotal(lines[..|lines| - 1]) + lines[|lines| - 1].unitAmount * lines[|lines| - 1].quantity
  }

  lemma {:induction false} ChargedItemLines(items: seq<CartItem>, appUrl: string)
    ensures ChargedTotal(ItemLines(items, appUrl)) == LinesTotal(items)
    decreases |items|
  {
    if items != [] {
      var n := |items| - 1;
      assert ItemLines(items, appUrl)[..n] == ItemLines(items[..n], appUrl);
      ChargedItemLines(items[..n], appUrl);
    }
  }

  /**
   * The customer is charged the lines' total plus any delivery fee: the discount
   * plays no part in it.
   */
  lemma ChargedSessionLines(items: seq<CartItem>, appUrl: string, shippingCost: Cents)
    ensures ChargedTotal(SessionLines(items, appUrl, shippingCost)) ==
            LinesTotal(items) + (if shippingCost > 0 then shippingCost else 0)
  {
    ChargedItemLines(items, appUrl);
    var lines := SessionLines(items, appUrl, shippingCost);
    if shippingCost > 0 {
      assert lines[..|lines| - 1] == ItemLines(items, appUrl);
    } else {
      assert lines == ItemLines(items, appUrl);
    }
  }

  /** The request for a checkout: its lines, no discount, the order metadata, 30 minutes' validity. */
  function SessionRequestFor(params: CheckoutParams, appUrl: string, nowMs: int): (r: SessionRequest)
    ensures r.lineItems == SessionLines(params.items, appUrl, params.shippingCost)
    ensures r.discounts == None && r.customerEmail == params.customerEmail
    ensures r.metadata == Metadata(params.orderId, params.orderNumber, params.deliveryMethod)
    ensures 1000 * (r.expiresAt - SessionLifetime) <= nowMs < 1000 * (r.expiresAt - SessionLifetime) + 1000
  {
    SessionRequest(
      params.customerEmail, SessionLines(params.items, appUrl, params.shippingCost), None,
      Metadata(params.orderId, params.orderNumber, params.deliveryMethod),
      appUrl + "/confirmation?session_id={CHECKOUT_SESSION_ID}",
      appUrl + "/panier?cancelled=true",
      nowMs / 1000 + SessionLifetime)
  }

  /**
   * Builds the session request (the cart lines by a map, then the fee line pushed on)
   * and hands it to the provider; `url` is None when the provider call throws, and ""
   * when the session comes back without a url.
   */
  method CreateCheckoutSession(params: CheckoutParams, appUrl: string, nowMs: int,
                               create: SessionRequest -> CreateReply)
    returns (request: SessionRequest, url: Option<string>)
    ensures request == SessionRequestFor(params, appUrl, nowMs)
    ensures create(request).CreateFailed? <==> url.None?
    ensures create(request).Created? ==> url == Some(create(request).url.GetOr(""))
  {
    var lineItems := ItemLines(params.items, appUrl);
    if params.shippingCost > 0 {
      lineItems := lineItems + [LineItem(ShippingLineName, [], params.shippingCost, 1)];
    }
    request := SessionRequest(
      params.customerEmail, lineItems, None,
      Metadata(params.orderId, params.orderNumber, params.deliveryMethod),
      appUrl + "/confirmation?session_id={CHECKOUT_SESSION_ID}",
      appUrl + "/panier?cancelled=true",
      nowMs / 1000 + SessionLifetime);
    match create(request)
    case CreateFailed => url := None;
    case Created(u) => url := Some(u.GetOr(""));
  }
}

=== FILE: Validation.dfy ===
/**
 * The request-body schemas and the middleware that applies them. A body is the form or
 * JSON fields as received (`None` for a missing field). A schema either accepts the body,
 * keeping its known fields (and, for promotion codes, upper-casing the code), or rejects
 * it with the names of the failing fields, in field order. Email syntax and date parsing
 * belong to the validation library and are the parameters `isEmail` and `dateParses`.
 */
module Validation {
  import opened Wrappers
  import opened JsText

  /** A body field a schema can reject. */
  datatype Field =
    | CustomerNameField | CustomerEmailField | CustomerPhoneField | DeliveryMethodField | DeliveryDateField
    | DeliveryTimeField | NotesField | NameField | ShortDescriptionField | LongDescriptionField | PriceField
    | PromoPriceField | CategoryIdField | WeightField | IngredientsField | PreparationTipsField | AllergensField
    | StockField | TagsField | ProductIdField | QuantityField | CodeField | RatingField | CommentField

  /** The field's name in the request body. */
  function FieldName(f: Field): string
  {
    match f
    case CustomerNameField => "customerName"
    case CustomerEmailField => "customerEmail"
    case CustomerPhoneField => "customerPhone"
    case DeliveryMethodField => "deliveryMethod"
    case DeliveryDateField => "deliveryDate"
    case DeliveryTimeField => "deliveryTime"
    case NotesField => "notes"
    case NameField => "name"
    case ShortDescriptionField => "shortDescription"
    case LongDescriptionField => "longDescription"
    case PriceField => "price"
    case PromoPriceField => "promoPrice"
    case CategoryIdField => "categoryId"
    case WeightField => "weight"
    case IngredientsField => "ingredients"
    case PreparationTipsField => "preparationTips"
    case AllergensField => "allergens"
    case StockField => "stock"
    case TagsField => "tags"
    case ProductIdField => "productId"
    case QuantityField => "quantity"
    case CodeField => "code"
    case RatingField => "rating"
    case CommentField => "comment"
  }

  /** What a schema makes of a body: the failing fields stand for their messages. */
  datatype Parsed<T> = Accepted(data: T) | Rejected(issues: seq<Field>)

  /** `z.string().min(lo).max(hi)` on a required field. */
  predicate LengthIn(field: Option<string>, lo: nat, hi: nat)
  {
    field.Some? && lo <= |field.value| <= hi
  }

  /** `z.string().max(hi).optional()`. */
  predicate OptionalMax(field: Option<string>, hi: nat)
  {
    field.None? || |field.value| <= hi
  }

  /** The issue list entry for one field: its name when its rule fails. */
  function Check(ok: bool, field: Field): (r: seq<Field>)
    ensures ok <==> r == []
    ensures !ok ==> r == [field]
  {
    if ok then [] else [field]
  }

  /* ---------------------------------------------------------------------------------
   * Checkout
   * --------------------------------------------------------------------------------- */

  datatype CheckoutBody = CheckoutBody(
    customerName: Option<string>,
    customerEmail: Option<string>,
    customerPhone: Option<string>,
    country: Option<string>,
    deliveryMethod: Option<string>,
    shippingAddress: Option<string>,
    shippingCity: Option<string>,
    shippingPostalCode: Option<string>,
    deliveryDate: Option<string>,
    deliveryTime: Option<string>,
    notes: Option<string>)

  /** The two-digit hours the delivery-time pattern lists. */
  const DeliveryHours: seq<string> := ["10", "11", "12", "13", "14", "15", "16", "17", "18"]

  /** The delivery-time pattern: one of the listed hours followed by ":00", and nothing else. */
  predicate IsDeliveryTime(s: string)
  {
    |s| == 5 && s[2..] == ":00" && s[..2] in DeliveryHours
  }

  /** The two digits of an hour string, read as a number. */
  function TwoDigitValue(s: string): int
    requires |s| >= 2 && IsDigit(s[0]) && IsDigit(s[1])
  {
    10 * DigitValue(s[0]) + DigitValue(s[1])
  }

  /** A delivery time is accepted exactly when it is a full hour from 10:00 to 18:00. */
  lemma DeliveryTimeOnTheHour(s: string)
    ensures IsDeliveryTime(s) <==>
      |s| == 5 && s[2..] == ":00" && IsDigit(s[0]) && IsDigit(s[1]) && 10 <= TwoDigitValue(s) <= 18
  {
    if |s| == 5 {
      var h := s[..2];
      assert h == [s[0], s[1]];
    }
  }

  /** The checkout fields that fail their rules, in schema order. */
  function CheckoutIssues(b: CheckoutBody, isEmail: string -> bool, dateParses: string -> bool): (r: seq<Field>)
    ensures DeliveryMethodField in r <==> b.deliveryMethod != Some("pickup") && b.deliveryMethod != Some("delivery")
    ensures DeliveryTimeField in r <==> !(b.deliveryTime.Some? && IsDeliveryTime(b.deliveryTime.value))
    ensures r == [] <==>
      LengthIn(b.customerName, 2, 100) &&
      b.customerEmail.Some? && isEmail(b.customerEmail.value) &&
      LengthIn(b.customerPhone, 10, 20) &&
      (b.deliveryMethod == Some("pickup") || b.deliveryMethod == Some("delivery")) &&
      b.deliveryDate.Some? && dateParses(b.deliveryDate.value) &&
      b.deliveryTime.Some? && IsDeliveryTime(b.deliveryTime.value) &&
      OptionalMax(b.notes, 500)
  {
    Check(LengthIn(b.customerName, 2, 100), CustomerNameField) +
    Check(b.customerEmail.Some? && isEmail(b.customerEmail.value), CustomerEmailField) +
    Check(LengthIn(b.customerPhone, 10, 20), CustomerPhoneField) +
    Check(b.deliveryMethod == Some("pickup") || b.deliveryMethod == Some("delivery"), DeliveryMethodField) +
    Check(b.deliveryDate.Some? && dateParses(b.deliveryDate.value), DeliveryDateField) +
    Check(b.deliveryTime.Some? && IsDeliveryTime(b.deliveryTime.value), DeliveryTimeField) +
    Check(OptionalMax(b.notes, 500), NotesField)
  }

  /** `checkoutSchema`: the body itself when every field passes. */
  function ParseCheckout(b: CheckoutBody, isEmail: string -> bool, dateParses: string -> bool): (r: Parsed<CheckoutBody>)
    ensures r.Accepted? <==> CheckoutIssues(b, isEmail, dateParses) == []
    ensures r.Accepted? ==> r.data == b && b.deliveryMethod.Some? && b.deliveryMethod.value in {"pickup", "delivery"}
    ensures r.Rejected? ==> r.issues == CheckoutIssues(b, isEmail, dateParses) && r.issues != []
  {
    var issues := CheckoutIssues(b, isEmail, dateParses);
    if issues == [] then Accepted(b) else Rejected(issues)
  }

  /* ---------------------------------------------------------------------------------
   * Product (back office)
   * --------------------------------------------------------------------------------- */

  datatype ProductBody = ProductBody(
    name: Option<string>,
    shortDescription: Option<string>,
    longDescription: Option<string>,
    price: Option<string>,
    promoPrice: Option<string>,
    categoryId: Option<string>,
    weight: Option<string>,
    ingredients: Option<string>,
    preparationTips: Option<string>,
    allergens: Option<string>,
    stock: Option<string>,
    stockAlertThreshold: Option<string>,
    isActive: Option<string>,
    isFeatured: Option<string>,
    isNew: Option<string>,
    tags: Option<string>)

  /** `z.string().uuid()`: five groups of 8, 4, 4, 4 and 12 hexadecimal digits joined by dashes. */
  predicate IsUuid(s: string)
  {
    |s| == 36 &&
    forall i :: 0 <= i < 36 ==> if i in {8, 13, 18, 23} then s[i] == '-' else IsHexDigit(s[i])
  }

  /** `!isNaN(parseFloat(v)) && parseFloat(v) >= 0`. */
  predicate NonNegativeDecimal(v: string)
  {
    ParseFloatSign(v) == NonNegative
  }

  /** `!isNaN(parseInt(v)) && parseInt(v) >= 0`. */
  predicate NonNegativeInteger(v: string)
  {
    ParseInt(v).Some? && ParseInt(v).value >= 0
  }

  /** The product's text fields before the prices that fail their length rules. */
  function ProductTextIssues(b: ProductBody): (r: seq<Field>)
    ensures forall x :: x in r ==> x in {NameField, ShortDescriptionField, LongDescriptionField}
    ensures r == [] <==> LengthIn(b.name, 2, 200) && OptionalMax(b.shortDescription, 500) && OptionalMax(b.longDescription, 10000)
  {
    Check(LengthIn(b.name, 2, 200), NameField) +
    Check(OptionalMax(b.shortDescription, 500), ShortDescriptionField) +
    Check(OptionalMax(b.longDescription, 10000), LongDescriptionField)
  }

  /** The price, promotional price and category rules. */
  function ProductPriceIssues(b: ProductBody): (r: seq<Field>)
    ensures forall x :: x in r ==> x in {PriceField, PromoPriceField, CategoryIdField}
    ensures PriceField in r <==> !(b.price.Some? && NonNegativeDecimal(b.price.value))
    ensures PromoPriceField in r <==> b.promoPrice.Some? && b.promoPrice.value != "" && !NonNegativeDecimal(b.promoPrice.value)
    ensures CategoryIdField in r <==> !(b.categoryId.Some? && IsUuid(b.categoryId.value))
  {
    var price := b.price.Some? && NonNegativeDecimal(b.price.value);
    var promo := b.promoPrice.None? || b.promoPrice.value == "" || NonNegativeDecimal(b.promoPrice.value);
    var category := b.categoryId.Some? && IsUuid(b.categoryId.value);
    ThreeChecks(price, PriceField, promo, PromoPriceField, category, CategoryIdField);
    Check(price, PriceField) + Check(promo, PromoPriceField) + Check(category, CategoryIdField)
  }

  /** Three checks on distinct fields report each field exactly when its own check fails. */
  lemma ThreeChecks(a: bool, fa: Field, b: bool, fb: Field, c: bool, fc: Field)
    requires fa != fb && fb != fc && fa != fc
    ensures var r := Check(a, fa) + Check(b, fb) + Check(c, fc);
      (fa in r <==> !a) && (fb in r <==> !b) && (fc in r <==> !c) && forall x :: x in r ==> x in {fa, fb, fc}
  {
  }

  /** The descriptive fields between the category and the stock. */
  function ProductDetailIssues(b: ProductBody): (r: seq<Field>)
    ensures forall x :: x in r ==> x in {WeightField, IngredientsField, PreparationTipsField, AllergensField}
    ensures r == [] <==>
      OptionalMax(b.weight, 50) && OptionalMax(b.ingredients, 2000) &&
      OptionalMax(b.preparationTips, 2000) && OptionalMax(b.allergens, 500)
  {
    Check(OptionalMax(b.weight, 50), WeightField) +
    Check(OptionalMax(b.ingredients, 2000), IngredientsField) +
    Check(OptionalMax(b.preparationTips, 2000), PreparationTipsField) +
    Check(OptionalMax(b.allergens, 500), AllergensField)
  }

  /** The stock and tag rules. */
  function ProductStockIssues(b: ProductBody): (r: seq<Field>)
    ensures forall x :: x in r ==> x in {StockField, TagsField}
    ensures StockField in r <==> !(b.stock.Some? && NonNegativeInteger(b.stock.value))
    ensures r == [] <==> b.stock.Some? && NonNegativeInteger(b.stock.value) && OptionalMax(b.tags, 500)
  {
    Check(b.stock.Some? && NonNegativeInteger(b.stock.value), StockField) +
    Check(OptionalMax(b.tags, 500), TagsField)
  }

  /** The product fields that fail their rules, in schema order. */
  function ProductIssues(b: ProductBody): (r: seq<Field>)
    ensures PriceField in r <==> !(b.price.Some? && NonNegativeDecimal(b.price.value))
    ensures PromoPriceField in r <==> b.promoPrice.Some? && b.promoPrice.value != "" && !NonNegativeDecimal(b.promoPrice.value)
    ensures StockField in r <==> !(b.stock.Some? && NonNegativeInteger(b.stock.value))
    ensures r == [] ==> LengthIn(b.name, 2, 200) && b.categoryId.Some? && IsUuid(b.categoryId.value)
  {
    var text := ProductTextIssues(b);
    var prices := ProductPriceIssues(b);
    var details := ProductDetailIssues(b);
    var stock := ProductStockIssues(b);
    assert PriceField !in text && PriceField !in details && PriceField !in stock;
    assert PromoPriceField !in text && PromoPriceField !in details && PromoPriceField !in stock;
    assert StockField !in text && StockField !in details && StockField !in prices;
    text + prices + details + stock
  }

  function ParseProduct(b: ProductBody): (r: Parsed<ProductBody>)
    ensures r.Accepted? <==> ProductIssues(b) == []
    ensures r.Accepted? ==> r.data == b && b.stock.Some? && ParseInt(b.stock.value).Some? && ParseInt(b.stock.value).value >= 0
    ensures r.Rejected? ==> r.issues == ProductIssues(b) && r.issues != []
  {
    var issues := ProductIssues(b);
    if issues == [] then Accepted(b) else Rejected(issues)
  }

  /** A stock written as a decimal numeral passes, and a minus sign before a non-zero one fails. */
  lemma StockNumeralRule(n: nat)
    ensures NonNegativeInteger(NatToString(n))
    ensures n > 0 ==> !NonNegativeInteger("-" + NatToString(n))
  {
    ParseIntNatToString(n);
  }

  /* ---------------------------------------------------------------------------------
   * Cart item, promotion code, review
   * --------------------------------------------------------------------------------- */

  /** A JSON number field, as far as `z.number().int()` can tell. */
  datatype NumberField = IntegerNumber(value: int) | FractionalNumber | NotANumber

  datatype CartItemBody = CartItemBody(productId: Option<string>, quantity: NumberField)

  /** `cartItemSchema`: a product uuid and an integer quantity from 1 to 99. */
  function ParseCartItem(b: CartItemBody): (r: Parsed<CartItemBody>)
    ensures r.Accepted? <==>
      b.productId.Some? && IsUuid(b.productId.value) && b.quantity.IntegerNumber? && 1 <= b.quantity.value <= 99
    ensures r.Accepted? ==> r.data == b
  {
    var issues :=
      Check(b.productId.Some? && IsUuid(b.productId.value), ProductIdField) +
      Check(b.quantity.IntegerNumber? && 1 <= b.quantity.value <= 99, QuantityField);
    if issues == [] then Accepted(b) else Rejected(issues)
  }

  /**
   * `promoCodeSchema`: a code of 3 to 30 characters, handed on upper-cased (the length
   * is checked before upper-casing, which may lengthen it).
   */
  function ParsePromoCode(code: Option<string>): (r: Parsed<string>)
    ensures r.Accepted? <==> LengthIn(code, 3, 30)
    ensures r.Accepted? ==> r.data == UpperCase(code.value) && |r.data| >= 3
    ensures r.Rejected? ==> r.issues == [CodeField]
  {
    if LengthIn(code, 3, 30) then Accepted(UpperCase(code.value)) else Rejected([CodeField])
  }

  datatype ReviewBody = ReviewBody(
    customerName: Option<string>,
    customerEmail: Option<string>,
    rating: Option<string>,
    comment: Option<string>)

  /** The rating rule: `parseInt` (the leading integer) lies in 1..5. */
  predicate ValidRating(v: string)
  {
    ParseInt(v).Some? && 1 <= ParseInt(v).value <= 5
  }

  /** The ratings "1" to "5" pass; "0" and "6" do not. */
  lemma RatingNumerals(n: nat)
    ensures ValidRating(NatToString(n)) <==> 1 <= n <= 5
  {
    ParseIntNatToString(n);
  }

  /** `reviewSchema`. */
  function ParseReview(b: ReviewBody, isEmail: string -> bool): (r: Parsed<ReviewBody>)
    ensures r.Accepted? <==>
      LengthIn(b.customerName, 2, 100) && b.customerEmail.Some? && isEmail(b.customerEmail.value) &&
      b.rating.Some? && ValidRating(b.rating.value) && LengthIn(b.comment, 10, 2000)
    ensures r.Accepted? ==> r.data == b
    ensures r.Rejected? ==> r.issues != []
  {
    var issues :=
      Check(LengthIn(b.customerName, 2, 100), CustomerNameField) +
      Check(b.customerEmail.Some? && isEmail(b.customerEmail.value), CustomerEmailField) +
      Check(b.rating.Some? && ValidRating(b.rating.value), RatingField) +
      Check(LengthIn(b.comment, 10, 2000), CommentField);
    if issues == [] then Accepted(b) else Rejected(issues)
  }

  /* ---------------------------------------------------------------------------------
   * The middleware
   * --------------------------------------------------------------------------------- */

  /** What `validateBody` does with a request: pass it on once with the parsed data, or answer 400. */
  datatype Validated<T> =
    | Next(validatedBody: T)
    | JsonErrors(status: int, errors: seq<Field>)
    | ErrorPage(status: int, message: string)

  /** The names of the fields, in order. */
  function FieldNames(fs: seq<Field>): (r: seq<string>)
    ensures |r| == |fs| && forall i :: 0 <= i < |fs| ==> r[i] == FieldName(fs[i])
  {
    seq(|fs|, i requires 0 <= i < |fs| => FieldName(fs[i]))
  }

  /** The request wants a JSON answer: an `/api` path, an XHR, or an Accept header naming JSON. */
  predicate WantsJson(path: string, xhr: bool, accept: Option<string>)
  {
    StartsWith(path, "/api") || xhr || (accept.Some? && Contains(accept.value, "application/json"))
  }

  /**
   * `validateBody(schema)`: the handler runs, with the parsed data, exactly when the
   * schema accepts; a rejection is a 400, as JSON for requests that want JSON and as
   * the error page (issues joined by ", ") otherwise.
   */
  function ValidateBody<T>(result: Parsed<T>, path: string, xhr: bool, accept: Option<string>): (r: Validated<T>)
    ensures r.Next? <==> result.Accepted?
    ensures r.Next? ==> r.validatedBody == result.data
    ensures !r.Next? ==> r.status == 400
    ensures r.JsonErrors? <==> result.Rejected? && WantsJson(path, xhr, accept)
    ensures r.JsonErrors? ==> r.errors == result.issues
    ensures r.ErrorPage? ==> r.message == Join(FieldNames(result.issues), ", ")
  {
    match result
    case Accepted(data) => Next(data)
    case Rejected(issues) =>
      if WantsJson(path, xhr, accept) then JsonErrors(400, issues)
      else ErrorPage(400, Join(FieldNames(issues), ", "))
  }
}

=== FILE: Wrappers.dfy ===
/** Optional values, used for the nullable and optional fields of the storefront's records. */
module Wrappers {

  datatype Option<+T> = None | Some(value: T) {

    /** The stored value, or `default` when there is none (JavaScript's `x ?? default`). */
    function GetOr(default: T): T
    {
      match this
      case Some(v) => v
      case None => default
    }
  }
}
